=== FILE: README.md ===
# Crew schedule server: a Dafny model

This project models the server core of a web dashboard for railway crew
members. The server logs into the operator's crew portal on the user's
behalf and reads the duty schedule and each day's duty diagram. It
derives a working location for each day and keeps its own user sessions
as signed tokens. The model covers four parts of that server:

- **Session tokens** (module `Auth`, on top of `Base64`, `Utf8` and
  `Json`). `base64UrlEncode` is base64url without padding (section 5 of
  RFC 4648, section 2 of RFC 7515). `createJwt` builds an HS256 compact
  serialization (section 7.1 of RFC 7515). `createSession` stores the
  token in a key-value store under `prefix + username`. `verifySession`
  takes the token from a cookie or a bearer header and accepts it only
  when the signature matches and the store still holds that exact token.
  `destroySession` removes the stored token.
- **Cookie jar** (module `Cookies`, on top of `Text` and `OrderedMap`).
  `parseSetCookie` reads one name-value pair from a Set-Cookie line.
  `mergeCookies` merges new pairs into a `Cookie` header string,
  `"; "`-joined as in section 5.4 of RFC 6265. `extractCookiesFromResponse`
  folds `parseSetCookie` over a response's Set-Cookie lines.
- **Portal client** (module `Portal`). `KorailClient` is modelled as a
  state `{cookieHeader, authenticated}` threaded through a scripted
  transport. The model covers:
  - the login decision tree of `authenticate`;
  - the response classifiers `_isSessionExpired` and `_parseJsonResponse`;
  - the "log in if needed, retry once on `Session expired`" wrapper `_execute`;
  - the request sequences of `getSchedule` and `getDiaInfo`.
- **Request-handler fragments** (module `Dashboard`):
  - the lowercase hex of the password digest;
  - the working-day filter over a fetched schedule;
  - the location rule over a day's duty segments;
  - the merge of stored locations into schedule items;
  - the colour map with its forced `비상` entry.

Some primitives are passed in as function-typed parameters and are never
given a definition:

- `Auth.Hmac` is HMAC-SHA256 and returns a 32-byte digest.
- `Dashboard.Sha256` is SHA-256.
- `Auth.Parse` / `Portal.Parse` is `JSON.parse`; `None` means it throws.

Round trips through `JSON.parse` assume `Json.InvertsStringify`, which
says that parsing inverts `Json.Stringify` on plain values. The
key-value store is a `map<string, string>`.

Each clock reading is a parameter in milliseconds; `createJwt` reads the
clock twice (server/auth.ts:29-30). The network is a sequence of scripted
replies, consumed in order, plus the list of requests sent. An exhausted
script reads as a network failure. JavaScript's `undefined` is `None`,
and reading a property of `null` or `undefined` yields the `TypeError`
message (`Json.Prop`). Plain objects and `Map`s are insertion-ordered
association lists (`OrderedMap`).

In these places the model follows the code exactly:

- `getDiaInfo` applies the redirect test to the identifier-lookup reply
  *before* merging its cookies (server/korail.ts:235-237). That lookup's
  `fetch` follows redirects, though, so a real expired lookup arrives as
  the login page itself. Its cookies are merged and the body test reports
  the expiry (`Portal.ExpiredLookupMergesJar`). Only a scripted redirect
  reply, which that `fetch` never returns, fails before the merge
  (`Portal.ExpiredLookupKeepsJar`).
- A failed visit to the login page gives `Failed to connect to server`
  without the `Auth error: ` prefix, because that step lies outside the
  `try` that adds the prefix (server/korail.ts:58-67).
- The signature is compared with plain `!==` (server/auth.ts:107).
  Nothing about timing is claimed.
- `parseSetCookie` tests the name for emptiness *before* trimming it, so
  `" =v"` yields the pair `("", "v")` (`Cookies.ParseSetCookieBlankName`).
- `verifySession` decodes the token body with `atob`, which yields one
  character per byte, and not with a UTF-8 decoder. This is logged under
  Findings.

## Model

| member | source | states |
|---|---|---|
| Base64.Base64UrlEncode | server/auth.ts:1-7 | The output uses only `A-Z a-z 0-9 - _`, has no `=`, and is `ceil(4n/3)` characters long for `n` bytes. |
| Base64.SextetsLength | server/auth.ts:3 | `btoa` makes `ceil(4n/3)` base64 digits before padding; the length modulo 4 is 0, 2 or 3 for `n` modulo 3 of 0, 1 or 2. |
| Base64.BytesSextets | server/auth.ts:3 | Regrouping the sextets back into bytes gives the original bytes. |
| Base64.DecodeEncode | server/auth.ts:112 | Decoding as verification does it (`-` to `+`, `_` to `/`, then `atob`) gives back exactly the encoded bytes. |
| Base64.EncodeNonEmpty | server/auth.ts:1-7 | Non-empty bytes give at least two characters, so no part of a token is empty. |
| Base64.StripPadding | server/auth.ts:6 | Removing trailing `=` strips exactly the zero, one or two padding characters. |
| Utf8.DecodeEncode | server/auth.ts:2 | A strict UTF-8 decoder inverts `TextEncoder` on every string. |
| Utf8.NonAsciiBinaryView | server/auth.ts:112 | A string is its own `atob` reading after UTF-8 encoding only if it is ASCII. |
| Utf8.AsciiBinaryView | server/auth.ts:112 | ASCII text survives UTF-8 encoding and a one-character-per-byte reading. |
| Json.StringifyBinaryView | server/auth.ts:27-34 | Reading the UTF-8 bytes of `JSON.stringify(v)` one character per byte is the stringification of `v` with every string replaced by its byte view. |
| Auth.Sign | server/auth.ts:9-23 | The tag is 43 base64url characters that decode to the HMAC of the UTF-8 secret and data. |
| Auth.Claims | server/auth.ts:27-31 | The claims have `iat` = first clock reading in seconds and `exp` = second reading in seconds + 31536000; every other field is the payload's, and the payload's field order is kept as a prefix. |
| Auth.ClaimsLifetime | server/auth.ts:29-30 | `exp` is at least `iat + 31536000`; it is exactly that when both readings fall in the same second, and at most one more when they are under a second apart. |
| Auth.CreateJwt | server/auth.ts:25-39 | The token has exactly three non-empty dot-separated parts, the third is the signature of the first two joined by `.`, and the first two decode to the header and the claims. |
| Auth.ThreeParts | server/auth.ts:35-38 | Joining three base64url strings with dots splits back into exactly those three. |
| Auth.ClaimsAppend | server/auth.ts:27-31 | A payload without `iat` and `exp` gets them appended after its own fields. |
| Auth.SessionClaimsShape | server/auth.ts:42 | A session's claims are `sub`, `role`, `iat` and `exp` in that order, and the role is `admin` exactly when the prefix is non-empty. |
| Auth.CreateSession | server/auth.ts:41-45 | The token is stored under `prefix + username`, and every other key keeps its entry. |
| Auth.DestroySession | server/auth.ts:137-139 | The key `prefix + username` is absent afterwards, and every other entry is kept. |
| Auth.DestroyIdempotent | server/auth.ts:137-139 | Destroying twice is the same as destroying once. |
| Auth.FindPrefixed | server/auth.ts:57 | `find(c => c.startsWith(p))` returns the first cookie with the prefix, and none before it has the prefix. |
| Auth.Candidate | server/auth.ts:48-95 | A cookie token, when present, is the candidate whatever the `Authorization` header says. Without one, a `Bearer ` header gives the text between its first and second blank (or to the end), if that is non-empty and, when it has three parts, its middle part decodes and parses to a non-`null` value; no cookie token and no such header gives none. Any candidate is non-empty. |
| Auth.NoTokenRefused | server/auth.ts:92-94 | With no cookie token and no `Bearer ` header, verification returns `null`. |
| Auth.FailedPeekRefused | server/auth.ts:81-89 | A three-part bearer token whose middle part does not decode, does not parse or parses to `null` is refused. |
| Auth.AdminCookieFirst | server/auth.ts:57-68 | An `admin_token` cookie beats an `auth_token` cookie that comes before it. |
| Auth.PickAdminSecond | server/auth.ts:57-60 | An admin cookie placed after another cookie is still the one picked. |
| Auth.CookieCarries | server/auth.ts:52-68 | A token in either cookie is read back intact. |
| Auth.BearerCarries | server/auth.ts:74-75 | `Bearer <token>` yields the token. |
| Auth.CheckToken | server/auth.ts:98-134 | A token verifies only if it has three non-empty leading parts, its signature part equals the recomputed signature, `sub` is truthy, and the store holds exactly this token under `("admin:" if role is admin) + sub`. |
| Auth.Accept | server/auth.ts:113-130 | Acceptance requires a truthy `sub` and the exact stored token; `isAdmin` is the payload's `role === 'admin'`. |
| Auth.VerifySession | server/auth.ts:47-135 | A verified session always comes from the request's candidate token, and the store holds that exact token under the looked-up key. |
| Auth.CheckTokenSigned | server/auth.ts:98-130 | For a correctly signed token whose body decodes and parses, verification is decided by the claims and the store alone. |
| Auth.IssuedCookieVerifies | server/auth.ts:41-45 | An issued token presented in either cookie verifies exactly when the username is non-empty and the store holds this token under the key its claims lead to. The role, not the cookie name, sets `isAdmin`. |
| Auth.IssuedBearerVerifies | server/auth.ts:72-130 | The same holds for an issued token presented as a bearer header, with the role peeked from the payload first. |
| Auth.IssueThenVerify | server/auth.ts:41-45 | After `createSession`, the token verifies to the same non-empty ASCII username and the admin flag of the prefix, by cookie or by bearer header. |
| Auth.CookieNameIgnored | server/auth.ts:117-120 | A user token sent in an `admin_token` cookie verifies as a non-admin session. |
| Auth.ReissueSameSecond | server/auth.ts:29-36 | Issuing twice with clock readings in the same seconds gives the same token. |
| Auth.Superseded | server/auth.ts:41-45 | After a second `createSession` for the same user, the first token no longer verifies when the two tokens differ. |
| Auth.ReissueKeepsToken | server/auth.ts:29-45 | A re-issue in the same second leaves the first token valid. |
| Auth.DestroyRevokes | server/auth.ts:124-128 | After `destroySession`, no request verifies to the destroyed key. |
| Auth.DestroyedTokenRejected | server/auth.ts:137-139 | An issued token is rejected once its session is destroyed. |
| Auth.SessionsKeepStoreIssued | server/auth.ts:41-45 | Creating and destroying sessions keep every stored value a three-part token. |
| Auth.ExtraPartsRejected | server/auth.ts:99 | A token of more than three parts passes the destructuring but never matches a stored token, so it is rejected. |
| Auth.NonAsciiSessionRejected | server/auth.ts:112 | As written, a session issued to a username with a non-ASCII character does not verify. |
| Auth.AccentedUserExample | server/auth.ts:112 | The username `é` is rejected as written and accepted with UTF-8 decoding. |
| Auth.IssueThenVerifyUtf8 | server/auth.ts:112 | With the body decoded as UTF-8, every non-empty username's session verifies. |
| Cookies.ParseSetCookie | server/utils.ts:2-13 | A null or empty header gives no pair and anything else at most one; a pair needs a `=` before the first `;`. |
| Cookies.ParseSetCookieEntry | server/utils.ts:6-10 | `name=value; attrs` gives the trimmed name and value; the attributes are ignored. |
| Cookies.ParseSetCookieNoEquals | server/utils.ts:8-9 | With no `=` before the first `;`, there is no pair. |
| Cookies.ParseSetCookieEmptyName | server/utils.ts:9 | An empty name gives no pair. |
| Cookies.ParseSetCookieBlankName | server/utils.ts:9-10 | A name of blanks passes the emptiness test before trimming and yields the name `""`. |
| Cookies.ExtractLastWins | server/utils.ts:41-43 | For a name set by several Set-Cookie lines, the jar holds the value of the last line that sets it. |
| Cookies.ExtractNames | server/utils.ts:41-43 | A name is in the jar exactly when some line sets it. |
| Cookies.ExtractCookiesCombined | server/utils.ts:44-48 | Without `getSetCookie`, the combined header yields at most one pair. |
| Cookies.ReadJar | server/utils.ts:16-22 | Reading an existing header gives each name at most once. |
| Cookies.ReadCookiesClean | server/utils.ts:18-21 | The names read from an existing header are non-empty, and neither names nor values hold `;`, `=` or outer blanks. |
| Cookies.MergeCookies | server/utils.ts:15-33 | Empty inputs give `""`. |
| Cookies.ReadSerialized | server/utils.ts:28-32 | A serialized jar reads back as the same jar. |
| Cookies.MergeReadBack | server/utils.ts:15-33 | Reading the merged header back gives the existing jar overwritten by the new pairs in order. |
| Cookies.MergeLastWriteWins | server/utils.ts:15-33 | Every new name has its new value, names only in the existing header keep theirs, existing names come first in their order, and no name repeats. |
| Cookies.ExistingValueTruncated | server/utils.ts:19 | An existing segment `name=value=rest` is kept as `name=value`: the value is cut at the second `=`. |
| Portal.NewClient | server/korail.ts:37-46 | A new client has an empty jar and is not authenticated. |
| Portal.Fetch | server/korail.ts:59-62 | Each fetch consumes one scripted reply and records the request; an exhausted script is a network failure. |
| Portal.UpdateCookies | server/korail.ts:48-51 | Merging cookies changes neither the credentials nor the authenticated flag. |
| Portal.UpdateCookiesLastWins | server/korail.ts:48-51 | The new jar reads as the old one overwritten by the response's cookies, the last Set-Cookie line winning. |
| Portal.IsSessionExpired | server/korail.ts:193-199 | Expired holds exactly for a 302 or 303 whose `Location` contains `loginView.do`; any other status or a missing `Location` gives false. |
| Portal.ParseJsonResponse | server/korail.ts:202-213 | A body containing `loginView.do` is `Session expired` whatever it parses to. Otherwise a parse failure is `Invalid JSON response from server`, and a successful parse is returned. |
| Portal.Authenticate | server/korail.ts:53-129 | The result is true exactly when the client ends authenticated. Errors are `Failed to connect to server` or start with `Auth error: `. The first request is the login page with no cookie, and one to three requests are made. |
| Portal.AuthenticateSucceeds | server/korail.ts:93-111 | Login succeeds exactly when the page visit answers, the login answers with a 302/303 to `extrRltmCrewWrkPstt.do`, and the follow-up is not a redirect to `loginView.do`. |
| Portal.AuthenticateResets | server/korail.ts:54-91 | The login post carries only the cookies of the login page, whatever the client held before, with the form `message`, `epno`, `pwd`. |
| Portal.LoginDecision | server/korail.ts:93-128 | Every failure of the login response is prefixed `Auth error: `, and authentication is set only on success. |
| Portal.ConfirmSession | server/korail.ts:97-111 | The follow-up makes exactly one request and fails only with the `Auth error: ` prefix. |
| Portal.LoginRejected | server/korail.ts:113-124 | A redirect to `loginView.do`, or a body containing `loginView` or `로그인`, gives the incorrect-credentials error; anything else gives `Unexpected login response: <status>`. |
| Portal.Execute | server/korail.ts:173-191 | The action runs at most twice (once without retry) and login happens at most twice. An unauthenticated client logs in first. Success implies authenticated. |
| Portal.ExecuteOnce | server/korail.ts:178-189 | An authenticated client whose action does not fail with `Session expired` (or may not retry) gets the action's result unchanged, after one run. |
| Portal.ExecuteRetry | server/korail.ts:180-186 | On `Session expired`, the client logs in again and the action runs once more without retry. |
| Portal.Schedule | server/korail.ts:133-171 | The schedule step keeps the login state and makes one or two requests, two on success. |
| Portal.ScheduleOutcome | server/korail.ts:136-168 | Without expiry, the list page and the schedule query are sent with the jar of the moment, and the result is `data.data` when truthy and `[]` otherwise. |
| Portal.ResolvePdiaNo | server/korail.ts:239-244 | Resolution throws exactly when the reply is `null` or the first list item is `null`. |
| Portal.ResolveFromList | server/korail.ts:240-241 | A non-empty `pdiaNo` list gives its first item's `pdiaNo`. |
| Portal.ResolveFromRecord | server/korail.ts:242-244 | Otherwise `extrCrewMgVO.pdiaNo` is used when it is truthy, and the current id is kept when it is not. |
| Portal.DiaDetail | server/korail.ts:247-267 | No identifier gives `null` with no request; an identifier gives exactly one detail request. |
| Portal.KnownIdSkipsLookup | server/korail.ts:218-220 | A non-empty known id makes no lookup: the only request is the detail request for that id. |
| Portal.LookupThenDetail | server/korail.ts:220-261 | Without a known id, the lookup is sent first; an empty result returns `null` after it, and otherwise the detail request follows with the resolved id and the updated jar. |
| Portal.ExpiredLookupMergesJar | server/korail.ts:229-239 | A followed lookup reply holding the login page is never a redirect to it. Its cookies are merged, and the lookup fails with `Session expired` after that single request. |
| Portal.ExpiredLookupKeepsJar | server/korail.ts:235-237 | A redirect reply to the login page fails with `Session expired` and leaves the jar untouched. |
| Portal.Perform | server/korail.ts:173-186 | A successful action leaves the client authenticated. |
| Dashboard.HexEncode | server/index.ts:50-53 | The hex is twice as long as the digest. |
| Dashboard.HexEncodeDigits | server/index.ts:53 | Every character is a lowercase hex digit. |
| Dashboard.HexPair | server/index.ts:53 | Each byte becomes exactly two digits, the high nibble first, padded with `0`. |
| Dashboard.HexDecodeEncode | server/index.ts:50-53 | Reading the hex back gives the digest, so distinct digests give distinct hashes. |
| Dashboard.PasswordHash | server/index.ts:50-53 | The stored hash is 64 characters long. |
| Dashboard.IsWorkingDay | server/index.ts:177-180 | The callback throws exactly for a `null` item or a truthy `pdiaNo` that is not a string. A missing or falsy `pdiaNo` (`null`, `0`, `false`, `""`) is not a working day. A string `pdiaNo` is one exactly when it is non-empty, not `S` and does not start with `~`. |
| Dashboard.WorkingDaysSucceed | server/index.ts:177-180 | The filter succeeds exactly when no item makes the callback throw. |
| Dashboard.WorkingDaysExact | server/index.ts:177-180 | On every schedule the filter accepts, every kept item is a working day from the schedule, and every working day is kept. |
| Dashboard.WorkingDaysAreKept | server/index.ts:177-180 | On every schedule the filter accepts, it returns exactly `Kept`, the working days in schedule order. |
| Dashboard.KeptCount | server/index.ts:177-180 | A working day occurs among the kept items as often as in the schedule; any other item does not occur. |
| Dashboard.WorkingDaysOrdered | server/index.ts:177-180 | The kept items are a subsequence of the schedule. |
| Dashboard.Location | server/index.ts:200-207 | Segments that are neither a non-empty array nor an object with a positive numeric `length` give location `""`. For such an object, the result is `비상` when its member `"0"` has kind `비상`, and an error otherwise. A non-empty array throws on a `null` first segment, gives `비상` when that segment has that kind, and otherwise gives the first station name of the segments. |
| Dashboard.EmergencyFirst | server/index.ts:206-207 | A first segment of kind `비상` gives `비상` whatever the station fields say. |
| Dashboard.FirstStationFound | server/index.ts:209-222 | The loop stops at the first segment, in order, with a truthy `dptStnNm` (preferred) or `depStnNm`, and yields that name. |
| Dashboard.StationLocation | server/index.ts:200-222 | When the first segment is not of kind `비상`, the day's location is the name the loop finds. |
| Dashboard.NoStation | server/index.ts:209-222 | With no such segment, the location is `""`. |
| Dashboard.EmptyDataHidesList | server/index.ts:201 | An empty `data` array is truthy, so `extrCrewDiaList` is not consulted and the location is `""`. |
| Dashboard.LocationMap | server/index.ts:135-138 | The map gives, for each date, the location of the last row for that date. |
| Dashboard.MergeItem | server/index.ts:140-145 | An item object gains `location` exactly when its date maps to a non-empty location, and is otherwise unchanged; a `null` item throws. |
| Dashboard.MergedItem | server/index.ts:140-145 | The merged item has the last row's location, and every other field is unchanged. |
| Dashboard.MergeLocations | server/index.ts:140-145 | The merge keeps the number of items and treats each item on its own. |
| Dashboard.MergeObjects | server/index.ts:140-145 | A schedule of objects always merges without error. |
| Dashboard.ColorMap | server/index.ts:150-155 | `비상` maps to `hsl(0, 1%, 52%)` whatever the rows say; every other name maps to its last row's colour; no name repeats. |

## Left out

- `mapConcurrent` (server/utils.ts:54-68): bounded concurrency with results in completion order, and no sequential logic.
- `generateColor` (server/utils.ts:71-86) and the hue-collision retry (server/index.ts:250-260): they rely on 32-bit shift arithmetic, floating point and `Math.random`.
- `TrainClient` (server/korail.ts:273-335): a proxy whose only logic is time-zone formatting with `Date`.
- The routing, CORS, SQL and response construction of server/index.ts, and the dev-secret fallback (server/index.ts:92). Requests, the database and the key-value store are plumbing.
- The client-side router src/router/index.ts and the build configuration vite.config.ts.
- HMAC-SHA256, SHA-256 and `JSON.parse` are uninterpreted parameters. `JSON.stringify`, `TextEncoder`, `btoa` and `atob` are defined only for the values that occur here: objects, arrays, strings, integers, booleans and `null`.
- Request headers other than `Cookie` (user agent, `Referer`, `Origin`) and the logout URL: they do not affect any decision.
- Asynchronous scheduling: each operation is a sequence of awaited steps, so it is modelled as sequential.
- Expiry of tokens: `exp` is written but never checked at verification.
- Timing of the signature comparison (server/auth.ts:107): a plain `!==`; no constant-time claim is made.
- Inherited object keys: `locMap[...]` and `colorMap[...]` on plain objects would also see `Object.prototype` members such as `constructor`. The model treats those objects as holding only their own keys.
- `__proto__` keys: on a plain object, `obj["__proto__"] = "x"` calls the inherited setter, which ignores a string, so no entry appears. The source writes such keys in `parseSetCookie` (server/utils.ts:10), and therefore `extractCookiesFromResponse`, and in `locMap` and `colorMap` (server/index.ts:137, 152). `Cookies.ParseSetCookie`, `Cookies.ExtractCookies`, `Dashboard.LocationMap` and `Dashboard.ColorMap` store the name `__proto__` like any other.
- Integer-like property names: a JavaScript object lists them first in numeric order. The model keeps insertion order for every name.
- A schedule that is not an array: `getSchedule` may return a non-array `data`, on which `filter` would throw. The model filters a sequence of items.
- JSON numbers are integers; fractions and exponents are not modelled. Every integer is kept exactly, whereas `JSON.parse` rounds integers beyond 2^53 to the nearest double and `JSON.stringify` writes integers of 10^21 and above with an exponent; `Json.InvertsStringify` holds only below those limits in the source.
- Auth.Accept: a payload that parses to a JSON string has an inherited `sub`, `String.prototype.sub`, which is a truthy function. The source (server/auth.ts:113-124) would then look up the store under that function's source text with `isAdmin` false. The model reads the `sub` as absent and refuses such a payload (`Auth.StringPayloadRefused`). No session written by `createSession` has that key.
- Cookies.MergeCookies: its own contract only covers empty inputs. Its content is stated by `Cookies.MergeReadBack` and `Cookies.MergeLastWriteWins`, for new pairs free of `;`, `=` and outer blanks. Pairs from `parseSetCookie` can hold `=` in the value, and such a value does not read back whole; `Cookies.ExistingValueTruncated` shows the cut.
- Portal.UpdateCookiesLastWins: it needs Set-Cookie pairs free of `;`, `=` and outer blanks, for the same reason as `Cookies.MergeReadBack`. A value holding `=`, such as base64 padding, is merged by `updateCookies` (server/korail.ts:48-51) but not covered by this lemma.
- Dashboard.MergeItem: a number, string or boolean item whose date matches makes the assignment throw. The message is an approximation of the engine's `TypeError` text.
- Dashboard.Location: it needs a non-`null` diagram; the caller returns early for a falsy one (server/index.ts:190). An object whose `length` is not a number but compares above `0`, such as `"1"` or `true`, is treated like one with no `length`. The error thrown by looping over an array-like object is an approximation of the engine's `TypeError` text.
- Redirect modes: a `Request` does not record whether its `fetch` follows redirects. The schedule query, the identifier lookup and the detail request do (server/korail.ts:159, 229, 257). A scripted redirect reply to any of them describes a reply the real `fetch` never returns; `Portal.Followed` says which replies can occur.
- UTF-16: strings are sequences of Unicode scalar values. A JavaScript string can hold a lone surrogate such as `\ud800` from a JSON escape, which `TextEncoder` turns into U+FFFD; such strings cannot be written down here.
- Portal.Execute: it bounds the number of runs and logins but does not restate every error path. `Portal.ExecuteOnce` and `Portal.ExecuteRetry` give the exact outcome for an authenticated client.

## Findings

| source | as written | input that shows it | evidently intended | confidence | as-written member | corrected member |
|---|---|---|---|---|---|---|
| server/auth.ts:112 | The token body is decoded with `atob`, which returns one character per byte. The UTF-8 bytes of a non-ASCII `sub` are read as several Latin-1 characters, and the store is looked up under that mangled name. | A session for username `é`: the lookup key becomes `Ã©`, which is not in the store, so the fresh token is rejected. | Decode the body's bytes as UTF-8 before `JSON.parse`, so that every issued session verifies under its own username. | not executed | Auth.NonAsciiSessionRejected | Auth.IssueThenVerifyUtf8 |

=== FILE: auth.dfy ===
/** Session tokens and the authenticator (server/auth.ts).

    A session token is a JWS compact serialization (section 7.1 of
    RFC 7515) with an HS256 signature (section 3.2 of RFC 7518): the
    base64url header, a dot, the base64url claims, a dot and the base64url
    HMAC tag of the first two parts. The key-value store holds the one
    live token per user; verification accepts a token only when it is the
    stored one, so issuing a new session or destroying the current one
    revokes older tokens.

    Foreign primitives are parameters: `hmac` is HMAC-SHA256 keyed by the
    UTF-8 secret, `parse` is `JSON.parse`, and the two clock readings of
    `createJwt` are milliseconds since the epoch.
 */
module Auth {
  import opened Results
  import opened Text
  import opened OrderedMap
  import opened Utf8
  import opened Base64
  import opened Json

  /** An HMAC-SHA256 tag is 32 bytes long. */
  type Digest = d: seq<byte> | |d| == 32 witness seq(32, i => 0)

  /** HMAC-SHA256(key, message). */
  type Hmac = (seq<byte>, seq<byte>) -> Digest

  /** `JSON.parse`: `None` where it throws. */
  type Parse = string -> Option<Json>

  /** The key-value namespace of live sessions. */
  type Store = map<string, string>

  /** Seconds in the 365-day token lifetime. */
  const Year: int := 60 * 60 * 24 * 365

  const AdminPrefix: string := "admin:"

  /** The JOSE header `{"alg":"HS256","typ":"JWT"}`. */
  const Header: Json := JObj([("alg", JStr("HS256")), ("typ", JStr("JWT"))])

  /** `sign(data, secret)`: the base64url HMAC tag of the UTF-8 data. */
  function Sign(hmac: Hmac, data: string, secret: string): (r: string)
    ensures |r| == 43
    ensures forall i :: 0 <= i < |r| ==> IsUrlChar(r[i])
    ensures DecodeSegment(r) == Some(hmac(Encode(secret), Encode(data)))
  {
    Base64.DecodeEncode(hmac(Encode(secret), Encode(data)));
    Base64UrlEncode(hmac(Encode(secret), Encode(data)))
  }

  /** `Math.floor(ms / 1000)`: whole seconds of a clock reading in
      milliseconds (Euclidean division by a positive divisor floors). */
  function Seconds(ms: int): int {
    ms / 1000
  }

  /** `{...payload, iat, exp}` with the two clock readings `now1` and `now2`
      in milliseconds. */
  function Claims(payload: seq<(string, Json)>, now1: int, now2: int): (r: seq<(string, Json)>)
    ensures Get(r, "iat") == Some(JNum(Seconds(now1)))
    ensures Get(r, "exp") == Some(JNum(Seconds(now2) + Year))
    ensures forall k :: k != "iat" && k != "exp" ==> Get(r, k) == Get(payload, k)
    ensures |Keys(payload)| <= |Keys(r)| && Keys(r)[..|Keys(payload)|] == Keys(payload)
  {
    Stamp(payload, Seconds(now1), Seconds(now2) + Year)
  }

  /** The payload's fields followed by `iat` and `exp`, each assigned in
      place when the payload already has it. */
  function Stamp(payload: seq<(string, Json)>, iat: int, exp: int): (r: seq<(string, Json)>)
    ensures Get(r, "iat") == Some(JNum(iat))
    ensures Get(r, "exp") == Some(JNum(exp))
    ensures forall k :: k != "iat" && k != "exp" ==> Get(r, k) == Get(payload, k)
    ensures |Keys(payload)| <= |Keys(r)| && Keys(r)[..|Keys(payload)|] == Keys(payload)
  {
    var rows := [("iat", JNum(iat)), ("exp", JNum(exp))];
    assert Keys(rows) == ["iat", "exp"];
    PutAll(payload, rows)
  }

  /** `createJwt(payload, secret)`: three non-empty dot-separated parts that
      decode to the header and the claims, the third being the signature
      of the first two. */
  function CreateJwt(hmac: Hmac, payload: seq<(string, Json)>, secret: string, now1: int, now2: int): (r: string)
    ensures TokenChars(r)
    ensures var parts := Split(r, '.');
            |parts| == 3 && parts[0] != "" && parts[1] != "" && parts[2] != ""
            && parts[2] == Sign(hmac, parts[0] + "." + parts[1], secret)
            && DecodeSegment(parts[0]) == Some(Encode(Stringify(Header)))
            && DecodeSegment(parts[1]) == Some(Encode(Stringify(JObj(Claims(payload, now1, now2)))))
  {
    var h := Base64UrlEncode(Encode(Stringify(Header)));
    var b := Base64UrlEncode(Encode(Stringify(JObj(Claims(payload, now1, now2)))));
    var s := Sign(hmac, h + "." + b, secret);
    Base64.DecodeEncode(Encode(Stringify(Header)));
    Base64.DecodeEncode(Encode(Stringify(JObj(Claims(payload, now1, now2)))));
    EncodeNonEmpty(Encode(Stringify(Header)));
    EncodeNonEmpty(Encode(Stringify(JObj(Claims(payload, now1, now2)))));
    ThreeParts(h, b, s);
    h + "." + b + "." + s
  }

  /** Every character of a compact serialization is a base64url character
      or a dot. */
  predicate TokenChars(t: string) {
    forall i :: 0 <= i < |t| ==> IsUrlChar(t[i]) || t[i] == '.'
  }

  /** Base64url text has no dot, so it splits into the three parts it was
      joined from. */
  lemma ThreeParts(h: string, b: string, s: string)
    requires forall i :: 0 <= i < |h| ==> IsUrlChar(h[i])
    requires forall i :: 0 <= i < |b| ==> IsUrlChar(b[i])
    requires forall i :: 0 <= i < |s| ==> IsUrlChar(s[i])
    ensures Split(h + "." + b + "." + s, '.') == [h, b, s]
    ensures TokenChars(h + "." + b + "." + s)
  {
    assert '.' !in h && '.' !in b && '.' !in s;
    SplitThree(h, b, s);
    assert TokenChars(".") by { assert "."[0] == '.'; }
    TokenCharsJoin(h, ".");
    TokenCharsJoin(h + ".", b);
    TokenCharsJoin(h + "." + b, ".");
    TokenCharsJoin(h + "." + b + ".", s);
  }

  lemma TokenCharsJoin(a: string, b: string)
    requires TokenChars(a) && TokenChars(b)
    ensures TokenChars(a + b)
  {
    forall i | 0 <= i < |a + b|
      ensures IsUrlChar((a + b)[i]) || (a + b)[i] == '.'
    {
      if i < |a| {
        assert (a + b)[i] == a[i];
      } else {
        assert (a + b)[i] == b[i - |a|];
      }
    }
  }

  lemma SplitThree(h: string, b: string, s: string)
    requires '.' !in h && '.' !in b && '.' !in s
    ensures Split(h + "." + b + "." + s, '.') == [h, b, s]
  {
    assert h + "." + b + "." + s == h + ['.'] + (b + ['.'] + s);
    SplitAfterPiece(h, '.', b + ['.'] + s);
    SplitAfterPiece(b, '.', s);
    SplitNoSeparator(s, '.');
  }

  /** The claims `createSession` asks for: `sub` and `role`. */
  function SessionPayload(username: string, prefix: string): seq<(string, Json)> {
    [("sub", JStr(username)), ("role", JStr(if prefix != "" then "admin" else "user"))]
  }

  /** The claims object of a session token, field by field in the order
      `JSON.stringify` writes it. */
  function SessionClaims(username: string, role: string, iat: int, exp: int): Json {
    JObj([("sub", JStr(username)), ("role", JStr(role)), ("iat", JNum(iat)), ("exp", JNum(exp))])
  }

  /** A payload without `iat` or `exp` gets the two appended after its own fields. */
  lemma ClaimsAppend(payload: seq<(string, Json)>, now1: int, now2: int)
    requires "iat" !in Keys(payload) && "exp" !in Keys(payload)
    ensures Claims(payload, now1, now2)
         == payload + [("iat", JNum(Seconds(now1))), ("exp", JNum(Seconds(now2) + Year))]
  {
    var rows := [("iat", JNum(Seconds(now1))), ("exp", JNum(Seconds(now2) + Year))];
    assert Keys(rows) == ["iat", "exp"];
    PutAllFresh(payload, rows);
  }

  /** The issued claims are `sub`, `role`, `iat`, `exp` in that order. */
  lemma SessionClaimsShape(username: string, prefix: string, now1: int, now2: int)
    ensures JObj(Claims(SessionPayload(username, prefix), now1, now2))
         == SessionClaims(username, if prefix != "" then "admin" else "user", Seconds(now1), Seconds(now2) + Year)
  {
    var role := if prefix != "" then "admin" else "user";
    var p := SessionPayload(username, prefix);
    var ks := Keys(p);
    assert ks[0] == "sub" && ks[1] == "role" && |ks| == 2;
    assert "iat" !in ks && "exp" !in ks;
    ClaimsAppend(p, now1, now2);
    var rows := [("iat", JNum(Seconds(now1))), ("exp", JNum(Seconds(now2) + Year))];
    assert p + rows == [("sub", JStr(username)), ("role", JStr(role)), rows[0], rows[1]];
  }

  /** The store key of a session: `${prefix}${username}`. */
  function SessionKey(prefix: string, username: string): string {
    prefix + username
  }

  /** `createSession(kv, username, secret, prefix)`: the token and the
      store after `kv.put`. */
  function CreateSession(hmac: Hmac, kv: Store, username: string, secret: string, prefix: string, now1: int, now2: int)
    : (r: (string, Store))
    ensures r.0 == CreateJwt(hmac, SessionPayload(username, prefix), secret, now1, now2)
    ensures SessionKey(prefix, username) in r.1 && r.1[SessionKey(prefix, username)] == r.0
    ensures forall k :: k != SessionKey(prefix, username) ==> (k in r.1 <==> k in kv)
    ensures forall k :: k != SessionKey(prefix, username) && k in kv ==> r.1[k] == kv[k]
  {
    var token := CreateJwt(hmac, SessionPayload(username, prefix), secret, now1, now2);
    StorePut(kv, SessionKey(prefix, username), token);
    (token, kv[SessionKey(prefix, username) := token])
  }

  /** `kv.put(key, v)` holds `v` under `key` and keeps every other entry. */
  lemma StorePut(kv: Store, key: string, v: string)
    ensures key in kv[key := v] && kv[key := v][key] == v
    ensures forall k :: k != key ==> (k in kv[key := v] <==> k in kv)
    ensures forall k :: k != key && k in kv ==> kv[key := v][k] == kv[k]
  {
  }

  /** `destroySession(kv, username, prefix)`: the store after `kv.delete`. */
  function DestroySession(kv: Store, username: string, prefix: string): (r: Store)
    ensures SessionKey(prefix, username) !in r
    ensures forall k :: k != SessionKey(prefix, username) ==> (k in r <==> k in kv)
    ensures forall k :: k in r ==> r[k] == kv[k]
  {
    kv - {SessionKey(prefix, username)}
  }

  /** The request headers `verifySession` reads; `None` is an absent header. */
  datatype Request = Request(cookie: Option<string>, authorization: Option<string>)

  /** A verified session: the `sub` claim and whether the role is admin. */
  datatype Verified = Verified(username: Json, isAdmin: bool)

  /** The store key verification looks up for a verified session. */
  function LookupKey(v: Verified): string {
    (if v.isAdmin then AdminPrefix else "") + ToJsString(v.username)
  }

  /** The position of the first item that starts with `p`, or `|items|`. */
  function FindPrefixed(items: seq<string>, p: string): (i: nat)
    ensures i <= |items|
    ensures i < |items| ==> StartsWith(items[i], p)
    ensures forall j :: 0 <= j < i ==> !StartsWith(items[j], p)
    decreases |items|
  {
    if |items| == 0 then 0
    else if StartsWith(items[0], p) then 0
    else 1 + FindPrefixed(items[1..], p)
  }

  /** `c.split("=")[1]` for a cookie that starts with `name=`: the text
      between its first and second `=`. */
  function CookieValue(c: string, name: string): string
    requires StartsWith(c, name + "=")
  {
    assert c[|name|] == (name + "=")[|name|];
    SplitAtSeparator(c, '=', |name|);
    Split(c, '=')[1]
  }

  /** The token the `Cookie` header carries, `""` when it carries none:
      an `admin_token` cookie is preferred over an `auth_token` one. */
  function CookieToken(header: Option<string>): string {
    if header.None? || header.value == "" then "" else PickToken(Cookies(header.value))
  }

  /** `header.split(';').map(c => c.trim())` */
  function Cookies(header: string): (r: seq<string>)
    ensures |r| >= 1
  {
    var pieces := Split(header, ';');
    seq(|pieces|, i requires 0 <= i < |pieces| => Trim(pieces[i]))
  }

  /** The value of the first `admin_token` cookie, else of the first
      `auth_token` cookie, else `""`. */
  function PickToken(cookies: seq<string>): string {
    var a := FindPrefixed(cookies, "admin_token=");
    var u := FindPrefixed(cookies, "auth_token=");
    if a < |cookies| then CookieValue(cookies[a], "admin_token")
    else if u < |cookies| then CookieValue(cookies[u], "auth_token")
    else ""
  }

  lemma CookieValueOf(name: string, v: string)
    requires '=' !in name && '=' !in v
    ensures StartsWith(name + "=" + v, name + "=")
    ensures CookieValue(name + "=" + v, name) == v
  {
    assert name + "=" + v == name + ['='] + v;
    assert (name + "=" + v)[..|name| + 1] == name + "=";
    SplitAfterPiece(name, '=', v);
    SplitNoSeparator(v, '=');
  }

  /** A header without `;` whose ends are not white space is one cookie. */
  lemma SingleCookie(h: string)
    requires ';' !in h && |h| > 0 && !IsJsSpace(h[0]) && !IsJsSpace(h[|h| - 1])
    ensures Cookies(h) == [h]
  {
    SplitNoSeparator(h, ';');
    TrimUnchanged(h);
  }

  /** The role claim of a parsed payload is exactly the string `admin`. */
  predicate ClaimsAdmin(payload: Json) {
    Prop(Some(payload), "role") == Ok(Some(JStr("admin")))
  }

  /** The speculative decode of a bearer token's claims: a three-part token
      whose middle part fails to decode or parse, or parses to `null`, makes
      `verifySession` return `null` at once. */
  predicate PeekSucceeds(parse: Parse, token: string) {
    var parts := Split(token, '.');
    |parts| != 3 ||
      match DecodeSegment(parts[1])
      case None => false
      case Some(bytes) =>
        match parse(BinaryString(bytes))
        case None => false
        case Some(payload) => Prop(Some(payload), "role").Ok?
  }

  /** Steps 1 and 2 of `verifySession`: the token to check, or `None` when
      the request yields none or the bearer peek throws. */
  function Candidate(parse: Parse, req: Request): (r: Option<string>)
    ensures r.Some? ==> r.value != ""
    ensures CookieToken(req.cookie) != "" ==> r == Some(CookieToken(req.cookie))
    ensures CookieToken(req.cookie) == "" && !HasBearer(req) ==> r.None?
    ensures CookieToken(req.cookie) == "" && HasBearer(req)
            ==> var b := BearerToken(req.authorization.value);
                r == if b != "" && PeekSucceeds(parse, b) then Some(b) else None
  {
    var t := CookieToken(req.cookie);
    if t != "" then Some(t)
    else if HasBearer(req) then
      var b := BearerToken(req.authorization.value);
      if !PeekSucceeds(parse, b) || b == "" then None else Some(b)
    else None
  }

  /** `authHeader && authHeader.startsWith("Bearer ")` */
  predicate HasBearer(req: Request) {
    req.authorization.Some? && StartsWith(req.authorization.value, "Bearer ")
  }

  /** `authHeader.split(" ")[1]`: the text between the first and the
      second blank, or up to the end when there is no second blank. */
  function BearerToken(h: string): string
    requires StartsWith(h, "Bearer ")
  {
    assert h[6] == "Bearer "[6];
    SplitAtSeparator(h, ' ', 6);
    Split(h, ' ')[1]
  }

  /** A request with no token in its cookies and no `Bearer ` header is
      refused before any signature or store is consulted. */
  lemma NoTokenRefused(hmac: Hmac, parse: Parse, kv: Store, req: Request, secret: string)
    requires CookieToken(req.cookie) == "" && !HasBearer(req)
    ensures VerifySession(hmac, parse, kv, req, secret) == None
    ensures VerifySessionUtf8(hmac, parse, kv, req, secret) == None
  {
  }

  /** A bearer token whose speculative decode fails is refused, whatever the
      store holds. */
  lemma FailedPeekRefused(hmac: Hmac, parse: Parse, kv: Store, req: Request, secret: string)
    requires CookieToken(req.cookie) == "" && HasBearer(req)
    requires !PeekSucceeds(parse, BearerToken(req.authorization.value))
    ensures VerifySession(hmac, parse, kv, req, secret) == None
  {
  }

  /** How the decoded claims bytes become text for `JSON.parse`: as written
      they are read one character per byte (`atob`); the corrected reading
      decodes them as UTF-8. */
  datatype Reading = AsBinary | AsUtf8

  function ReadText(reading: Reading, bytes: seq<byte>): Option<string> {
    match reading
    case AsBinary => Some(BinaryString(bytes))
    case AsUtf8 => Decode(bytes)
  }

  /** Steps 3 to 5 of `verifySession` for one candidate token. */
  function CheckToken(reading: Reading, hmac: Hmac, parse: Parse, kv: Store, token: string, secret: string)
    : (r: Option<Verified>)
    ensures r.Some? ==>
              var parts := Split(token, '.');
              |parts| >= 3 && parts[0] != "" && parts[1] != "" && parts[2] != ""
              && parts[2] == Sign(hmac, parts[0] + "." + parts[1], secret)
              && Truthy(Some(r.value.username))
              && LookupKey(r.value) in kv && kv[LookupKey(r.value)] == token
  {
    var parts := Split(token, '.');
    if |parts| < 3 || parts[0] == "" || parts[1] == "" || parts[2] == "" then None
    else if parts[2] != Sign(hmac, parts[0] + "." + parts[1], secret) then None
    else
      match DecodeSegment(parts[1])
      case None => None
      case Some(bytes) =>
        match ReadText(reading, bytes)
        case None => None
        case Some(text) =>
          match parse(text)
          case None => None
          case Some(payload) => Accept(payload, kv, token)
  }

  /** Steps 4 and 5: a parsed payload with a truthy `sub` whose store entry
      is exactly this token. */
  function Accept(payload: Json, kv: Store, token: string): (r: Option<Verified>)
    ensures r.Some? ==> Truthy(Some(r.value.username))
                        && LookupKey(r.value) in kv && kv[LookupKey(r.value)] == token
                        && (r.value.isAdmin <==> ClaimsAdmin(payload))
                        && Prop(Some(payload), "sub") == Ok(Some(r.value.username))
  {
    match Prop(Some(payload), "sub")
    case Fail(_) => None
    case Ok(sub) =>
      if !Truthy(sub) then None
      else
        var v := Verified(sub.value, ClaimsAdmin(payload));
        if LookupKey(v) in kv && kv[LookupKey(v)] == token then Some(v) else None
  }

  /** A payload that parses to a string has no `sub` of its own here, so
      it is refused whatever the store holds. */
  lemma StringPayloadRefused(s: string, kv: Store, token: string)
    ensures Accept(JStr(s), kv, token) == None
  {
  }

  /** `verifySession(kv, request, secret)` as written. */
  function VerifySession(hmac: Hmac, parse: Parse, kv: Store, req: Request, secret: string)
    : (r: Option<Verified>)
    ensures r.Some? ==> Candidate(parse, req).Some?
                        && LookupKey(r.value) in kv && kv[LookupKey(r.value)] == Candidate(parse, req).value
  {
    match Candidate(parse, req)
    case None => None
    case Some(t) => CheckToken(AsBinary, hmac, parse, kv, t, secret)
  }

  /** `verifySession` with the claims decoded as UTF-8 before parsing. */
  function VerifySessionUtf8(hmac: Hmac, parse: Parse, kv: Store, req: Request, secret: string)
    : (r: Option<Verified>)
    ensures r.Some? ==> Candidate(parse, req).Some?
                        && LookupKey(r.value) in kv && kv[LookupKey(r.value)] == Candidate(parse, req).value
  {
    match Candidate(parse, req)
    case None => None
    case Some(t) => CheckToken(AsUtf8, hmac, parse, kv, t, secret)
  }

  /** The claims of a session token form a value `JSON.parse` gives back. */
  lemma SessionClaimsPlain(username: string, role: string, iat: int, exp: int)
    ensures Plain(SessionClaims(username, role, iat, exp))
  {
    var fs := SessionClaims(username, role, iat, exp).fields;
    var ks := Keys(fs);
    assert ks == ["sub", "role", "iat", "exp"];
  }

  /** Reading a session token's claims one character per byte garbles the
      username and nothing else. */
  lemma ViewSessionClaims(username: string, role: string, iat: int, exp: int)
    requires role == "admin" || role == "user"
    ensures ViewJson(SessionClaims(username, role, iat, exp))
         == SessionClaims(BinaryView(username), role, iat, exp)
  {
    SessionNamesAscii(role);
    var fs := SessionClaims(username, role, iat, exp).fields;
    var gs := SessionClaims(BinaryView(username), role, iat, exp).fields;
    forall i | 0 <= i < |fs|
      ensures gs[i] == (BinaryView(fs[i].0), ViewJson(fs[i].1))
    {
    }
    ViewObject(fs, gs);
  }

  /** The claim names and roles are ASCII, hence their own binary view. */
  lemma SessionNamesAscii(role: string)
    requires role == "admin" || role == "user"
    ensures BinaryView("sub") == "sub" && BinaryView("role") == "role"
    ensures BinaryView("iat") == "iat" && BinaryView("exp") == "exp"
    ensures BinaryView(role) == role
  {
    assert IsAscii("sub") && IsAscii("role") && IsAscii("iat") && IsAscii("exp") && IsAscii(role);
    AsciiBinaryView("sub");
    AsciiBinaryView("role");
    AsciiBinaryView("iat");
    AsciiBinaryView("exp");
    AsciiBinaryView(role);
  }

  lemma ViewObject(fs: seq<(string, Json)>, gs: seq<(string, Json)>)
    requires |fs| == |gs|
    requires forall i :: 0 <= i < |fs| ==> gs[i] == (BinaryView(fs[i].0), ViewJson(fs[i].1))
    ensures ViewJson(JObj(fs)) == JObj(gs)
  {
  }

  lemma SessionClaimsFields(username: string, role: string, iat: int, exp: int)
    ensures Get(SessionClaims(username, role, iat, exp).fields, "sub") == Some(JStr(username))
    ensures Get(SessionClaims(username, role, iat, exp).fields, "role") == Some(JStr(role))
  {
    var fs := SessionClaims(username, role, iat, exp).fields;
    assert fs[..3][..2] == fs[..2];
    assert fs[..2][..1] == fs[..1];
    assert Get(fs, "role") == Get(fs[..3], "role") == Get(fs[..2], "role");
    assert Get(fs, "sub") == Get(fs[..3], "sub") == Get(fs[..2], "sub") == Get(fs[..1], "sub");
  }

  /** What steps 4 and 5 make of session claims: the username must be
      non-empty and the store must hold this very token under it. */
  lemma AcceptSession(username: string, role: string, iat: int, exp: int, kv: Store, token: string)
    requires role == "admin" || role == "user"
    ensures var v := Verified(JStr(username), role == "admin");
            LookupKey(v) == (if role == "admin" then AdminPrefix else "") + username
            && Accept(SessionClaims(username, role, iat, exp), kv, token)
               == if username != "" && LookupKey(v) in kv && kv[LookupKey(v)] == token then Some(v) else None
  {
    SessionClaimsFields(username, role, iat, exp);
  }

  /** The converse of `CheckToken`'s contract: a well-formed, correctly
      signed token whose claims decode and parse is judged on the parsed
      claims alone. */
  lemma CheckTokenSigned(reading: Reading, hmac: Hmac, parse: Parse, kv: Store, token: string, secret: string,
                         bytes: seq<byte>, text: string, payload: Json)
    requires var parts := Split(token, '.');
             |parts| >= 3 && parts[0] != "" && parts[1] != "" && parts[2] != ""
             && parts[2] == Sign(hmac, parts[0] + "." + parts[1], secret)
             && DecodeSegment(parts[1]) == Some(bytes)
    requires ReadText(reading, bytes) == Some(text) && parse(text) == Some(payload)
    ensures CheckToken(reading, hmac, parse, kv, token, secret) == Accept(payload, kv, token)
  {
  }

  /** The middle part of an issued session token decodes to the UTF-8
      bytes of its claims. */
  lemma IssuedTokenParts(hmac: Hmac, username: string, secret: string, prefix: string, now1: int, now2: int)
    ensures var token := CreateJwt(hmac, SessionPayload(username, prefix), secret, now1, now2);
            var parts := Split(token, '.');
            var role := if prefix != "" then "admin" else "user";
            |parts| == 3 && parts[0] != "" && parts[1] != "" && parts[2] != ""
            && parts[2] == Sign(hmac, parts[0] + "." + parts[1], secret)
            && DecodeSegment(parts[1]) == Some(Encode(Stringify(SessionClaims(username, role, Seconds(now1), Seconds(now2) + Year))))
  {
    SessionClaimsShape(username, prefix, now1, now2);
  }

  /** The binary reading of issued claims parses to the claims with the
      username garbled; the UTF-8 reading parses to the claims themselves. */
  lemma IssuedClaimsParse(parse: Parse, username: string, role: string, iat: int, exp: int)
    requires InvertsStringify(parse)
    requires role == "admin" || role == "user"
    ensures var bytes := Encode(Stringify(SessionClaims(username, role, iat, exp)));
            parse(BinaryString(bytes)) == Some(SessionClaims(BinaryView(username), role, iat, exp))
            && Decode(bytes) == Some(Stringify(SessionClaims(username, role, iat, exp)))
            && parse(Stringify(SessionClaims(username, role, iat, exp))) == Some(SessionClaims(username, role, iat, exp))
  {
    var c := SessionClaims(username, role, iat, exp);
    StringifyBinaryView(c);
    ViewSessionClaims(username, role, iat, exp);
    SessionClaimsPlain(BinaryView(username), role, iat, exp);
    SessionClaimsPlain(username, role, iat, exp);
    Utf8.DecodeEncode(Stringify(c));
  }

  /** How steps 3 to 5 treat a token `createJwt` issued for a session: the
      signature and the decoding succeed, and the outcome rests on the
      username read back from the claims — garbled by the binary reading,
      intact under UTF-8 — and on the store. The bearer peek succeeds too. */
  lemma IssuedTokenChecks(hmac: Hmac, parse: Parse, kv: Store, username: string, secret: string,
                          prefix: string, now1: int, now2: int)
    requires InvertsStringify(parse)
    ensures var token := CreateJwt(hmac, SessionPayload(username, prefix), secret, now1, now2);
            var role := if prefix != "" then "admin" else "user";
            CheckToken(AsBinary, hmac, parse, kv, token, secret)
              == Accept(SessionClaims(BinaryView(username), role, Seconds(now1), Seconds(now2) + Year), kv, token)
            && CheckToken(AsUtf8, hmac, parse, kv, token, secret)
              == Accept(SessionClaims(username, role, Seconds(now1), Seconds(now2) + Year), kv, token)
            && PeekSucceeds(parse, token)
  {
    var token := CreateJwt(hmac, SessionPayload(username, prefix), secret, now1, now2);
    var role := if prefix != "" then "admin" else "user";
    var iat, exp := Seconds(now1), Seconds(now2) + Year;
    var c := SessionClaims(username, role, iat, exp);
    var bytes := Encode(Stringify(c));
    IssuedTokenParts(hmac, username, secret, prefix, now1, now2);
    IssuedClaimsParse(parse, username, role, iat, exp);
    CheckTokenSigned(AsBinary, hmac, parse, kv, token, secret, bytes, BinaryString(bytes),
                     SessionClaims(BinaryView(username), role, iat, exp));
    CheckTokenSigned(AsUtf8, hmac, parse, kv, token, secret, bytes, Stringify(c), c);
    PeekFrom(parse, token, bytes, SessionClaims(BinaryView(username), role, iat, exp));
  }

  /** The bearer peek succeeds on a three-part token whose body decodes and
      parses to something other than `null`. */
  lemma PeekFrom(parse: Parse, token: string, bytes: seq<byte>, payload: Json)
    requires |Split(token, '.')| == 3 && DecodeSegment(Split(token, '.')[1]) == Some(bytes)
    requires parse(BinaryString(bytes)) == Some(payload) && payload != JNull
    ensures PeekSucceeds(parse, token)
  {
  }

  /** A token cookie alone in the `Cookie` header is found under either
      cookie name. */
  lemma CookieCarries(cookie: string, token: string)
    requires cookie == "auth_token=" || cookie == "admin_token="
    requires token != "" && TokenChars(token)
    ensures CookieToken(Some(cookie + token)) == token
  {
    TokenCharsSafe(token);
    var name := if cookie == "auth_token=" then "auth_token" else "admin_token";
    assert name + "=" == cookie;
    var h := cookie + token;
    assert h[0] == cookie[0] && h[|h| - 1] == token[|token| - 1];
    SingleCookie(h);
    PickSingle(name, token);
  }

  /** What a token character cannot be. */
  lemma TokenCharsSafe(t: string)
    requires TokenChars(t)
    ensures ';' !in t && '=' !in t && ' ' !in t
    ensures |t| > 0 ==> !IsJsSpace(t[0]) && !IsJsSpace(t[|t| - 1])
  {
  }

  lemma PickSingle(name: string, v: string)
    requires name == "auth_token" || name == "admin_token"
    requires '=' !in v
    ensures PickToken([name + "=" + v]) == v
  {
    var h := name + "=" + v;
    CookieValueOf(name, v);
    if name == "auth_token" {
      assert h[1] != "admin_token="[1];
      assert FindPrefixed([h], "admin_token=") == 1;
    }
  }

  lemma PickAdminSecond(first: string, admin: string)
    requires !StartsWith(first, "admin_token=")
    requires '=' !in admin
    ensures PickToken([first, "admin_token=" + admin]) == admin
  {
    var h := "admin_token=" + admin;
    assert "admin_token" + "=" + admin == h;
    CookieValueOf("admin_token", admin);
    assert [first, h][1..] == [h];
    assert FindPrefixed([h], "admin_token=") == 0;
    assert FindPrefixed([first, h], "admin_token=") == 1;
  }

  /** An `admin_token` cookie wins over an `auth_token` cookie wherever it
      stands in the header. */
  lemma AdminCookieFirst(admin: string, user: string)
    requires admin != "" && TokenChars(admin) && user != "" && TokenChars(user)
    ensures CookieToken(Some("auth_token=" + user + "; admin_token=" + admin)) == admin
  {
    var first := "auth_token=" + user;
    var h := "admin_token=" + admin;
    TwoCookieHeader(first, h, user, admin);
    CookiePieceSafe("auth_token=", user);
    CookiePieceSafe("admin_token=", admin);
    TwoCookies(first, h);
    assert first[1] != "admin_token="[1];
    TokenCharsSafe(admin);
    PickAdminSecond(first, admin);
  }

  /** The header `auth_token=u; admin_token=a` is its two cookies joined by
      `;` and a blank. */
  lemma TwoCookieHeader(first: string, h: string, user: string, admin: string)
    requires first == "auth_token=" + user && h == "admin_token=" + admin
    ensures "auth_token=" + user + "; admin_token=" + admin == first + [';'] + (" " + h)
  {
    assert "; admin_token=" == [';'] + " " + "admin_token=";
  }

  /** A cookie `name=v` with a non-empty token value holds no `;` and has
      no blank at either end. */
  lemma CookiePieceSafe(name: string, v: string)
    requires name == "auth_token=" || name == "admin_token="
    requires v != "" && TokenChars(v)
    ensures var c := name + v; ';' !in c && |c| > 0 && !IsJsSpace(c[0]) && !IsJsSpace(c[|c| - 1])
  {
    TokenCharsSafe(v);
    var c := name + v;
    assert c[0] == name[0];
    assert c[|c| - 1] == v[|v| - 1];
  }

  /** `a; b` is the two cookies `a` and `b` when neither holds `;` and
      neither starts or ends with white space. */
  lemma TwoCookies(a: string, b: string)
    requires ';' !in a && |a| > 0 && !IsJsSpace(a[0]) && !IsJsSpace(a[|a| - 1])
    requires ';' !in b && |b| > 0 && !IsJsSpace(b[0]) && !IsJsSpace(b[|b| - 1])
    ensures Cookies(a + [';'] + (" " + b)) == [a, b]
  {
    var tail := " " + b;
    assert ';' !in tail;
    SplitAfterPiece(a, ';', tail);
    SplitNoSeparator(tail, ';');
    var pieces := Split(a + [';'] + tail, ';');
    assert pieces == [a, tail];
    TrimUnchanged(a);
    TrimUnchanged(b);
    TrimLeadingSpace(b);
    var r := Cookies(a + [';'] + tail);
    assert |r| == 2 && r[0] == Trim(a) && r[1] == Trim(tail);
  }

  /** A bearer header carries the token that follows `Bearer `. */
  lemma BearerCarries(token: string)
    requires token != "" && TokenChars(token)
    ensures Split("Bearer " + token, ' ')[1] == token
  {
    assert forall i | 0 <= i < |token| :: token[i] != ' ';
    assert "Bearer " + token == "Bearer" + [' '] + token;
    SplitAfterPiece("Bearer", ' ', token);
    SplitNoSeparator(token, ' ');
  }

  /** The key verification looks up for a session token it accepts. */
  function ExpectedKey(username: string, prefix: string): string {
    (if prefix != "" then AdminPrefix else "") + username
  }

  /** Verification of an issued session token presented in a cookie of
      either name, whatever the `Authorization` header says: it succeeds
      exactly when the username is non-empty and the store holds this token
      under the key the token's claims lead to. As written that key is made
      from the username's binary view; with UTF-8 decoding, from the
      username itself. The role, not the cookie name, decides `isAdmin`. */
  lemma IssuedCookieVerifies(hmac: Hmac, parse: Parse, kv: Store, username: string, secret: string,
                             prefix: string, now1: int, now2: int, cookie: string, authorization: Option<string>)
    requires InvertsStringify(parse)
    requires cookie == "auth_token=" || cookie == "admin_token="
    ensures var token := CreateJwt(hmac, SessionPayload(username, prefix), secret, now1, now2);
            var req := Request(Some(cookie + token), authorization);
            var seen := BinaryView(username);
            VerifySession(hmac, parse, kv, req, secret)
              == (if username != "" && ExpectedKey(seen, prefix) in kv && kv[ExpectedKey(seen, prefix)] == token
                  then Some(Verified(JStr(seen), prefix != "")) else None)
            && VerifySessionUtf8(hmac, parse, kv, req, secret)
              == (if username != "" && ExpectedKey(username, prefix) in kv && kv[ExpectedKey(username, prefix)] == token
                  then Some(Verified(JStr(username), prefix != "")) else None)
  {
    var token := CreateJwt(hmac, SessionPayload(username, prefix), secret, now1, now2);
    var role := if prefix != "" then "admin" else "user";
    CookieCarries(cookie, token);
    IssuedTokenChecks(hmac, parse, kv, username, secret, prefix, now1, now2);
    AcceptSession(BinaryView(username), role, Seconds(now1), Seconds(now2) + Year, kv, token);
    AcceptSession(username, role, Seconds(now1), Seconds(now2) + Year, kv, token);
  }

  /** The same for an issued token presented only as a bearer token. */
  lemma IssuedBearerVerifies(hmac: Hmac, parse: Parse, kv: Store, username: string, secret: string,
                             prefix: string, now1: int, now2: int)
    requires InvertsStringify(parse)
    ensures var token := CreateJwt(hmac, SessionPayload(username, prefix), secret, now1, now2);
            var req := Request(None, Some("Bearer " + token));
            var seen := BinaryView(username);
            VerifySession(hmac, parse, kv, req, secret)
              == (if username != "" && ExpectedKey(seen, prefix) in kv && kv[ExpectedKey(seen, prefix)] == token
                  then Some(Verified(JStr(seen), prefix != "")) else None)
  {
    var token := CreateJwt(hmac, SessionPayload(username, prefix), secret, now1, now2);
    var role := if prefix != "" then "admin" else "user";
    IssuedTokenChecks(hmac, parse, kv, username, secret, prefix, now1, now2);
    BearerCandidate(hmac, parse, kv, token, secret);
    AcceptSession(BinaryView(username), role, Seconds(now1), Seconds(now2) + Year, kv, token);
  }

  /** A token of URL-safe characters and dots that the peek accepts is the
      bearer candidate, and verification rests on it alone. */
  lemma BearerCandidate(hmac: Hmac, parse: Parse, kv: Store, token: string, secret: string)
    requires token != "" && TokenChars(token) && PeekSucceeds(parse, token)
    ensures VerifySession(hmac, parse, kv, Request(None, Some("Bearer " + token)), secret)
            == CheckToken(AsBinary, hmac, parse, kv, token, secret)
  {
    BearerCarries(token);
    assert Candidate(parse, Request(None, Some("Bearer " + token))) == Some(token);
  }

  /** Issue then verify: right after `createSession` with prefix `""` (or
      `admin:`), a request carrying the token in a cookie or as a bearer
      token verifies to the ASCII username, not an admin (an admin). */
  lemma IssueThenVerify(hmac: Hmac, parse: Parse, kv: Store, username: string, secret: string,
                        prefix: string, now1: int, now2: int)
    requires InvertsStringify(parse)
    requires username != "" && IsAscii(username)
    requires prefix == "" || prefix == AdminPrefix
    ensures var s := CreateSession(hmac, kv, username, secret, prefix, now1, now2);
            VerifySession(hmac, parse, s.1, Request(Some("auth_token=" + s.0), None), secret)
              == Some(Verified(JStr(username), prefix != ""))
            && VerifySession(hmac, parse, s.1, Request(None, Some("Bearer " + s.0)), secret)
              == Some(Verified(JStr(username), prefix != ""))
  {
    var s := CreateSession(hmac, kv, username, secret, prefix, now1, now2);
    var key := ExpectedKey(username, prefix);
    AsciiBinaryView(username);
    assert key == SessionKey(prefix, username);
    assert key in s.1 && s.1[key] == s.0;
    var v := Verified(JStr(username), prefix != "");
    IssuedCookieVerifies(hmac, parse, s.1, username, secret, prefix, now1, now2, "auth_token=", None);
    assert VerifySession(hmac, parse, s.1, Request(Some("auth_token=" + s.0), None), secret) == Some(v);
    IssuedBearerVerifies(hmac, parse, s.1, username, secret, prefix, now1, now2);
  }

  /** Issue then verify with the claims decoded as UTF-8: every non-empty
      username verifies. */
  lemma IssueThenVerifyUtf8(hmac: Hmac, parse: Parse, kv: Store, username: string, secret: string,
                            prefix: string, now1: int, now2: int)
    requires InvertsStringify(parse)
    requires username != ""
    requires prefix == "" || prefix == AdminPrefix
    ensures var s := CreateSession(hmac, kv, username, secret, prefix, now1, now2);
            VerifySessionUtf8(hmac, parse, s.1, Request(Some("auth_token=" + s.0), None), secret)
              == Some(Verified(JStr(username), prefix != ""))
  {
    var s := CreateSession(hmac, kv, username, secret, prefix, now1, now2);
    var key := ExpectedKey(username, prefix);
    assert key == SessionKey(prefix, username);
    assert key in s.1 && s.1[key] == s.0;
    IssuedCookieVerifies(hmac, parse, s.1, username, secret, prefix, now1, now2, "auth_token=", None);
  }

  /** As written, a session for a username with a character at or above
      U+0080 never verifies in a store that had no entry under the
      username's binary view: the lookup key is garbled. */
  lemma NonAsciiSessionRejected(hmac: Hmac, parse: Parse, kv: Store, username: string, secret: string,
                                now1: int, now2: int)
    requires InvertsStringify(parse)
    requires !IsAscii(username)
    requires BinaryView(username) !in kv
    ensures var s := CreateSession(hmac, kv, username, secret, "", now1, now2);
            VerifySession(hmac, parse, s.1, Request(Some("auth_token=" + s.0), None), secret) == None
  {
    var s := CreateSession(hmac, kv, username, secret, "", now1, now2);
    NonAsciiBinaryView(username);
    assert ExpectedKey(BinaryView(username), "") == BinaryView(username) != SessionKey("", username);
    assert BinaryView(username) !in s.1;
    IssuedCookieVerifies(hmac, parse, s.1, username, secret, "", now1, now2, "auth_token=", None);
  }

  /** The user `é` signs in to an empty store: the as-written check refuses
      the token it was just given, the UTF-8 check accepts it. */
  lemma AccentedUserExample(hmac: Hmac, parse: Parse, secret: string, now1: int, now2: int)
    requires InvertsStringify(parse)
    ensures var s := CreateSession(hmac, map[], "\U{E9}", secret, "", now1, now2);
            var req := Request(Some("auth_token=" + s.0), None);
            VerifySession(hmac, parse, s.1, req, secret) == None
            && VerifySessionUtf8(hmac, parse, s.1, req, secret) == Some(Verified(JStr("\U{E9}"), false))
  {
    assert !IsAscii("\U{E9}");
    NonAsciiSessionRejected(hmac, parse, map[], "\U{E9}", secret, now1, now2);
    IssueThenVerifyUtf8(hmac, parse, map[], "\U{E9}", secret, "", now1, now2);
  }

  /** The token a cookie names decides nothing about the role: a user
      token presented as `admin_token` verifies as a non-admin session. */
  lemma CookieNameIgnored(hmac: Hmac, parse: Parse, kv: Store, username: string, secret: string,
                          now1: int, now2: int)
    requires InvertsStringify(parse)
    requires username != "" && IsAscii(username)
    ensures var s := CreateSession(hmac, kv, username, secret, "", now1, now2);
            VerifySession(hmac, parse, s.1, Request(Some("admin_token=" + s.0), None), secret)
              == Some(Verified(JStr(username), false))
  {
    var s := CreateSession(hmac, kv, username, secret, "", now1, now2);
    var key := ExpectedKey(username, "");
    AsciiBinaryView(username);
    assert key == SessionKey("", username);
    assert key in s.1 && s.1[key] == s.0;
    IssuedCookieVerifies(hmac, parse, s.1, username, secret, "", now1, now2, "admin_token=", None);
  }

  /** Signing is deterministic and `iat` counts whole seconds: two tokens
      for the same claims issued within the same seconds are identical. */
  lemma ReissueSameSecond(hmac: Hmac, payload: seq<(string, Json)>, secret: string,
                          now1: int, now2: int, now3: int, now4: int)
    requires Seconds(now1) == Seconds(now3) && Seconds(now2) == Seconds(now4)
    ensures CreateJwt(hmac, payload, secret, now1, now2) == CreateJwt(hmac, payload, secret, now3, now4)
  {
    ClaimsSameSecond(payload, now1, now2, now3, now4);
  }

  lemma ClaimsSameSecond(payload: seq<(string, Json)>, now1: int, now2: int, now3: int, now4: int)
    requires Seconds(now1) == Seconds(now3) && Seconds(now2) == Seconds(now4)
    ensures Claims(payload, now1, now2) == Claims(payload, now3, now4)
  {
    var iat, exp := Seconds(now1), Seconds(now2) + Year;
    ClaimsAreStamp(payload, now1, now2, iat, exp);
    ClaimsAreStamp(payload, now3, now4, iat, exp);
  }

  lemma ClaimsAreStamp(payload: seq<(string, Json)>, now1: int, now2: int, iat: int, exp: int)
    requires Seconds(now1) == iat && Seconds(now2) + Year == exp
    ensures Claims(payload, now1, now2) == Stamp(payload, iat, exp)
  {
  }

  /** A new session for the same user and prefix revokes the earlier token
      whenever the two tokens differ. */
  lemma Superseded(hmac: Hmac, parse: Parse, kv: Store, username: string, secret: string, prefix: string,
                   now1: int, now2: int, now3: int, now4: int)
    requires InvertsStringify(parse)
    requires IsAscii(username)
    requires prefix == "" || prefix == AdminPrefix
    ensures var first := CreateSession(hmac, kv, username, secret, prefix, now1, now2);
            var second := CreateSession(hmac, first.1, username, secret, prefix, now3, now4);
            first.0 != second.0 ==>
              VerifySession(hmac, parse, second.1, Request(Some("auth_token=" + first.0), None), secret) == None
  {
    var first := CreateSession(hmac, kv, username, secret, prefix, now1, now2);
    var second := CreateSession(hmac, first.1, username, secret, prefix, now3, now4);
    var key := ExpectedKey(username, prefix);
    AsciiBinaryView(username);
    assert key == SessionKey(prefix, username);
    assert key in second.1 && second.1[key] == second.0;
    IssuedCookieVerifies(hmac, parse, second.1, username, secret, prefix, now1, now2, "auth_token=", None);
  }

  /** A reissue within the same seconds leaves the earlier token valid. */
  lemma ReissueKeepsToken(hmac: Hmac, parse: Parse, kv: Store, username: string, secret: string, prefix: string,
                          now1: int, now2: int, now3: int, now4: int)
    requires InvertsStringify(parse)
    requires username != "" && IsAscii(username)
    requires prefix == "" || prefix == AdminPrefix
    requires Seconds(now1) == Seconds(now3) && Seconds(now2) == Seconds(now4)
    ensures var first := CreateSession(hmac, kv, username, secret, prefix, now1, now2);
            var second := CreateSession(hmac, first.1, username, secret, prefix, now3, now4);
            VerifySession(hmac, parse, second.1, Request(Some("auth_token=" + first.0), None), secret)
              == Some(Verified(JStr(username), prefix != ""))
  {
    var first := CreateSession(hmac, kv, username, secret, prefix, now1, now2);
    ReissueSameSecond(hmac, SessionPayload(username, prefix), secret, now1, now2, now3, now4);
    IssueThenVerify(hmac, parse, first.1, username, secret, prefix, now3, now4);
  }

  /** The claims carry `iat` from the first clock reading and `exp` one
      year after the second; `exp` is exactly `iat` plus a year when both
      readings fall in the same second, and at most a second more when they
      are less than a second apart. */
  lemma ClaimsLifetime(payload: seq<(string, Json)>, now1: int, now2: int)
    requires now1 <= now2
    ensures var c := Claims(payload, now1, now2);
            exists iat, exp :: (Get(c, "iat") == Some(JNum(iat)) && Get(c, "exp") == Some(JNum(exp))
                                && iat + Year <= exp
                                && (Seconds(now1) == Seconds(now2) ==> exp == iat + Year)
                                && (now2 - now1 < 1000 ==> exp <= iat + Year + 1))
  {
    var iat, exp := Seconds(now1), Seconds(now2) + Year;
    SecondsMonotone(now1, now2);
    assert Get(Claims(payload, now1, now2), "iat") == Some(JNum(iat));
  }

  lemma SecondsMonotone(a: int, b: int)
    requires a <= b
    ensures Seconds(a) <= Seconds(b)
    ensures b - a < 1000 ==> Seconds(b) <= Seconds(a) + 1
  {
  }

  /** After `destroySession(kv, username, prefix)` no request verifies to a
      session stored under `prefix + username`. */
  lemma DestroyRevokes(hmac: Hmac, parse: Parse, kv: Store, username: string, prefix: string,
                       req: Request, secret: string)
    ensures var r := VerifySession(hmac, parse, DestroySession(kv, username, prefix), req, secret);
            r.Some? ==> LookupKey(r.value) != SessionKey(prefix, username)
    ensures var r := VerifySessionUtf8(hmac, parse, DestroySession(kv, username, prefix), req, secret);
            r.Some? ==> LookupKey(r.value) != SessionKey(prefix, username)
  {
  }

  /** In particular the destroyed session's own token is refused. */
  lemma DestroyedTokenRejected(hmac: Hmac, parse: Parse, kv: Store, username: string, secret: string,
                               prefix: string, now1: int, now2: int)
    requires InvertsStringify(parse)
    requires IsAscii(username)
    requires prefix == "" || prefix == AdminPrefix
    ensures var s := CreateSession(hmac, kv, username, secret, prefix, now1, now2);
            VerifySession(hmac, parse, DestroySession(s.1, username, prefix),
                          Request(Some("auth_token=" + s.0), None), secret) == None
  {
    var s := CreateSession(hmac, kv, username, secret, prefix, now1, now2);
    var gone := DestroySession(s.1, username, prefix);
    AsciiBinaryView(username);
    assert ExpectedKey(username, prefix) == SessionKey(prefix, username);
    assert SessionKey(prefix, username) !in gone;
    IssuedCookieVerifies(hmac, parse, gone, username, secret, prefix, now1, now2, "auth_token=", None);
  }

  /** Destroying a session twice is the same as destroying it once. */
  lemma DestroyIdempotent(kv: Store, username: string, prefix: string)
    ensures DestroySession(DestroySession(kv, username, prefix), username, prefix)
         == DestroySession(kv, username, prefix)
  {
  }

  /** Every stored token has three dot-separated parts, as every token
      `createSession` stores does. */
  predicate IssuedStore(kv: Store) {
    forall k :: k in kv ==> |Split(kv[k], '.')| == 3
  }

  lemma SessionsKeepStoreIssued(hmac: Hmac, kv: Store, username: string, secret: string, prefix: string,
                                now1: int, now2: int)
    requires IssuedStore(kv)
    ensures IssuedStore(CreateSession(hmac, kv, username, secret, prefix, now1, now2).1)
    ensures IssuedStore(DestroySession(kv, username, prefix))
  {
  }

  /** A token with more than three dot-separated parts passes the format
      check at the destructuring but can never equal a stored token. */
  lemma ExtraPartsRejected(hmac: Hmac, parse: Parse, kv: Store, req: Request, secret: string)
    requires IssuedStore(kv)
    requires Candidate(parse, req).Some? && |Split(Candidate(parse, req).value, '.')| > 3
    ensures VerifySession(hmac, parse, kv, req, secret) == None
    ensures VerifySessionUtf8(hmac, parse, kv, req, secret) == None
  {
  }
}

=== FILE: base64.dfy ===
/** Base64 as the token code uses it.

    `base64UrlEncode` (server/auth.ts:1-7) runs `btoa` over the bytes, the
    standard encoding of section 4 of RFC 4648 with `=` padding, then maps
    `+` to `-` and `/` to `_` and strips the trailing `=` run. The result is
    the unpadded base64url form of section 5 of RFC 4648, as section 2 of
    RFC 7515 asks for.

    Verification (server/auth.ts:84 and :112) maps `-` back to `+` and `_`
    back to `/` and calls `atob`, which follows the forgiving-base64 decode
    of the WHATWG Infra standard: ASCII white space is dropped, one or two
    trailing `=` are dropped when the length is a multiple of four, a length
    of 1 modulo 4 or a character outside the alphabet is a failure, and
    leftover bits of a final partial group are discarded.

    Both directions are written over `Sextets`, the 6-bit values of the
    encoding in order.
 */
module Base64 {
  import opened Results
  import opened Utf8

  /** The 6-bit values the encoding of `b` spells, three bytes to four values,
      a final one or two bytes to two or three values. */
  function Sextets(b: seq<byte>): (r: seq<int>)
    ensures forall i :: 0 <= i < |r| ==> 0 <= r[i] < 64
    decreases |b|
  {
    if |b| == 0 then []
    else if |b| == 1 then [b[0] / 4, (b[0] % 4) * 16]
    else if |b| == 2 then [b[0] / 4, (b[0] % 4) * 16 + b[1] / 16, (b[1] % 16) * 4]
    else [b[0] / 4, (b[0] % 4) * 16 + b[1] / 16, (b[1] % 16) * 4 + b[2] / 64, b[2] % 64]
         + Sextets(b[3..])
  }

  /** Every three bytes become four values and a final one or two bytes
      become two or three, so `n` bytes give ceil(4n/3) values and never a
      count of 1 modulo 4. */
  lemma {:induction false} SextetsLength(b: seq<byte>)
    ensures |Sextets(b)| == (4 * |b| + 2) / 3
    ensures |Sextets(b)| % 4 == (if |b| % 3 == 0 then 0 else if |b| % 3 == 1 then 2 else 3)
    decreases |b|
  {
    SextetsCount(b);
    if |b| >= 3 {
      SextetsLength(b[3..]);
      GroupCount(|b|, |b| - 3);
    }
  }

  lemma SextetsCount(b: seq<byte>)
    ensures |Sextets(b)| == if |b| == 0 then 0 else if |b| == 1 then 2 else if |b| == 2 then 3
                            else 4 + |Sextets(b[3..])|
  {
  }

  lemma GroupCount(n: int, m: int)
    requires m >= 0 && n == m + 3
    ensures (4 * n + 2) / 3 == (4 * m + 2) / 3 + 4
    ensures n % 3 == m % 3
  {
    var q, r := (4 * m + 2) / 3, (4 * m + 2) % 3;
    assert 4 * n + 2 == 3 * (q + 4) + r && 0 <= r < 3;
    var q', r' := m / 3, m % 3;
    assert n == 3 * (q' + 1) + r' && 0 <= r' < 3;
  }

  /** The bytes a sequence of 6-bit values decodes to, as `atob` computes them. */
  function Bytes(v: seq<int>): (r: seq<byte>)
    requires forall i :: 0 <= i < |v| ==> 0 <= v[i] < 64
    requires |v| % 4 != 1
    decreases |v|
  {
    if |v| == 0 then []
    else if |v| == 2 then [v[0] * 4 + v[1] / 16]
    else if |v| == 3 then [v[0] * 4 + v[1] / 16, (v[1] % 16) * 16 + v[2] / 4]
    else [v[0] * 4 + v[1] / 16, (v[1] % 16) * 16 + v[2] / 4, (v[2] % 4) * 64 + v[3]]
         + Bytes(v[4..])
  }

  /** One group of three bytes survives the round trip through its four values. */
  lemma GroupRoundTrip(b0: byte, b1: byte, b2: byte, v: seq<int>)
    requires v == [b0 / 4, (b0 % 4) * 16 + b1 / 16, (b1 % 16) * 4 + b2 / 64, b2 % 64]
    ensures v[0] * 4 + v[1] / 16 == b0
    ensures (v[1] % 16) * 16 + v[2] / 4 == b1
    ensures (v[2] % 4) * 64 + v[3] == b2
  {
    assert v[1] / 16 == b0 % 4 && v[1] % 16 == b1 / 16;
    assert v[2] / 4 == b1 % 16 && v[2] % 4 == b2 / 64;
  }

  /** Decoding the values of an encoding gives back the bytes. */
  lemma {:induction false} BytesSextets(b: seq<byte>)
    ensures SextetsLengthOk(b)
    ensures Bytes(Sextets(b)) == b
    decreases |b|
  {
    SextetsLength(b);
    if |b| >= 3 {
      var g := [b[0] / 4, (b[0] % 4) * 16 + b[1] / 16, (b[1] % 16) * 4 + b[2] / 64, b[2] % 64];
      assert Sextets(b) == g + Sextets(b[3..]);
      BytesSextets(b[3..]);
      BytesGroup(b, g, Sextets(b[3..]));
    } else {
      BytesShort(b);
    }
  }

  lemma BytesGroup(b: seq<byte>, g: seq<int>, t: seq<int>)
    requires |b| >= 3
    requires g == [b[0] / 4, (b[0] % 4) * 16 + b[1] / 16, (b[1] % 16) * 4 + b[2] / 64, b[2] % 64]
    requires forall i :: 0 <= i < |t| ==> 0 <= t[i] < 64
    requires |t| % 4 != 1 && Bytes(t) == b[3..]
    ensures |g + t| % 4 != 1
    ensures forall i :: 0 <= i < |g + t| ==> 0 <= (g + t)[i] < 64
    ensures Bytes(g + t) == b
  {
    GroupRoundTrip(b[0], b[1], b[2], g);
    BytesCons(g, t);
    assert b == [b[0], b[1], b[2]] + b[3..];
  }

  /** Decoding takes a group of four values at a time. */
  lemma BytesCons(g: seq<int>, t: seq<int>)
    requires |g| == 4 && forall i :: 0 <= i < 4 ==> 0 <= g[i] < 64
    requires forall i :: 0 <= i < |t| ==> 0 <= t[i] < 64
    requires |t| % 4 != 1
    ensures |g + t| % 4 != 1
    ensures forall i :: 0 <= i < |g + t| ==> 0 <= (g + t)[i] < 64
    ensures Bytes(g + t)
         == [g[0] * 4 + g[1] / 16, (g[1] % 16) * 16 + g[2] / 4, (g[2] % 4) * 64 + g[3]] + Bytes(t)
  {
    var s := g + t;
    assert s[4..] == t;
    assert s[0] == g[0] && s[1] == g[1] && s[2] == g[2] && s[3] == g[3];
  }

  lemma BytesShort(b: seq<byte>)
    requires |b| < 3
    ensures SextetsLengthOk(b)
    ensures Bytes(Sextets(b)) == b
  {
    if |b| == 2 {
      BytesTwoOf(b);
    } else if |b| == 1 {
      BytesOneOf(b);
    } else {
      assert b == [];
    }
  }

  lemma BytesOneOf(b: seq<byte>)
    requires |b| == 1
    ensures SextetsLengthOk(b) && Bytes(Sextets(b)) == b
  {
    assert b == [b[0]];
    BytesOne(b[0]);
  }

  lemma BytesTwoOf(b: seq<byte>)
    requires |b| == 2
    ensures SextetsLengthOk(b) && Bytes(Sextets(b)) == b
  {
    assert b == [b[0], b[1]];
    BytesTwo(b[0], b[1]);
  }

  lemma BytesOne(b0: byte)
    ensures Sextets([b0]) == [b0 / 4, (b0 % 4) * 16]
    ensures SextetsLengthOk([b0])
    ensures Bytes(Sextets([b0])) == [b0]
  {
    var v1 := (b0 % 4) * 16;
    assert v1 / 16 == b0 % 4;
  }

  lemma BytesTwo(b0: byte, b1: byte)
    ensures Sextets([b0, b1]) == [b0 / 4, (b0 % 4) * 16 + b1 / 16, (b1 % 16) * 4]
    ensures SextetsLengthOk([b0, b1])
    ensures Bytes(Sextets([b0, b1])) == [b0, b1]
  {
    var v1 := (b0 % 4) * 16 + b1 / 16;
    var v2 := (b1 % 16) * 4;
    assert v1 / 16 == b0 % 4 && v1 % 16 == b1 / 16;
    assert v2 / 4 == b1 % 16;
  }

  predicate SextetsLengthOk(b: seq<byte>) {
    |Sextets(b)| % 4 != 1
  }

  /** Table 1 of RFC 4648: the standard alphabet. */
  function StdChar(v: int): (c: char)
    requires 0 <= v < 64
  {
    if v < 26 then ('A' as int + v) as char
    else if v < 52 then ('a' as int + (v - 26)) as char
    else if v < 62 then ('0' as int + (v - 52)) as char
    else if v == 62 then '+'
    else '/'
  }

  predicate IsStdChar(c: char) {
    ('A' <= c <= 'Z') || ('a' <= c <= 'z') || ('0' <= c <= '9') || c == '+' || c == '/'
  }

  /** Table 2 of RFC 4648: the URL- and filename-safe characters. */
  predicate IsUrlChar(c: char) {
    ('A' <= c <= 'Z') || ('a' <= c <= 'z') || ('0' <= c <= '9') || c == '-' || c == '_'
  }

  /** The 6-bit value a standard-alphabet character stands for. */
  function StdValue(c: char): (v: int)
    requires IsStdChar(c)
    ensures 0 <= v < 64 && StdChar(v) == c
  {
    if 'A' <= c <= 'Z' then c as int - 'A' as int
    else if 'a' <= c <= 'z' then c as int - 'a' as int + 26
    else if '0' <= c <= '9' then c as int - '0' as int + 52
    else if c == '+' then 62
    else 63
  }

  lemma StdValueOfChar(v: int)
    requires 0 <= v < 64
    ensures IsStdChar(StdChar(v)) && StdValue(StdChar(v)) == v
  {
  }

  function StdChars(v: seq<int>): (s: string)
    requires forall i :: 0 <= i < |v| ==> 0 <= v[i] < 64
    ensures |s| == |v|
    ensures forall i :: 0 <= i < |v| ==> s[i] == StdChar(v[i]) && IsStdChar(s[i])
  {
    seq(|v|, i requires 0 <= i < |v| => StdChar(v[i]))
  }

  /** `btoa(String.fromCharCode(...b))`: the padded standard encoding. */
  function Btoa(b: seq<byte>): string {
    StdChars(Sextets(b)) + (if |b| % 3 == 1 then "==" else if |b| % 3 == 2 then "=" else "")
  }

  /** `.replace(/\+/g, '-').replace(/\//g, '_')` */
  function ToUrlAlphabet(s: string): (r: string)
    ensures |r| == |s|
    ensures '+' !in r && '/' !in r
  {
    seq(|s|, i requires 0 <= i < |s| => if s[i] == '+' then '-' else if s[i] == '/' then '_' else s[i])
  }

  /** `.replace(/=+$/, '')`: drops the run of `=` that ends the string. */
  function StripTrailingEquals(s: string): string
    decreases |s|
  {
    if |s| > 0 && s[|s| - 1] == '=' then StripTrailingEquals(s[..|s| - 1]) else s
  }

  /** `base64UrlEncode` (server/auth.ts:1-7) applied to bytes. */
  function Base64UrlEncode(b: seq<byte>): (r: string)
    ensures forall i :: 0 <= i < |r| ==> IsUrlChar(r[i])
    ensures '=' !in r
    ensures |r| == (4 * |b| + 2) / 3
  {
    EncodeUnpadded(b);
    SextetsLength(b);
    StripTrailingEquals(ToUrlAlphabet(Btoa(b)))
  }

  lemma StripPadding(s: string, pad: string)
    requires pad == "" || pad == "=" || pad == "=="
    requires '=' !in s
    ensures StripTrailingEquals(s + pad) == s
  {
    assert StripTrailingEquals(s) == s by {
      assert |s| > 0 ==> s[|s| - 1] in s;
    }
    if pad == "==" {
      assert (s + pad)[|s| + 1] == '=' && (s + pad)[..|s| + 1] == s + "=";
      assert (s + "=")[|s|] == '=' && (s + "=")[..|s|] == s;
    } else if pad == "=" {
      assert (s + pad)[|s|] == '=' && (s + pad)[..|s|] == s;
    } else {
      assert s + pad == s;
    }
  }

  /** The encoder's output is the URL-alphabet spelling of the values,
      with no padding left. */
  lemma EncodeUnpadded(b: seq<byte>)
    ensures StripTrailingEquals(ToUrlAlphabet(Btoa(b))) == ToUrlAlphabet(StdChars(Sextets(b)))
  {
    var std := StdChars(Sextets(b));
    var pad := if |b| % 3 == 1 then "==" else if |b| % 3 == 2 then "=" else "";
    assert ToUrlAlphabet(std + pad) == ToUrlAlphabet(std) + pad;
    StripPadding(ToUrlAlphabet(std), pad);
  }

  /** `s.replace(/-/g, '+').replace(/_/g, '/')` */
  function FromUrlAlphabet(s: string): (r: string)
    ensures |r| == |s|
    ensures '-' !in r && '_' !in r
    ensures forall i :: 0 <= i < |s| && s[i] == '-' ==> r[i] == '+'
  {
    seq(|s|, i requires 0 <= i < |s| => if s[i] == '-' then '+' else if s[i] == '_' then '/' else s[i])
  }

  /** ASCII white space in the sense of the Infra standard. */
  predicate IsAsciiSpace(c: char) {
    c == '\t' || c == '\n' || c == '\U{C}' || c == '\r' || c == ' '
  }

  function RemoveAsciiSpace(s: string): (r: string)
    ensures forall i :: 0 <= i < |r| ==> !IsAsciiSpace(r[i])
    ensures (forall i :: 0 <= i < |s| ==> !IsAsciiSpace(s[i])) ==> r == s
    decreases |s|
  {
    if |s| == 0 then ""
    else if IsAsciiSpace(s[0]) then RemoveAsciiSpace(s[1..])
    else
      var r := [s[0]] + RemoveAsciiSpace(s[1..]);
      assert (forall i :: 0 <= i < |s| ==> !IsAsciiSpace(s[i])) ==> r == [s[0]] + s[1..];
      r
  }

  /** `atob(s)`: the decoded bytes, or `None` where `atob` throws. */
  function Atob(s: string): Option<seq<byte>> {
    var d := RemoveAsciiSpace(s);
    var d' := if |d| % 4 == 0 && |d| >= 2 && d[|d| - 2..] == "==" then d[..|d| - 2]
              else if |d| % 4 == 0 && |d| >= 1 && d[|d| - 1] == '=' then d[..|d| - 1]
              else d;
    if |d'| % 4 == 1 then None
    else if exists i :: 0 <= i < |d'| && !IsStdChar(d'[i]) then None
    else Some(Bytes(StdValues(d')))
  }

  /** The 6-bit values standard-alphabet text spells. */
  function StdValues(s: string): (v: seq<int>)
    requires forall i :: 0 <= i < |s| ==> IsStdChar(s[i])
    ensures |v| == |s| && forall i :: 0 <= i < |s| ==> 0 <= v[i] < 64
  {
    seq(|s|, i requires 0 <= i < |s| => StdValue(s[i]))
  }

  /** `atob(s.replace(/-/g, '+').replace(/_/g, '/'))`, the decoding of a
      token segment (server/auth.ts:84, server/auth.ts:112). */
  function DecodeSegment(s: string): Option<seq<byte>> {
    Atob(FromUrlAlphabet(s))
  }

  /** Non-empty input gives non-empty output. */
  lemma EncodeNonEmpty(b: seq<byte>)
    requires |b| > 0
    ensures |Base64UrlEncode(b)| >= 2
  {
    assert 4 * |b| + 2 >= 6;
  }

  /** Standard-alphabet text survives the round trip through the URL
      alphabet. */
  lemma UrlAlphabetRoundTrip(s: string)
    requires forall i :: 0 <= i < |s| ==> IsStdChar(s[i])
    ensures FromUrlAlphabet(ToUrlAlphabet(s)) == s
  {
  }

  /** `atob` reads unpadded standard-alphabet text back into the values
      it spells. */
  lemma AtobStd(v: seq<int>)
    requires forall i :: 0 <= i < |v| ==> 0 <= v[i] < 64
    requires |v| % 4 != 1
    ensures Atob(StdChars(v)) == Some(Bytes(v))
  {
    var s := StdChars(v);
    AtobPlain(s);
    forall i | 0 <= i < |s|
      ensures StdValue(s[i]) == v[i]
    {
      StdValueOfChar(v[i]);
    }
    assert StdValues(s) == v;
  }

  /** Text in the standard alphabet, without padding, is decoded as it
      stands. */
  lemma AtobPlain(s: string)
    requires forall i :: 0 <= i < |s| ==> IsStdChar(s[i])
    requires |s| % 4 != 1
    ensures Atob(s) == Some(Bytes(StdValues(s)))
  {
    assert RemoveAsciiSpace(s) == s;
    if |s| >= 1 {
      assert s[|s| - 1] != '=';
    }
    if |s| >= 2 {
      assert s[|s| - 2..][1] == s[|s| - 1];
      assert s[|s| - 2..] != "==";
    }
  }

  /** Decoding as done at verification inverts `base64UrlEncode` byte for byte. */
  lemma DecodeEncode(b: seq<byte>)
    ensures DecodeSegment(Base64UrlEncode(b)) == Some(b)
  {
    var v := Sextets(b);
    EncodeUnpadded(b);
    UrlAlphabetRoundTrip(StdChars(v));
    BytesSextets(b);
    AtobStd(v);
  }
}

=== FILE: cookies.dfy ===
/** Cookie jar utilities (server/utils.ts): reading the name-value pair of
    a Set-Cookie line (a simplification of section 5.2 of RFC 6265),
    folding several lines into one jar, and merging a jar into a `Cookie`
    header (`name=value` pairs joined by `"; "`, as in section 5.4 of
    RFC 6265) with the last write winning per name.

    A jar is an insertion-ordered map from cookie names to values: the
    `Record<string, string>` and `Map<string, string>` of the code.
 */
module Cookies {
  import opened Results
  import opened Text
  import opened OrderedMap

  type Jar = seq<(string, string)>

  /** `parseSetCookie(header)`: the pair before the first `;`, named by the
      text before its first `=` and valued by the rest, both trimmed. The
      name must be non-empty before it is trimmed. */
  function ParseSetCookie(header: Option<string>): (r: Jar)
    ensures |r| <= 1
    ensures header.None? || header.value == "" ==> r == []
    ensures |r| == 1 ==> '=' in Split(header.value, ';')[0]
  {
    if header.None? || header.value == "" then []
    else
      var nameValue := Split(header.value, ';')[0];
      var pieces := Split(nameValue, '=');
      var name := pieces[0];
      if name != "" && |pieces| > 1 then
        assert Join(pieces, "=") == pieces[0] + "=" + Join(pieces[1..], "=");
        assert nameValue[|pieces[0]|] == '=';
        [(Trim(name), Trim(Join(pieces[1..], "=")))]
      else []
  }

  /** Text that survives a trip through a `Cookie` header unchanged: no
      `;`, no `=`, and no white space at either end. */
  predicate CleanText(s: string) {
    ';' !in s && '=' !in s && (|s| > 0 ==> !IsJsSpace(s[0]) && !IsJsSpace(s[|s| - 1]))
  }

  /** Every name is non-empty and clean, and so is every value. */
  predicate Clean(jar: Jar) {
    forall e :: e in jar ==> e.0 != "" && CleanText(e.0) && CleanText(e.1)
  }

  /** One segment of an existing `Cookie` header, as `mergeCookies` reads
      it: the trimmed text before the first `=` and the trimmed text
      between the first and the second `=` (`""` when there is no `=`). */
  function ExistingCookie(c: string): (string, string) {
    var parts := Split(c, '=');
    (Trim(parts[0]), if |parts| >= 2 then Trim(parts[1]) else "")
  }

  /** A character missing from a string is missing from its trim. */
  lemma TrimNoChar(s: string, c: char)
    requires c !in s
    ensures c !in Trim(s)
  {
    if c in Trim(s) {
      TrimChars(s, c);
    }
  }

  /** The segments folded in order: a segment with an empty name is
      skipped, a repeated name keeps its place and takes the new value. */
  function ReadCookies(pieces: seq<string>): (jar: Jar)
    ensures Distinct(Keys(jar))
    decreases |pieces|
  {
    if |pieces| == 0 then []
    else
      var prev := ReadCookies(pieces[..|pieces| - 1]);
      var e := ExistingCookie(pieces[|pieces| - 1]);
      if e.0 != "" then Put(prev, e.0, e.1) else prev
  }

  /** The jar `mergeCookies` starts from: empty for an empty header. */
  function ReadJar(existing: string): (jar: Jar)
    ensures Distinct(Keys(jar))
  {
    if existing == "" then [] else ReadCookies(Split(existing, ';'))
  }

  function Entry(e: (string, string)): string {
    e.0 + "=" + e.1
  }

  /** The `name=val` pairs of a jar joined by `"; "`. */
  function Serialize(jar: Jar): string {
    Join(seq(|jar|, i requires 0 <= i < |jar| => Entry(jar[i])), "; ")
  }

  /** `mergeCookies(existing, newCookies)` */
  function MergeCookies(existing: string, newCookies: Jar): (r: string)
    ensures existing == "" && newCookies == [] ==> r == ""
  {
    Serialize(PutAll(ReadJar(existing), newCookies))
  }

  /** `extractCookiesFromResponse(res)` on a runtime with `getSetCookie`:
      every Set-Cookie line parsed and assigned into one jar in order. */
  function ExtractCookies(lines: seq<string>): (jar: Jar)
    decreases |lines|
  {
    if |lines| == 0 then []
    else PutAll(ExtractCookies(lines[..|lines| - 1]), ParseSetCookie(Some(lines[|lines| - 1])))
  }

  /** `extractCookiesFromResponse(res)` on a runtime without
      `getSetCookie`: `headers.get('Set-Cookie')` combines the lines with
      `", "`, and only that one string is parsed. */
  function ExtractCookiesCombined(lines: seq<string>): (jar: Jar)
    ensures |jar| <= 1
  {
    if |lines| == 0 then [] else ParseSetCookie(Some(Join(lines, ", ")))
  }

  // ---------------------------------------------------------------------
  // parseSetCookie

  /** A line `name=value` followed by nothing or by `;` and attributes
      yields the one pair, trimmed; the attributes are ignored and a value
      may itself hold `=`. */
  lemma ParseSetCookieEntry(name: string, value: string, attrs: string)
    requires name != "" && '=' !in name && ';' !in name && ';' !in value
    requires attrs == "" || attrs[0] == ';'
    ensures ParseSetCookie(Some(name + "=" + value + attrs)) == [(Trim(name), Trim(value))]
  {
    var nv := name + "=" + value;
    assert ';' !in nv;
    if attrs == "" {
      assert nv + attrs == nv;
      SplitNoSeparator(nv, ';');
    } else {
      assert nv + attrs == nv + [';'] + attrs[1..];
      SplitAfterPiece(nv, ';', attrs[1..]);
    }
    assert nv == name + ['='] + value;
    SplitAfterPiece(name, '=', value);
    assert Split(nv, '=')[1..] == Split(value, '=');
  }

  /** Without `=` before the first `;` there is no cookie. */
  lemma ParseSetCookieNoEquals(line: string)
    requires '=' !in Split(line, ';')[0]
    ensures ParseSetCookie(Some(line)) == []
  {
    if line != "" {
      SplitNoSeparator(Split(line, ';')[0], '=');
    }
  }

  /** An empty name gives no cookie. */
  lemma ParseSetCookieEmptyName(rest: string)
    ensures ParseSetCookie(Some("=" + rest)) == []
  {
    var line := "=" + rest;
    var nameValue := Split(line, ';')[0];
    assert Join(Split(line, ';'), ";") == line;
    assert nameValue == Split(line, ';')[0];
    FirstPieceStart(line, ';');
    assert nameValue[0] == '=';
    assert nameValue == "" + ['='] + nameValue[1..];
    SplitAfterPiece("", '=', nameValue[1..]);
  }

  /** The first piece of a split is a prefix of the string. */
  lemma FirstPieceStart(s: string, sep: char)
    ensures |Split(s, sep)[0]| <= |s| && s[..|Split(s, sep)[0]|] == Split(s, sep)[0]
  {
    var parts := Split(s, sep);
    if |parts| > 1 {
      assert Join(parts, [sep]) == parts[0] + [sep] + Join(parts[1..], [sep]);
    }
  }

  /** The name is checked before it is trimmed: a line starting with a
      blank then `=` yields a cookie with the empty name. */
  lemma ParseSetCookieBlankName()
    ensures ParseSetCookie(Some(" =v")) == [("", "v")]
  {
    BlankNameLine();
    BlankNameEntry();
    BlankNameTrims();
  }

  lemma BlankNameLine()
    ensures " " + "=" + "v" + "" == " =v"
  {
    var line := " " + "=" + "v" + "";
    assert |line| == 3 && line[0] == ' ' && line[1] == '=' && line[2] == 'v';
  }

  lemma BlankNameEntry()
    ensures ParseSetCookie(Some(" " + "=" + "v" + "")) == [(Trim(" "), Trim("v"))]
  {
    assert '=' !in " " && ';' !in " " && ';' !in "v";
    ParseSetCookieEntry(" ", "v", "");
  }

  lemma BlankNameTrims()
    ensures Trim(" ") == "" && Trim("v") == "v"
  {
    TrimBlank(" ");
    TrimUnchanged("v");
  }

  // ---------------------------------------------------------------------
  // extractCookiesFromResponse

  /** The Set-Cookie line `line` sets the cookie `k`. */
  predicate SetsName(line: string, k: string) {
    k in Keys(ParseSetCookie(Some(line)))
  }

  lemma ExtractCookiesLast(lines: seq<string>)
    requires |lines| > 0
    ensures ExtractCookies(lines)
            == PutAll(ExtractCookies(lines[..|lines| - 1]), ParseSetCookie(Some(lines[|lines| - 1])))
  {
  }

  /** Assigning a sequence of jars, one after another, into an empty one. */
  function FoldJars(js: seq<Jar>): Jar
    decreases |js|
  {
    if |js| == 0 then [] else PutAll(FoldJars(js[..|js| - 1]), js[|js| - 1])
  }

  /** The jar each Set-Cookie line yields. */
  function Parsed(lines: seq<string>): (js: seq<Jar>)
    ensures |js| == |lines|
    ensures forall i :: 0 <= i < |lines| ==> js[i] == ParseSetCookie(Some(lines[i]))
  {
    seq(|lines|, i requires 0 <= i < |lines| => ParseSetCookie(Some(lines[i])))
  }

  lemma {:induction false} ExtractIsFold(lines: seq<string>)
    ensures ExtractCookies(lines) == FoldJars(Parsed(lines))
    decreases |lines|
  {
    if |lines| > 0 {
      var n := |lines| - 1;
      ExtractIsFold(lines[..n]);
      assert Parsed(lines)[..n] == Parsed(lines[..n]);
    }
  }

  lemma {:induction false} FoldLastWins(js: seq<Jar>, k: string, j: int)
    requires 0 <= j < |js| && k in Keys(js[j])
    requires forall i :: j < i < |js| ==> k !in Keys(js[i])
    ensures Get(FoldJars(js), k) == Get(js[j], k)
    decreases |js|
  {
    var n := |js| - 1;
    var prev := js[..n];
    FoldStep(js);
    PutAllGet(FoldJars(prev), js[n], k);
    if j < n {
      assert prev[j] == js[j];
      assert forall i :: j < i < |prev| ==> prev[i] == js[i];
      FoldLastWins(prev, k, j);
    }
  }

  lemma {:induction false} FoldKeeps(js: seq<Jar>, k: string, j: int)
    requires 0 <= j < |js| && k in Keys(js[j])
    ensures k in Keys(FoldJars(js))
    decreases |js|
  {
    var n := |js| - 1;
    if j < n {
      assert js[..n][j] == js[j];
      FoldKeeps(js[..n], k, j);
      FoldKeepsPrev(js, k);
    } else {
      FoldKeepsLast(js, k);
    }
  }

  lemma FoldKeepsPrev(js: seq<Jar>, k: string)
    requires |js| > 0 && k in Keys(FoldJars(js[..|js| - 1]))
    ensures k in Keys(FoldJars(js))
  {
    FoldStep(js);
    PutAllHasKey(FoldJars(js[..|js| - 1]), js[|js| - 1], k);
  }

  lemma FoldKeepsLast(js: seq<Jar>, k: string)
    requires |js| > 0 && k in Keys(js[|js| - 1])
    ensures k in Keys(FoldJars(js))
  {
    FoldStep(js);
    PutAllHasKey(FoldJars(js[..|js| - 1]), js[|js| - 1], k);
  }

  lemma FoldStep(js: seq<Jar>)
    requires |js| > 0
    ensures FoldJars(js) == PutAll(FoldJars(js[..|js| - 1]), js[|js| - 1])
  {
  }

  lemma PutAllGet(m: Jar, rows: Jar, k: string)
    ensures Get(PutAll(m, rows), k) == if k in Keys(rows) then Get(rows, k) else Get(m, k)
  {
  }

  lemma PutAllHasKey(m: Jar, rows: Jar, k: string)
    requires k in Keys(m) || k in Keys(rows)
    ensures k in Keys(PutAll(m, rows))
  {
  }

  lemma {:induction false} FoldSource(js: seq<Jar>, k: string) returns (j: int)
    requires k in Keys(FoldJars(js))
    ensures 0 <= j < |js| && k in Keys(js[j])
    decreases |js|
  {
    var n := |js| - 1;
    assert FoldJars(js) == PutAll(FoldJars(js[..n]), js[n]);
    if k in Keys(js[n]) {
      j := n;
    } else {
      j := FoldSource(js[..n], k);
      assert js[..n][j] == js[j];
    }
  }

  /** The value a fold over Set-Cookie lines keeps for a name is the one
      from the last line that sets it. */
  lemma ExtractLastWins(lines: seq<string>, k: string, j: int)
    requires 0 <= j < |lines| && SetsName(lines[j], k)
    requires forall i :: j < i < |lines| ==> !SetsName(lines[i], k)
    ensures Get(ExtractCookies(lines), k) == Get(ParseSetCookie(Some(lines[j])), k)
  {
    var js := Parsed(lines);
    ExtractIsFold(lines);
    assert forall i :: j < i < |js| ==> k !in Keys(js[i]) by {
      forall i | j < i < |js| ensures k !in Keys(js[i]) {
        assert !SetsName(lines[i], k);
      }
    }
    FoldLastWins(js, k, j);
  }

  /** A name is in the extracted jar exactly when some line sets it. */
  lemma ExtractNames(lines: seq<string>, k: string)
    ensures k in Keys(ExtractCookies(lines))
            <==> exists j :: 0 <= j < |lines| && SetsName(lines[j], k)
  {
    var js := Parsed(lines);
    ExtractIsFold(lines);
    if k in Keys(ExtractCookies(lines)) {
      var j := FoldSource(js, k);
      assert SetsName(lines[j], k);
    }
    if exists j :: 0 <= j < |lines| && SetsName(lines[j], k) {
      var j :| 0 <= j < |lines| && SetsName(lines[j], k);
      FoldKeeps(js, k, j);
    }
  }

  // ---------------------------------------------------------------------
  // mergeCookies

  /** A segment of an existing header reads back as a clean pair. */
  lemma ExistingCookieClean(c: string)
    requires ';' !in c
    ensures var e := ExistingCookie(c); CleanText(e.0) && CleanText(e.1)
  {
    var parts := Split(c, '=');
    if ';' in parts[0] {
      JoinHasPart(parts, "=", 0, ';');
    }
    TrimNoChar(parts[0], ';');
    TrimNoChar(parts[0], '=');
    if |parts| >= 2 {
      if ';' in parts[1] {
        JoinHasPart(parts, "=", 1, ';');
      }
      TrimNoChar(parts[1], ';');
      TrimNoChar(parts[1], '=');
    }
  }

  lemma ReadCookiesSnoc(pieces: seq<string>, x: string)
    ensures var e := ExistingCookie(x);
            ReadCookies(pieces + [x])
              == if e.0 != "" then Put(ReadCookies(pieces), e.0, e.1) else ReadCookies(pieces)
  {
    assert (pieces + [x])[..|pieces|] == pieces;
  }

  /** The jar read from any header is clean. */
  lemma {:induction false} ReadCookiesClean(pieces: seq<string>)
    requires forall i :: 0 <= i < |pieces| ==> ';' !in pieces[i]
    ensures Clean(ReadCookies(pieces))
    decreases |pieces|
  {
    if |pieces| > 0 {
      var n := |pieces| - 1;
      var prev := pieces[..n];
      assert forall i :: 0 <= i < |prev| ==> prev[i] == pieces[i];
      ReadCookiesClean(prev);
      ExistingCookieClean(pieces[n]);
      var e := ExistingCookie(pieces[n]);
      if e.0 != "" {
        PutClean(ReadCookies(prev), e.0, e.1);
      }
    }
  }

  lemma PutClean(jar: Jar, k: string, v: string)
    requires Clean(jar) && k != "" && CleanText(k) && CleanText(v)
    ensures Clean(Put(jar, k, v))
  {
  }

  lemma ReadJarClean(existing: string)
    ensures Clean(ReadJar(existing))
  {
    if existing != "" {
      ReadCookiesClean(Split(existing, ';'));
    }
  }

  lemma EntryParts(front: string, value: string)
    requires '=' !in front && '=' !in value
    ensures Split(front + "=" + value, '=') == [front, value]
  {
    assert front + "=" + value == front + ['='] + value;
    SplitAfterPiece(front, '=', value);
    SplitNoSeparator(value, '=');
  }

  lemma LeadTrim(name: string, lead: string)
    requires name != "" && CleanText(name)
    requires lead == "" || lead == " "
    ensures Trim(lead + name) == name
  {
    TrimUnchanged(name);
    if lead == " " {
      TrimLeadingSpace(name);
    } else {
      assert lead + name == name;
    }
  }

  /** A clean pair, with or without the blank `"; "` leaves before it,
      reads back as itself. */
  lemma EntryReadBack(e: (string, string), lead: string)
    requires e.0 != "" && CleanText(e.0) && CleanText(e.1)
    requires lead == "" || lead == " "
    ensures ';' !in lead + Entry(e)
    ensures ExistingCookie(lead + Entry(e)) == e
  {
    EntryNoSemicolon(e, lead);
    EntryValue(e, lead);
  }

  lemma EntryValue(e: (string, string), lead: string)
    requires e.0 != "" && CleanText(e.0) && CleanText(e.1)
    requires lead == "" || lead == " "
    ensures ExistingCookie(lead + Entry(e)) == e
  {
    EntryRead(e, lead);
    LeadTrim(e.0, lead);
    TrimUnchanged(e.1);
  }

  lemma EntryRead(e: (string, string), lead: string)
    requires e.0 != "" && CleanText(e.0) && CleanText(e.1)
    requires lead == "" || lead == " "
    ensures ExistingCookie(lead + Entry(e)) == (Trim(lead + e.0), Trim(e.1))
  {
    EntryJoin(e, lead);
    ExistingOf(lead + e.0, e.1);
  }

  lemma EntryJoin(e: (string, string), lead: string)
    requires '=' !in e.0
    requires lead == "" || lead == " "
    ensures '=' !in lead + e.0
    ensures lead + Entry(e) == (lead + e.0) + "=" + e.1
  {
    assert '=' !in lead;
  }

  lemma ExistingOf(front: string, value: string)
    requires '=' !in front && '=' !in value
    ensures ExistingCookie(front + "=" + value) == (Trim(front), Trim(value))
  {
    EntryParts(front, value);
  }

  lemma EntryNoSemicolon(e: (string, string), lead: string)
    requires ';' !in e.0 && ';' !in e.1
    requires lead == "" || lead == " "
    ensures ';' !in lead + Entry(e)
  {
    assert ';' !in lead && ';' !in "=";
    assert lead + Entry(e) == lead + e.0 + "=" + e.1;
  }

  lemma SerializeSnoc(jar: Jar, e: (string, string))
    requires |jar| >= 1
    ensures Serialize(jar + [e]) == Serialize(jar) + [';'] + (" " + Entry(e))
  {
    var ps := seq(|jar|, i requires 0 <= i < |jar| => Entry(jar[i]));
    var jar' := jar + [e];
    assert seq(|jar'|, i requires 0 <= i < |jar'| => Entry(jar'[i])) == ps + [Entry(e)];
    JoinSnoc(ps, "; ", Entry(e));
  }

  lemma SerializeSingle(e: (string, string))
    requires ';' !in Entry(e)
    ensures Split(Serialize([e]), ';') == [Entry(e)]
  {
    assert Serialize([e]) == Entry(e);
    SplitNoSeparator(Entry(e), ';');
  }

  /** Serializing one more pair adds one more `;`-separated segment. */
  lemma SerializedPieces(prev: Jar, e: (string, string))
    requires |prev| >= 1 && ';' !in " " + Entry(e)
    ensures Split(Serialize(prev + [e]), ';') == Split(Serialize(prev), ';') + [" " + Entry(e)]
  {
    SerializeSnoc(prev, e);
    SplitConcat(Serialize(prev), ';', " " + Entry(e));
    SplitNoSeparator(" " + Entry(e), ';');
  }

  /** Dropping the last pair of a clean jar with distinct names leaves a
      clean jar with distinct names that lacks the last name. */
  lemma JarPrefix(jar: Jar)
    requires |jar| >= 1 && Clean(jar) && Distinct(Keys(jar))
    ensures var n := |jar| - 1;
            Clean(jar[..n]) && Distinct(Keys(jar[..n])) && jar[n].0 !in Keys(jar[..n])
            && jar[..n] + [jar[n]] == jar
  {
    var n := |jar| - 1;
    var prev := jar[..n];
    assert forall x :: x in prev ==> x in jar;
    assert Keys(prev) == Keys(jar)[..n];
    assert Keys(jar)[n] == jar[n].0;
  }

  lemma ReadSerializedSingle(e: (string, string))
    requires e.0 != "" && CleanText(e.0) && CleanText(e.1)
    ensures ReadCookies(Split(Serialize([e]), ';')) == [e]
  {
    var x := Entry(e);
    EntryReadBack(e, "");
    assert "" + x == x;
    assert ExistingCookie(x) == e;
    SerializeSingle(e);
    ReadCookiesSnoc([], x);
    assert [] + [x] == [x];
    assert ReadCookies([x]) == Put([], e.0, e.1);
    PutFreshKey([], e.0, e.1);
  }

  /** Reading back a serialized clean jar gives the jar. */
  lemma {:induction false} ReadSerialized(jar: Jar)
    requires |jar| >= 1 && Clean(jar) && Distinct(Keys(jar))
    ensures ReadCookies(Split(Serialize(jar), ';')) == jar
    decreases |jar|
  {
    var n := |jar| - 1;
    var e := jar[n];
    if n == 0 {
      assert jar == [e];
      ReadSerializedSingle(e);
    } else {
      var prev := jar[..n];
      var pieces := Split(Serialize(prev), ';');
      var x := " " + Entry(e);
      JarPrefix(jar);
      ReadSerialized(prev);
      EntryReadBack(e, " ");
      SerializedPieces(prev, e);
      ReadCookiesSnoc(pieces, x);
      assert ReadCookies(pieces + [x]) == Put(prev, e.0, e.1);
      PutFreshKey(prev, e.0, e.1);
    }
  }

  /** `mergeCookies` read back: the header it writes holds exactly the
      existing jar with the new cookies assigned over it, provided the new
      names and values are clean. */
  lemma MergeReadBack(existing: string, newCookies: Jar)
    requires Clean(newCookies)
    ensures ReadJar(MergeCookies(existing, newCookies)) == PutAll(ReadJar(existing), newCookies)
  {
    var jar := PutAll(ReadJar(existing), newCookies);
    ReadJarClean(existing);
    PutAllClean(ReadJar(existing), newCookies);
    assert MergeCookies(existing, newCookies) == Serialize(jar);
    if |jar| == 0 {
      assert Serialize(jar) == "";
    } else {
      ReadSerialized(jar);
      SerializeNonEmpty(jar);
    }
  }

  /** Assigning clean cookies into a clean jar keeps it clean. */
  lemma PutAllClean(m: Jar, rows: Jar)
    requires Clean(m) && Clean(rows)
    ensures Clean(PutAll(m, rows))
  {
    PutAllEntries(m, rows);
  }

  lemma SerializeNonEmpty(jar: Jar)
    requires |jar| >= 1
    ensures Serialize(jar) != ""
  {
    var ps := seq(|jar|, i requires 0 <= i < |jar| => Entry(jar[i]));
    assert |ps[0]| >= 1;
    JoinNonEmpty(ps, "; ");
  }

  /** Joining pieces of which the first is non-empty gives non-empty text. */
  lemma JoinNonEmpty(ps: seq<string>, sep: string)
    requires |ps| >= 1 && ps[0] != ""
    ensures Join(ps, sep) != ""
  {
  }

  /** Last write wins: in the merged header every new name has its new
      value, every other existing name keeps its value, the existing names
      come first in their order, and no name appears twice. */
  lemma MergeLastWriteWins(existing: string, newCookies: Jar)
    requires Clean(newCookies)
    ensures var merged := ReadJar(MergeCookies(existing, newCookies));
            (forall k :: k in Keys(newCookies) ==> Get(merged, k) == Get(newCookies, k))
            && (forall k :: k !in Keys(newCookies) ==> Get(merged, k) == Get(ReadJar(existing), k))
            && |Keys(ReadJar(existing))| <= |Keys(merged)|
            && Keys(merged)[..|Keys(ReadJar(existing))|] == Keys(ReadJar(existing))
            && Distinct(Keys(merged))
  {
    MergeReadBack(existing, newCookies);
  }

  /** A value in the existing header is cut at its second `=`. */
  lemma ExistingValueTruncated(name: string, value: string, rest: string)
    requires name != "" && CleanText(name) && CleanText(value) && ';' !in rest
    ensures ReadJar(name + "=" + value + "=" + rest) == [(name, value)]
  {
    var c := name + "=" + value + "=" + rest;
    assert c == name + ['='] + (value + ['='] + rest);
    SplitAfterPiece(name, '=', value + ['='] + rest);
    SplitAfterPiece(value, '=', rest);
    TrimUnchanged(name);
    TrimUnchanged(value);
    assert ';' !in c;
    SplitNoSeparator(c, ';');
    assert [c] == [] + [c];
    ReadCookiesSnoc([], c);
  }
}

=== FILE: dashboard.dfy ===
/** The pure fragments of the request handler (server/index.ts): the
    lowercase hexadecimal of the password digest, the working-day filter
    over a fetched schedule, the location read from a day's duty segments,
    the merge of stored locations into schedule items, and the colour map
    with its forced entry.

    Values read from JSON are `Json`; a property read follows JavaScript
    (`Json.Prop`), so a `null` element makes the fragment throw the
    `TypeError` the code would throw.
 */
module Dashboard {
  import opened Results
  import opened Text
  import opened OrderedMap
  import opened Utf8
  import opened Json
  import Auth

  /** SHA-256 as `crypto.subtle.digest` computes it, a foreign primitive. */
  type Sha256 = seq<byte> -> Auth.Digest

  const Emergency := "비상"
  const EmergencyColor := "hsl(0, 1%, 52%)"

  // ---------------------------------------------------------------------
  // Digest hex encoding (lines 50-53)

  /** `b.toString(16)` */
  function ToHex(b: byte): (r: string)
    ensures |r| == (if b < 16 then 1 else 2)
  {
    if b < 16 then [HexDigit(b)] else [HexDigit(b / 16), HexDigit(b % 16)]
  }

  /** `s.padStart(2, '0')` */
  function PadStart2(s: string): (r: string)
    ensures |s| >= 2 ==> r == s
    ensures |s| < 2 ==> |r| == 2 && r[2 - |s|..] == s
  {
    if |s| >= 2 then s else seq(2 - |s|, i => '0') + s
  }

  /** `hashArray.map(b => b.toString(16).padStart(2, '0')).join('')` */
  function HexEncode(bytes: seq<byte>): (r: string)
    ensures |r| == 2 * |bytes|
    decreases |bytes|
  {
    if |bytes| == 0 then "" else PadStart2(ToHex(bytes[0])) + HexEncode(bytes[1..])
  }

  /** The stored password hash: SHA-256 of the UTF-8 bytes, in hex. */
  function PasswordHash(sha: Sha256, password: string): (r: string)
    ensures |r| == 64
  {
    HexEncode(sha(Encode(password)))
  }

  predicate IsLowerHex(c: char) {
    '0' <= c <= '9' || 'a' <= c <= 'f'
  }

  function HexValue(c: char): (v: int)
    requires IsLowerHex(c)
    ensures 0 <= v < 16
  {
    if c <= '9' then c as int - '0' as int else c as int - 'a' as int + 10
  }

  /** Reads lowercase hexadecimal back, two digits per byte. */
  function HexDecode(s: string): Option<seq<byte>>
    decreases |s|
  {
    if |s| == 0 then Some([])
    else if |s| == 1 || !IsLowerHex(s[0]) || !IsLowerHex(s[1]) then None
    else match HexDecode(s[2..])
      case None => None
      case Some(rest) => Some([HexValue(s[0]) * 16 + HexValue(s[1])] + rest)
  }

  /** Each byte becomes exactly two lowercase hex digits, the high nibble
      first. */
  lemma HexPair(b: byte)
    ensures var h := PadStart2(ToHex(b));
            |h| == 2 && IsLowerHex(h[0]) && IsLowerHex(h[1])
            && HexValue(h[0]) == b / 16 && HexValue(h[1]) == b % 16
  {
    if b < 16 {
      assert PadStart2(ToHex(b)) == ['0', HexDigit(b)];
    }
  }

  /** The digest's hex is all lowercase hex digits. */
  lemma {:induction false} HexEncodeDigits(bytes: seq<byte>)
    ensures forall i :: 0 <= i < |HexEncode(bytes)| ==> IsLowerHex(HexEncode(bytes)[i])
    decreases |bytes|
  {
    if |bytes| > 0 {
      HexPair(bytes[0]);
      HexEncodeDigits(bytes[1..]);
    }
  }

  /** Hex decoding inverts the encoding, so distinct digests give distinct
      hashes. */
  lemma {:induction false} HexDecodeEncode(bytes: seq<byte>)
    ensures HexDecode(HexEncode(bytes)) == Some(bytes)
    decreases |bytes|
  {
    if |bytes| > 0 {
      var h := PadStart2(ToHex(bytes[0]));
      var s := HexEncode(bytes);
      HexPair(bytes[0]);
      HexDecodeEncode(bytes[1..]);
      assert s[..2] == h && s[2..] == HexEncode(bytes[1..]);
      assert [bytes[0]] + bytes[1..] == bytes;
    }
  }

  // ---------------------------------------------------------------------
  // Working-day filter (lines 177-180)

  /** A duty identifier that names a working day: present, not `S`, and
      not starting with `~`. */
  predicate WorkingId(p: string) {
    p != "" && p != "S" && !StartsWith(p, "~")
  }

  /** The filter's callback on one item; `p.startsWith` throws when a
      truthy `pdiaNo` is not a string. */
  function IsWorkingDay(item: Json): (r: Result<bool>)
    ensures r.Ok? <==> WellFormedItem(item)
    ensures r.Ok? ==> r.value == Works(item)
    ensures item == JNull ==> r.Fail?
    ensures Prop(Some(item), "pdiaNo").Ok? && !Truthy(Prop(Some(item), "pdiaNo").value) ==> r == Ok(false)
    ensures item.JObj? && Get(item.fields, "pdiaNo").None? ==> r == Ok(false)
    ensures item.JObj? && Get(item.fields, "pdiaNo").Some? && Get(item.fields, "pdiaNo").value.JStr?
            ==> r == Ok(WorkingId(Get(item.fields, "pdiaNo").value.s))
  {
    match Prop(Some(item), "pdiaNo")
    case Fail(m) => Fail(m)
    case Ok(p) =>
      if !Truthy(p) then Ok(false)
      else if p == Some(JStr("S")) then Ok(false)
      else if p.value.JStr? then Ok(!StartsWith(p.value.s, "~"))
      else Fail("p.startsWith is not a function")
  }

  /** `schedule.filter(...)`, the callback applied left to right. */
  function WorkingDays(items: seq<Json>): (r: Result<seq<Json>>)
    ensures r.Ok? ==> |r.value| <= |items|
    decreases |items|
  {
    if |items| == 0 then Ok([])
    else match IsWorkingDay(items[0])
      case Fail(m) => Fail(m)
      case Ok(keep) =>
        match WorkingDays(items[1..])
        case Fail(m) => Fail(m)
        case Ok(rest) => Ok(if keep then [items[0]] + rest else rest)
  }

  /** An item the callback accepts without throwing: not `null`, and its
      `pdiaNo` is a string whenever it is truthy. Arrays, strings and
      numbers have no `pdiaNo`, so they pass. */
  predicate WellFormedItem(item: Json) {
    item != JNull && var p := Prop(Some(item), "pdiaNo").value; Truthy(p) ==> p.value.JStr?
  }

  /** The item names a working day. */
  predicate Works(item: Json) {
    item.JObj? && var p := Get(item.fields, "pdiaNo"); p.Some? && p.value.JStr? && WorkingId(p.value.s)
  }

  /** The filter throws exactly when some item makes its callback throw. */
  lemma {:induction false} WorkingDaysSucceed(items: seq<Json>)
    ensures WorkingDays(items).Ok? <==> forall i :: 0 <= i < |items| ==> WellFormedItem(items[i])
    decreases |items|
  {
    if |items| > 0 {
      WorkingDaysSucceed(items[1..]);
      assert forall i :: 0 <= i < |items[1..]| ==> items[1..][i] == items[i + 1];
      if WorkingDays(items).Ok? {
        forall i | 0 <= i < |items|
          ensures WellFormedItem(items[i])
        {
          if i > 0 {
            assert items[1..][i - 1] == items[i];
          }
        }
      }
    }
  }

  /** On well-formed items the filter keeps exactly the working days, in
      their order. */
  lemma {:induction false} WorkingDaysExact(items: seq<Json>)
    requires forall i :: 0 <= i < |items| ==> WellFormedItem(items[i])
    ensures WorkingDays(items).Ok?
    ensures var ws := WorkingDays(items).value;
            (forall x :: x in ws ==> x in items && Works(x))
            && (forall i :: 0 <= i < |items| && Works(items[i]) ==> items[i] in ws)
    decreases |items|
  {
    if |items| > 0 {
      var x := items[0];
      assert forall i :: 0 <= i < |items[1..]| ==> WellFormedItem(items[1..][i]) by {
        assert forall i :: 0 <= i < |items[1..]| ==> items[1..][i] == items[i + 1];
      }
      WorkingDaysExact(items[1..]);
      assert IsWorkingDay(x) == Ok(Works(x));
      var ws := WorkingDays(items).value;
      var rest := WorkingDays(items[1..]).value;
      assert ws == if Works(x) then [x] + rest else rest;
      forall i | 0 <= i < |items| && Works(items[i])
        ensures items[i] in ws
      {
        if i > 0 {
          assert items[1..][i - 1] == items[i];
        }
      }
    }
  }

  /** The items that name a working day, in schedule order. */
  function Kept(items: seq<Json>): (r: seq<Json>)
    decreases |items|
  {
    if |items| == 0 then []
    else (if Works(items[0]) then [items[0]] else []) + Kept(items[1..])
  }

  /** Each item occurs among the kept ones as often as in the schedule if
      it names a working day, and not at all otherwise. */
  lemma {:induction false} KeptCount(items: seq<Json>, x: Json)
    ensures multiset(Kept(items))[x] == if Works(x) then multiset(items)[x] else 0
    decreases |items|
  {
    if |items| > 0 {
      KeptCount(items[1..], x);
      assert items == [items[0]] + items[1..];
    }
  }

  /** On well-formed items the filter returns exactly `Kept`. */
  lemma {:induction false} WorkingDaysAreKept(items: seq<Json>)
    requires forall i :: 0 <= i < |items| ==> WellFormedItem(items[i])
    ensures WorkingDays(items) == Ok(Kept(items))
    decreases |items|
  {
    if |items| > 0 {
      assert forall i :: 0 <= i < |items[1..]| ==> WellFormedItem(items[1..][i]) by {
        assert forall i :: 0 <= i < |items[1..]| ==> items[1..][i] == items[i + 1];
      }
      WorkingDaysAreKept(items[1..]);
      assert IsWorkingDay(items[0]) == Ok(Works(items[0]));
      var rest := Kept(items[1..]);
      assert WorkingDays(items) == Ok(if Works(items[0]) then [items[0]] + rest else rest);
      if !Works(items[0]) {
        assert Kept(items) == [] + rest == rest;
      }
    }
  }

  /** Filtering keeps the relative order: the kept items are a
      subsequence of the schedule. */
  lemma {:induction false} WorkingDaysOrdered(items: seq<Json>)
    requires WorkingDays(items).Ok?
    ensures IsSubsequence(WorkingDays(items).value, items)
    decreases |items|
  {
    if |items| > 0 {
      WorkingDaysOrdered(items[1..]);
    }
  }

  /** `a` is `b` with some elements left out. */
  predicate IsSubsequence(a: seq<Json>, b: seq<Json>)
    decreases |b|
  {
    |a| == 0
    || (|b| > 0 && ((a[0] == b[0] && IsSubsequence(a[1..], b[1..])) || IsSubsequence(a, b[1..])))
  }

  // ---------------------------------------------------------------------
  // Location extraction (lines 200-223)

  /** `dia.data || dia.extrCrewDiaList || []` for a truthy `dia`. */
  function Segments(dia: Json): (r: Json)
    requires dia != JNull
  {
    var data := Prop(Some(dia), "data");
    var list := Prop(Some(dia), "extrCrewDiaList");
    if data.Ok? && Truthy(data.value) then data.value.value
    else if list.Ok? && Truthy(list.value) then list.value.value
    else JArr([])
  }

  /** `seg.dptStnNm || seg.depStnNm` */
  function StationOf(seg: Json): (r: Result<Option<Json>>)
    ensures r.Fail? <==> seg == JNull
  {
    match Prop(Some(seg), "dptStnNm")
    case Fail(m) => Fail(m)
    case Ok(dpt) =>
      if Truthy(dpt) then Ok(dpt)
      else Prop(Some(seg), "depStnNm")
  }

  /** The loop of lines 212-218: the first truthy station name, or `""`. */
  function FirstStation(segs: seq<Json>): (r: Result<Json>)
    ensures r.Ok? && r.value != JStr("") ==> Truthy(Some(r.value))
    decreases |segs|
  {
    if |segs| == 0 then Ok(JStr(""))
    else match StationOf(segs[0])
      case Fail(m) => Fail(m)
      case Ok(nm) => if Truthy(nm) then Ok(nm.value) else FirstStation(segs[1..])
  }

  /** `segments.length > 0` on an object: its `length` member is a
      positive number. Then `segments[0]` reads the member `"0"`, but a
      plain object is not iterable, so `for … of` throws. */
  predicate ArrayLike(segs: Json) {
    segs.JObj? && var n := Get(segs.fields, "length"); n.Some? && n.value.JNum? && n.value.n > 0
  }

  /** The location of a day, `""` when none is found. A non-empty array is
      searched segment by segment; an array-like object can only give
      `비상`, from its first segment, before the loop over it throws; a
      string's characters and other values carry no station names. */
  function Location(dia: Json): (r: Result<Json>)
    requires dia != JNull
    ensures var segs := Segments(dia);
            (!segs.JArr? && !ArrayLike(segs)) || segs == JArr([]) ==> r == Ok(JStr(""))
    ensures var segs := Segments(dia);
            ArrayLike(segs) ==> (r.Ok? <==> Prop(Get(segs.fields, "0"), "pjtHrDvNm") == Ok(Some(JStr(Emergency))))
    ensures var segs := Segments(dia);
            ArrayLike(segs) && r.Ok? ==> r.value == JStr(Emergency)
    ensures var segs := Segments(dia);
            segs.JArr? && |segs.items| > 0 ==>
              match Prop(Some(segs.items[0]), "pjtHrDvNm")
              case Fail(_) => r.Fail?
              case Ok(kind) => r == if kind == Some(JStr(Emergency)) then Ok(JStr(Emergency)) else FirstStation(segs.items)
  {
    var segs := Segments(dia);
    if segs.JArr? && |segs.items| > 0 then
      match Prop(Some(segs.items[0]), "pjtHrDvNm")
      case Fail(m) => Fail(m)
      case Ok(kind) =>
        if kind == Some(JStr(Emergency)) then Ok(JStr(Emergency))
        else FirstStation(segs.items)
    else if ArrayLike(segs) then
      match Prop(Get(segs.fields, "0"), "pjtHrDvNm")
      case Fail(m) => Fail(m)
      case Ok(kind) =>
        if kind == Some(JStr(Emergency)) then Ok(JStr(Emergency))
        else Fail("segments is not iterable")
    else Ok(JStr(""))
  }

  /** A first segment of kind `비상` decides the location whatever the
      station fields say. */
  lemma EmergencyFirst(dia: Json, first: seq<(string, Json)>, more: seq<Json>)
    requires dia != JNull && Segments(dia) == JArr([JObj(first)] + more)
    requires Get(first, "pjtHrDvNm") == Some(JStr(Emergency))
    ensures Location(dia) == Ok(JStr(Emergency))
  {
  }

  /** The first segment, in order, with a truthy `dptStnNm` or `depStnNm`
      gives the location, `dptStnNm` preferred. */
  lemma {:induction false} FirstStationFound(segs: seq<Json>, i: int)
    requires 0 <= i < |segs|
    requires forall j :: 0 <= j < i ==> StationOf(segs[j]).Ok? && !Truthy(StationOf(segs[j]).value)
    requires StationOf(segs[i]).Ok? && Truthy(StationOf(segs[i]).value)
    ensures FirstStation(segs) == Ok(StationOf(segs[i]).value.value)
    decreases i
  {
    if i > 0 {
      assert forall j :: 0 <= j < i - 1 ==> segs[1..][j] == segs[j + 1];
      FirstStationFound(segs[1..], i - 1);
    }
  }

  /** When the first segment is not of kind `비상`, the location of the day
      is the first station name found, in segment order. */
  lemma {:induction false} StationLocation(dia: Json, i: int)
    requires dia != JNull && Segments(dia).JArr?
    requires var segs := Segments(dia).items;
             0 <= i < |segs| && Prop(Some(segs[0]), "pjtHrDvNm").Ok?
             && Prop(Some(segs[0]), "pjtHrDvNm").value != Some(JStr(Emergency))
    requires var segs := Segments(dia).items;
             forall j :: 0 <= j < i ==> StationOf(segs[j]).Ok? && !Truthy(StationOf(segs[j]).value)
    requires var segs := Segments(dia).items;
             StationOf(segs[i]).Ok? && Truthy(StationOf(segs[i]).value)
    ensures Location(dia) == Ok(StationOf(Segments(dia).items[i]).value.value)
  {
    FirstStationFound(Segments(dia).items, i);
  }

  /** No segment with a station name gives `""`. */
  lemma {:induction false} NoStation(segs: seq<Json>)
    requires forall j :: 0 <= j < |segs| ==> StationOf(segs[j]).Ok? && !Truthy(StationOf(segs[j]).value)
    ensures FirstStation(segs) == Ok(JStr(""))
    decreases |segs|
  {
    if |segs| > 0 {
      assert forall j :: 0 <= j < |segs| - 1 ==> segs[1..][j] == segs[j + 1];
      NoStation(segs[1..]);
    }
  }

  /** An empty `data` array is truthy, so it hides `extrCrewDiaList`. */
  lemma EmptyDataHidesList(fields: seq<(string, Json)>)
    requires Get(fields, "data") == Some(JArr([]))
    ensures Location(JObj(fields)) == Ok(JStr(""))
  {
  }

  // ---------------------------------------------------------------------
  // Location merge (lines 135-145)

  /** The property key `locMap[item.pjtDt]` reads: `String(pjtDt)`, and
      `"undefined"` when the item has none. */
  function DateKey(pjtDt: Option<Json>): string {
    match pjtDt
    case None => "undefined"
    case Some(v) => ToJsString(v)
  }

  /** `locs.reduce((acc, curr) => { acc[curr.date] = curr.location; ... }, {})` */
  function LocationMap(rows: seq<(string, string)>): (m: seq<(string, string)>)
    ensures forall d :: Get(m, d) == Get(rows, d)
  {
    PutAll([], rows)
  }

  /** One item of `scheduleData.map(...)`: a truthy stored location for
      its date is assigned to `item.location`. Assigning a property on a
      primitive throws in strict code; on an array it succeeds but is not
      part of the array's JSON, so the item reads as unchanged. */
  function MergeItem(locMap: seq<(string, string)>, item: Json): (r: Result<Json>)
    ensures item == JNull ==> r.Fail?
    ensures item.JObj?
            ==> var loc := Get(locMap, DateKey(Get(item.fields, "pjtDt")));
                r == Ok(if loc.Some? && loc.value != "" then JObj(Put(item.fields, "location", JStr(loc.value))) else item)
  {
    match Prop(Some(item), "pjtDt")
    case Fail(m) => Fail(m)
    case Ok(d) =>
      var loc := Get(locMap, DateKey(d));
      if loc.None? || loc.value == "" then Ok(item)
      else if item.JObj? then Ok(JObj(Put(item.fields, "location", JStr(loc.value))))
      else if item.JArr? then Ok(item)
      else Fail("Cannot create property 'location' on " + ToJsString(item))
  }

  /** `scheduleData.map(...)` */
  function MergeLocations(rows: seq<(string, string)>, items: seq<Json>): (r: Result<seq<Json>>)
    ensures r.Ok? ==> |r.value| == |items|
    ensures r.Ok? ==> forall i :: 0 <= i < |items| ==> MergeItem(LocationMap(rows), items[i]) == Ok(r.value[i])
    decreases |items|
  {
    if |items| == 0 then Ok([])
    else match MergeItem(LocationMap(rows), items[0])
      case Fail(m) => Fail(m)
      case Ok(x) =>
        match MergeLocations(rows, items[1..])
        case Fail(m) => Fail(m)
        case Ok(rest) => Ok([x] + rest)
  }

  /** An item object gets `location` exactly when a row for its date has
      a non-empty location, and then the value of the last such row; every
      other field is unchanged. */
  lemma MergedItem(rows: seq<(string, string)>, fields: seq<(string, Json)>)
    ensures var r := MergeItem(LocationMap(rows), JObj(fields));
            var loc := Get(rows, DateKey(Get(fields, "pjtDt")));
            r.Ok? && r.value.JObj?
            && (loc.Some? && loc.value != "" ==> Get(r.value.fields, "location") == Some(JStr(loc.value)))
            && (!(loc.Some? && loc.value != "") ==> r.value == JObj(fields))
            && (forall k :: k != "location" ==> Get(r.value.fields, k) == Get(fields, k))
  {
  }

  /** Object items never fail the merge. */
  lemma {:induction false} MergeObjects(rows: seq<(string, string)>, items: seq<Json>)
    requires forall i :: 0 <= i < |items| ==> items[i].JObj?
    ensures MergeLocations(rows, items).Ok?
    decreases |items|
  {
    if |items| > 0 {
      assert forall i :: 0 <= i < |items[1..]| ==> items[1..][i] == items[i + 1];
      MergeObjects(rows, items[1..]);
    }
  }

  // ---------------------------------------------------------------------
  // Colour map (lines 149-155 and 275-281)

  /** The colour map: the stored rows, then `비상` forced to grey. */
  function ColorMap(rows: seq<(string, string)>): (m: seq<(string, string)>)
    ensures Get(m, Emergency) == Some(EmergencyColor)
    ensures forall k :: k != Emergency ==> Get(m, k) == Get(rows, k)
    ensures Distinct(Keys(m))
  {
    Put(PutAll([], rows), Emergency, EmergencyColor)
  }
}

=== FILE: json.dfy ===
/** JSON values as the server code handles them: the result of
    `JSON.parse`, the text `JSON.stringify` writes, JavaScript property
    access and truthiness on parsed values, and `String(v)`.

    Numbers are restricted to integers; `JSON.parse` itself is a foreign
    primitive and appears in the other modules as a function parameter.
 */
module Json {
  import opened Results
  import opened Text
  import opened OrderedMap
  import opened Utf8

  datatype Json =
    | JNull
    | JBool(b: bool)
    | JNum(n: int)
    | JStr(s: string)
    | JArr(items: seq<Json>)
    | JObj(fields: seq<(string, Json)>)

  /** JavaScript truthiness of a property read; `None` is `undefined`. */
  predicate Truthy(v: Option<Json>) {
    match v
    case None => false
    case Some(JNull) => false
    case Some(JBool(b)) => b
    case Some(JNum(n)) => n != 0
    case Some(JStr(s)) => s != ""
    case Some(_) => true
  }

  /** `v.key`: reading a property of `undefined` or `null` throws a
      `TypeError`; an object yields the value of its last field named `key`
      (as `JSON.parse` keeps the last of duplicated names); other values
      have no such own property. */
  function Prop(v: Option<Json>, key: string): (r: Result<Option<Json>>)
    ensures r.Fail? <==> v == None || v == Some(JNull)
    ensures v.Some? && v.value.JObj? ==> r == Ok(Get(v.value.fields, key))
  {
    match v
    case None => Fail("Cannot read properties of undefined (reading '" + key + "')")
    case Some(JNull) => Fail("Cannot read properties of null (reading '" + key + "')")
    case Some(JObj(fs)) => Ok(Get(fs, key))
    case Some(_) => Ok(None)
  }

  /** Two-digit lowercase hexadecimal of a value below 256. */
  function Hex2(n: int): string
    requires 0 <= n < 256
  {
    [HexDigit(n / 16), HexDigit(n % 16)]
  }

  function HexDigit(d: int): char
    requires 0 <= d < 16
  {
    if d < 10 then DigitChar(d) else ('a' as int + (d - 10)) as char
  }

  /** How `JSON.stringify` writes one character inside a string literal. */
  function EscapeChar(c: char): (r: string)
    ensures (c as int) >= 0x80 ==> r == [c]
    ensures (c as int) < 0x80 ==> IsAscii(r)
  {
    if c == '"' then "\\\""
    else if c == '\\' then "\\\\"
    else if c == '\U{8}' then "\\b"
    else if c == '\t' then "\\t"
    else if c == '\n' then "\\n"
    else if c == '\U{C}' then "\\f"
    else if c == '\r' then "\\r"
    else if (c as int) < 0x20 then "\\u00" + Hex2(c as int)
    else [c]
  }

  function Escape(s: string): string
    decreases |s|
  {
    if |s| == 0 then "" else EscapeChar(s[0]) + Escape(s[1..])
  }

  /** A JSON string literal for `s`. */
  function Quote(s: string): string {
    "\"" + Escape(s) + "\""
  }

  /** `JSON.stringify(v)` */
  function Stringify(v: Json): (r: string)
    ensures |r| > 0
    decreases v
  {
    match v
    case JNull => "null"
    case JBool(b) => if b then "true" else "false"
    case JNum(n) => IntToString(n)
    case JStr(s) => Quote(s)
    case JArr(items) =>
      "[" + Join(seq(|items|, i requires 0 <= i < |items| => Stringify(items[i])), ",") + "]"
    case JObj(fs) =>
      "{" + Join(seq(|fs|, i requires 0 <= i < |fs| => Quote(fs[i].0) + ":" + Stringify(fs[i].1)), ",") + "}"
  }

  /** A value `JSON.parse` can produce from a text and give back unchanged:
      object member names are distinct. */
  predicate Plain(v: Json)
    decreases v
  {
    match v
    case JArr(items) => forall i :: 0 <= i < |items| ==> Plain(items[i])
    case JObj(fs) => Distinct(Keys(fs)) && forall i :: 0 <= i < |fs| ==> Plain(fs[i].1)
    case _ => true
  }

  /** The assumption the model makes about the foreign `JSON.parse`: it
      reads back what `JSON.stringify` wrote. */
  ghost predicate InvertsStringify(parse: string -> Option<Json>) {
    forall v :: Plain(v) ==> parse(Stringify(v)) == Some(v)
  }

  /** `String(v)`, as a template literal renders a parsed value. */
  function ToJsString(v: Json): string
    decreases v
  {
    match v
    case JNull => "null"
    case JBool(b) => if b then "true" else "false"
    case JNum(n) => IntToString(n)
    case JStr(s) => s
    case JArr(items) =>
      Join(seq(|items|, i requires 0 <= i < |items| =>
        if items[i] == JNull then "" else ToJsString(items[i])), ",")
    case JObj(_) => "[object Object]"
  }

  lemma {:induction false} EscapeAppend(a: string, b: string)
    ensures Escape(a + b) == Escape(a) + Escape(b)
    decreases |a|
  {
    if |a| == 0 {
      assert a + b == b;
    } else {
      assert (a + b)[0] == a[0] && (a + b)[1..] == a[1..] + b;
      EscapeAppend(a[1..], b);
    }
  }

  lemma {:induction false} EscapeAscii(s: string)
    requires IsAscii(s)
    ensures IsAscii(Escape(s))
    decreases |s|
  {
    if |s| > 0 {
      EscapeAscii(s[1..]);
    }
  }

  /** Characters at or above U+0080 are written as they are. */
  lemma {:induction false} EscapeHigh(s: string)
    requires forall i :: 0 <= i < |s| ==> (s[i] as int) >= 0x80
    ensures Escape(s) == s
    decreases |s|
  {
    if |s| > 0 {
      EscapeHigh(s[1..]);
      assert [s[0]] + s[1..] == s;
    }
  }

  /** Escaping commutes with reading a string's UTF-8 bytes back one
      character per byte: the escapes are ASCII and everything at or above
      U+0080 is left alone on both sides. */
  lemma {:induction false} EscapeBinaryView(s: string)
    ensures BinaryView(Escape(s)) == Escape(BinaryView(s))
    decreases |s|
  {
    if |s| > 0 {
      var c := s[0];
      assert s == [c] + s[1..];
      BinaryViewAppend([c], s[1..]);
      BinaryViewAppend(EscapeChar(c), Escape(s[1..]));
      EscapeBinaryView(s[1..]);
      EscapeAppend(BinaryView([c]), BinaryView(s[1..]));
      if (c as int) < 0x80 {
        AsciiBinaryView(EscapeChar(c));
        AsciiBinaryView([c]);
        assert Escape([c]) == EscapeChar(c);
      } else {
        HighCharBinaryView(c);
        EscapeHigh(BinaryView([c]));
      }
    }
  }

  lemma QuoteBinaryView(s: string)
    ensures BinaryView(Quote(s)) == Quote(BinaryView(s))
  {
    EscapeBinaryView(s);
    BinaryViewAppend("\"", Escape(s));
    BinaryViewAppend("\"" + Escape(s), "\"");
    AsciiBinaryView("\"");
  }

  /** `v` with every string in it, member names included, replaced by its
      binary view. */
  function ViewJson(v: Json): Json
    decreases v
  {
    match v
    case JStr(s) => JStr(BinaryView(s))
    case JArr(items) => JArr(seq(|items|, i requires 0 <= i < |items| => ViewJson(items[i])))
    case JObj(fs) =>
      JObj(seq(|fs|, i requires 0 <= i < |fs| => (BinaryView(fs[i].0), ViewJson(fs[i].1))))
    case _ => v
  }

  lemma BinaryViewWrap(open: string, mid: string, close: string)
    requires IsAscii(open) && IsAscii(close)
    ensures BinaryView(open + mid + close) == open + BinaryView(mid) + close
  {
    BinaryViewAppend(open, mid);
    BinaryViewAppend(open + mid, close);
    AsciiBinaryView(open);
    AsciiBinaryView(close);
  }

  lemma {:induction false} BinaryViewJoin(parts: seq<string>, sep: string)
    requires IsAscii(sep)
    ensures BinaryView(Join(parts, sep))
            == Join(seq(|parts|, i requires 0 <= i < |parts| => BinaryView(parts[i])), sep)
    decreases |parts|
  {
    var views := seq(|parts|, i requires 0 <= i < |parts| => BinaryView(parts[i]));
    if |parts| > 1 {
      BinaryViewJoin(parts[1..], sep);
      assert views[1..] == seq(|parts[1..]|, i requires 0 <= i < |parts[1..]| => BinaryView(parts[1..][i]));
      BinaryViewAppend(parts[0], sep);
      BinaryViewAppend(parts[0] + sep, Join(parts[1..], sep));
      AsciiBinaryView(sep);
    }
  }

  /** Reading the UTF-8 bytes of `JSON.stringify(v)` back one character
      per byte gives the text of `v` with every string so read. */
  lemma {:induction false} StringifyBinaryView(v: Json)
    ensures BinaryView(Stringify(v)) == Stringify(ViewJson(v))
    decreases v
  {
    match v
    case JNull => AsciiBinaryView("null");
    case JBool(b) =>
      AsciiBinaryView("true");
      AsciiBinaryView("false");
    case JNum(n) =>
      IntToStringAscii(n);
      AsciiBinaryView(IntToString(n));
    case JStr(s) => QuoteBinaryView(s);
    case JArr(items) =>
      var w := ViewJson(v).items;
      forall i | 0 <= i < |items|
        ensures BinaryView(Stringify(items[i])) == Stringify(w[i])
      {
        StringifyBinaryView(items[i]);
      }
      ArrBinaryView(items, w);
    case JObj(fs) =>
      var w := ViewJson(v).fields;
      forall i | 0 <= i < |fs|
        ensures BinaryView(Quote(fs[i].0) + ":" + Stringify(fs[i].1)) == Quote(w[i].0) + ":" + Stringify(w[i].1)
      {
        StringifyBinaryView(fs[i].1);
        MemberBinaryView(fs[i].0, fs[i].1, w[i].1);
      }
      ObjBinaryView(fs, w);
  }

  /** The brackets, braces and separators of JSON text are ASCII. */
  lemma PunctuationAscii()
    ensures IsAscii("[") && IsAscii("]") && IsAscii("{") && IsAscii("}")
    ensures IsAscii(",") && IsAscii(":")
  {
  }

  /** An array's text read back bytewise, given each item's. */
  lemma ArrBinaryView(items: seq<Json>, w: seq<Json>)
    requires |w| == |items|
    requires forall i :: 0 <= i < |items| ==> BinaryView(Stringify(items[i])) == Stringify(w[i])
    ensures BinaryView(Stringify(JArr(items))) == Stringify(JArr(w))
  {
    var parts := seq(|items|, i requires 0 <= i < |items| => Stringify(items[i]));
    assert seq(|parts|, i requires 0 <= i < |parts| => BinaryView(parts[i]))
        == seq(|w|, i requires 0 <= i < |w| => Stringify(w[i]));
    PunctuationAscii();
    BinaryViewJoin(parts, ",");
    BinaryViewWrap("[", Join(parts, ","), "]");
  }

  /** An object's text read back bytewise, given each member's. */
  lemma ObjBinaryView(fs: seq<(string, Json)>, w: seq<(string, Json)>)
    requires |w| == |fs|
    requires forall i :: 0 <= i < |fs| ==>
               BinaryView(Quote(fs[i].0) + ":" + Stringify(fs[i].1)) == Quote(w[i].0) + ":" + Stringify(w[i].1)
    ensures BinaryView(Stringify(JObj(fs))) == Stringify(JObj(w))
  {
    var parts := seq(|fs|, i requires 0 <= i < |fs| => Quote(fs[i].0) + ":" + Stringify(fs[i].1));
    assert seq(|parts|, i requires 0 <= i < |parts| => BinaryView(parts[i]))
        == seq(|w|, i requires 0 <= i < |w| => Quote(w[i].0) + ":" + Stringify(w[i].1));
    PunctuationAscii();
    BinaryViewJoin(parts, ",");
    BinaryViewWrap("{", Join(parts, ","), "}");
  }

  /** One `"name":value` member read back bytewise. */
  lemma MemberBinaryView(k: string, val: Json, wv: Json)
    requires BinaryView(Stringify(val)) == Stringify(wv)
    ensures BinaryView(Quote(k) + ":" + Stringify(val)) == Quote(BinaryView(k)) + ":" + Stringify(wv)
  {
    QuoteBinaryView(k);
    BinaryViewAppend(Quote(k), ":");
    BinaryViewAppend(Quote(k) + ":", Stringify(val));
    PunctuationAscii();
    AsciiBinaryView(":");
  }
}

=== FILE: orderedmap.dfy ===
/** Insertion-ordered maps from string keys to values, as JavaScript's `Map` and
    plain objects behave for the string keys this code uses: assigning to
    a present key replaces its value in place, assigning to a new key
    appends it, and iteration follows first-insertion order.

    A map is a sequence of entries. A list of rows read with `Get` takes
    the LAST row for a key, which is what folding `acc[k] = v` over the rows
    produces.
 */
module OrderedMap {
  import opened Results

  function Keys<V>(m: seq<(string, V)>): (ks: seq<string>)
    ensures |ks| == |m|
    ensures forall i :: 0 <= i < |m| ==> ks[i] == m[i].0
  {
    seq(|m|, i requires 0 <= i < |m| => m[i].0)
  }

  predicate Distinct(ks: seq<string>) {
    forall i, j :: 0 <= i < j < |ks| ==> ks[i] != ks[j]
  }

  /** The value of the last entry with key `k`, if there is one. */
  function Get<V>(m: seq<(string, V)>, k: string): (r: Option<V>)
    ensures r.Some? <==> k in Keys(m)
    ensures r.Some? ==> (k, r.value) in m
    decreases |m|
  {
    if |m| == 0 then None
    else if m[|m| - 1].0 == k then Some(m[|m| - 1].1)
    else
      assert Keys(m) == Keys(m[..|m| - 1]) + [m[|m| - 1].0];
      Get(m[..|m| - 1], k)
  }

  /** `m.set(k, v)` (or `m[k] = v`). */
  function Put<V>(m: seq<(string, V)>, k: string, v: V): (r: seq<(string, V)>)
    ensures Keys(r) == if k in Keys(m) then Keys(m) else Keys(m) + [k]
    ensures Get(r, k) == Some(v)
    ensures forall k' :: k' != k ==> Get(r, k') == Get(m, k')
    ensures Distinct(Keys(m)) ==> Distinct(Keys(r))
    ensures forall e :: e in r ==> e in m || e == (k, v)
  {
    if k in Keys(m) then
      var r := seq(|m|, i requires 0 <= i < |m| => if m[i].0 == k then (k, v) else m[i]);
      assert Keys(r) == Keys(m);
      GetReplaced(m, k, v, r);
      r
    else
      var r := m + [(k, v)];
      assert r[..|r| - 1] == m;
      r
  }

  lemma {:induction false} GetReplaced<V>(m: seq<(string, V)>, k: string, v: V, r: seq<(string, V)>)
    requires |r| == |m| && k in Keys(m)
    requires forall i :: 0 <= i < |m| ==> r[i] == if m[i].0 == k then (k, v) else m[i]
    ensures Get(r, k) == Some(v)
    ensures forall k' :: k' != k ==> Get(r, k') == Get(m, k')
    decreases |m|
  {
    var n := |m| - 1;
    if m[n].0 != k {
      assert Keys(m) == Keys(m[..n]) + [m[n].0];
      GetReplaced(m[..n], k, v, r[..n]);
    } else if n > 0 && k in Keys(m[..n]) {
      GetReplaced(m[..n], k, v, r[..n]);
    }
    forall k' | k' != k
      ensures Get(r, k') == Get(m, k')
    {
      GetUnrelated(m, k, v, r, k');
    }
  }

  lemma {:induction false} GetUnrelated<V>(m: seq<(string, V)>, k: string, v: V, r: seq<(string, V)>, k': string)
    requires |r| == |m| && k' != k
    requires forall i :: 0 <= i < |m| ==> r[i] == if m[i].0 == k then (k, v) else m[i]
    ensures Get(r, k') == Get(m, k')
    decreases |m|
  {
    if |m| > 0 {
      GetUnrelated(m[..|m| - 1], k, v, r[..|r| - 1], k');
    }
  }

  /** Assigns every row of `rows` in order: `rows.forEach(([k, v]) => m.set(k, v))`. */
  function PutAll<V>(m: seq<(string, V)>, rows: seq<(string, V)>): (r: seq<(string, V)>)
    ensures forall k :: Get(r, k) == if k in Keys(rows) then Get(rows, k) else Get(m, k)
    ensures |Keys(m)| <= |Keys(r)| && Keys(r)[..|Keys(m)|] == Keys(m)
    ensures forall k :: k in Keys(r) <==> k in Keys(m) || k in Keys(rows)
    ensures Distinct(Keys(m)) ==> Distinct(Keys(r))
    decreases |rows|
  {
    if |rows| == 0 then m
    else
      var n := |rows| - 1;
      var prev := PutAll(m, rows[..n]);
      PutStepGet(m, rows, prev);
      PutStepKeys(m, rows, prev);
      Put(prev, rows[n].0, rows[n].1)
  }

  /** The `Get` half of one step of `PutAll`. */
  lemma PutStepGet<V>(m: seq<(string, V)>, rows: seq<(string, V)>, prev: seq<(string, V)>)
    requires |rows| > 0
    requires forall k :: Get(prev, k) == if k in Keys(rows[..|rows| - 1]) then Get(rows[..|rows| - 1], k) else Get(m, k)
    ensures forall k :: Get(Put(prev, rows[|rows| - 1].0, rows[|rows| - 1].1), k)
                        == if k in Keys(rows) then Get(rows, k) else Get(m, k)
  {
    var n := |rows| - 1;
    assert Keys(rows) == Keys(rows[..n]) + [rows[n].0];
  }

  /** The key half of one step of `PutAll`. */
  lemma PutStepKeys<V>(m: seq<(string, V)>, rows: seq<(string, V)>, prev: seq<(string, V)>)
    requires |rows| > 0
    requires |Keys(m)| <= |Keys(prev)| && Keys(prev)[..|Keys(m)|] == Keys(m)
    requires forall k :: k in Keys(prev) <==> k in Keys(m) || k in Keys(rows[..|rows| - 1])
    ensures var r := Put(prev, rows[|rows| - 1].0, rows[|rows| - 1].1);
            |Keys(m)| <= |Keys(r)| && Keys(r)[..|Keys(m)|] == Keys(m)
            && forall k :: k in Keys(r) <==> k in Keys(m) || k in Keys(rows)
  {
    var n := |rows| - 1;
    assert Keys(rows) == Keys(rows[..n]) + [rows[n].0];
    var r := Put(prev, rows[n].0, rows[n].1);
    assert Keys(r)[..|Keys(prev)|] == Keys(prev);
  }

  /** Every entry after `PutAll` comes from the map or from the rows. */
  lemma {:induction false} PutAllEntries<V>(m: seq<(string, V)>, rows: seq<(string, V)>)
    ensures forall e :: e in PutAll(m, rows) ==> e in m || e in rows
    decreases |rows|
  {
    if |rows| > 0 {
      var n := |rows| - 1;
      PutAllEntries(m, rows[..n]);
      PutAllLast(m, rows);
      assert forall e :: e in rows[..n] ==> e in rows;
    }
  }

  lemma KeysLast<V>(m: seq<(string, V)>)
    requires |m| > 0
    ensures Keys(m) == Keys(m[..|m| - 1]) + [m[|m| - 1].0]
  {
  }

  lemma KeysAppend<V>(a: seq<(string, V)>, b: seq<(string, V)>)
    ensures Keys(a + b) == Keys(a) + Keys(b)
  {
  }

  lemma PutFreshKey<V>(m: seq<(string, V)>, k: string, v: V)
    requires k !in Keys(m)
    ensures Put(m, k, v) == m + [(k, v)]
  {
  }

  lemma PutAllLast<V>(m: seq<(string, V)>, rows: seq<(string, V)>)
    requires |rows| > 0
    ensures PutAll(m, rows) == Put(PutAll(m, rows[..|rows| - 1]), rows[|rows| - 1].0, rows[|rows| - 1].1)
  {
  }

  lemma AppendLast<V>(m: seq<(string, V)>, rows: seq<(string, V)>)
    requires |rows| > 0
    ensures m + rows[..|rows| - 1] + [rows[|rows| - 1]] == m + rows
  {
    assert rows[..|rows| - 1] + [rows[|rows| - 1]] == rows;
  }

  /** When the rows bring only fresh, distinct keys, they are appended in order. */
  lemma {:induction false} PutAllFresh<V>(m: seq<(string, V)>, rows: seq<(string, V)>)
    requires Distinct(Keys(rows))
    requires forall i :: 0 <= i < |rows| ==> rows[i].0 !in Keys(m)
    ensures PutAll(m, rows) == m + rows
    decreases |rows|
  {
    if |rows| > 0 {
      var n := |rows| - 1;
      var ks := Keys(rows);
      var k := rows[n].0;
      assert Keys(rows[..n]) == ks[..n];
      PutAllFresh(m, rows[..n]);
      var prev := m + rows[..n];
      assert k !in ks[..n] by {
        assert forall i | 0 <= i < n :: ks[i] != ks[n];
      }
      KeysAppend(m, rows[..n]);
      PutFreshKey(prev, k, rows[n].1);
      PutAllLast(m, rows);
      AppendLast(m, rows);
    }
  }
}

=== FILE: portal.dfy ===
/** The crew-portal client (`KorailClient` in server/korail.ts): a cookie
    jar and an `authenticated` flag threaded through a login decision tree,
    two data requests, response classifiers and a retry-once wrapper.

    The transport is a script: the replies `fetch` will produce, consumed
    in order, together with the log of the requests made. A reply is a
    response or a rejected `fetch` with its error message; an exhausted
    script behaves as a rejected `fetch`. `JSON.parse` is the parameter
    `parse`, `None` standing for the `SyntaxError` it throws.
 */
module Portal {
  import opened Results
  import opened Text
  import opened OrderedMap
  import opened Json
  import opened Cookies

  const BaseUrl := "https://xcrew.korail.com"
  const LoginViewUrl := "https://xcrew.korail.com/loginView.do"
  const LoginUrl := "https://xcrew.korail.com/login.do"
  const ListUrl := "https://xcrew.korail.com/extrCrewMg/extrIndCrewWrkList.do"
  const ScheduleUrl := "https://xcrew.korail.com/extrCrewMg/searchExtrIndCrewWrk.do"
  const PdiaUrl := "https://xcrew.korail.com/extrCrewMg/searchPdiaNo.do"
  const DiaUrl := "https://xcrew.korail.com/extrCrewMg/searchExtrCrewDia.do"

  const Expired := "Session expired"
  const BadCredentials := "Login failed: incorrect credentials"

  /** What the client reads of a response: the status, the `Location`
      header, the Set-Cookie lines and the body text. */
  datatype Response = Response(status: int, location: Option<string>, setCookies: seq<string>, body: string)

  datatype Reply = Answer(res: Response) | Down(message: string)

  /** What the client sends: the method, the URL, the `Cookie` header (if
      any) and the form fields of the body. */
  datatype Request = Request(post: bool, url: string, cookie: Option<string>, form: seq<(string, string)>)

  datatype Net = Net(script: seq<Reply>, sent: seq<Request>)

  /** The fields of a `KorailClient`. */
  datatype Client = Client(employeeId: string, password: string, cookieHeader: string, authenticated: bool)

  /** The state an asynchronous method leaves behind, and what it returned
      or threw. */
  datatype Step<+T> = Step(client: Client, net: Net, out: Result<T>)

  type Parse = string -> Option<Json>

  /** `new KorailClient(employeeId, password)` */
  function NewClient(employeeId: string, password: string): (c: Client)
    ensures c.cookieHeader == "" && !c.authenticated
  {
    Client(employeeId, password, "", false)
  }

  /** One `fetch`: the request is logged and the next reply consumed. */
  function Fetch(net: Net, req: Request): (r: (Net, Reply))
    ensures r.0.sent == net.sent + [req]
    ensures |net.script| > 0 ==> r.1 == net.script[0] && r.0.script == net.script[1..]
    ensures |net.script| == 0 ==> r.1.Down? && r.0.script == []
  {
    if |net.script| == 0 then (Net([], net.sent + [req]), Down("fetch failed"))
    else (Net(net.script[1..], net.sent + [req]), net.script[0])
  }

  predicate IsRedirect(status: int) {
    status == 302 || status == 303
  }

  /** `res.headers.get("Location") || ""` */
  function LocationOf(res: Response): string {
    res.location.GetOr("")
  }

  /** `updateCookies(res)`: the response's Set-Cookie lines merged into
      the jar. */
  function UpdateCookies(c: Client, res: Response): (r: Client)
    ensures r.employeeId == c.employeeId && r.password == c.password
    ensures r.authenticated == c.authenticated
  {
    c.(cookieHeader := MergeCookies(c.cookieHeader, ExtractCookies(res.setCookies)))
  }

  /** `_isSessionExpired(res)` */
  function IsSessionExpired(res: Response): (r: bool)
    ensures !IsRedirect(res.status) ==> !r
    ensures res.location.None? ==> !r
    ensures IsRedirect(res.status) && res.location.Some? && Contains(res.location.value, "loginView.do") ==> r
    ensures r ==> IsRedirect(res.status) && res.location.Some? && Contains(res.location.value, "loginView.do")
  {
    IsRedirect(res.status) && Contains(LocationOf(res), "loginView.do")
  }

  /** `_parseJsonResponse(res)` */
  function ParseJsonResponse(parse: Parse, res: Response): (r: Result<Json>)
    ensures Contains(res.body, "loginView.do") ==> r == Fail(Expired)
    ensures !Contains(res.body, "loginView.do") && parse(res.body).None?
            ==> r == Fail("Invalid JSON response from server")
    ensures r.Ok? ==> parse(res.body) == Some(r.value)
    ensures !Contains(res.body, "loginView.do") && parse(res.body).Some? ==> r == Ok(parse(res.body).value)
  {
    if Contains(res.body, "loginView.do") then Fail(Expired)
    else match parse(res.body)
      case None => Fail("Invalid JSON response from server")
      case Some(v) => Ok(v)
  }

  // ---------------------------------------------------------------------
  // authenticate

  /** The message `authenticate` rethrows for an error `msg` raised
      while logging in. */
  function AuthError(msg: string): (r: string)
    ensures StartsWith(r, "Auth error: ")
  {
    "Auth error: " + msg
  }

  /** `authenticate()`: the jar and the flag are reset, the login page is
      visited, the credentials are posted and the response is judged. */
  function Authenticate(c: Client, net: Net): (r: Step<bool>)
    ensures r.client.authenticated <==> r.out.Ok?
    ensures r.out.Ok? ==> r.out.value
    ensures r.out.Fail? ==> r.out.message == "Failed to connect to server"
                            || StartsWith(r.out.message, "Auth error: ")
    ensures r.client.employeeId == c.employeeId && r.client.password == c.password
    ensures |net.sent| + 1 <= |r.net.sent| <= |net.sent| + 3
    ensures net.sent <= r.net.sent
    ensures r.net.sent[|net.sent|] == Request(false, LoginViewUrl, None, [])
  {
    var reset := c.(cookieHeader := "", authenticated := false);
    var (net1, reply1) := Fetch(net, Request(false, LoginViewUrl, None, []));
    match reply1
    case Down(_) => Step(reset, net1, Fail("Failed to connect to server"))
    case Answer(res1) =>
      var r := SubmitLogin(UpdateCookies(reset, res1), net1);
      assert r.net.sent[|net.sent|] == net1.sent[|net.sent|];
      r
  }

  /** The credentials posted with the jar from the login page. */
  function SubmitLogin(c: Client, net: Net): (r: Step<bool>)
    requires !c.authenticated
    ensures r.client.authenticated <==> r.out.Ok?
    ensures r.out.Ok? ==> r.out.value
    ensures r.out.Fail? ==> StartsWith(r.out.message, "Auth error: ")
    ensures r.client.employeeId == c.employeeId && r.client.password == c.password
    ensures |net.sent| + 1 <= |r.net.sent| <= |net.sent| + 2
    ensures net.sent <= r.net.sent
  {
    var form := [("message", ""), ("epno", c.employeeId), ("pwd", c.password)];
    var (net2, reply2) := Fetch(net, Request(true, LoginUrl, Some(c.cookieHeader), form));
    match reply2
    case Down(msg) => Step(c, net2, Fail(AuthError(msg)))
    case Answer(res2) =>
      LoginDecision(UpdateCookies(c, res2), net2, res2)
  }

  /** How the login response is judged. */
  function LoginDecision(c: Client, net: Net, res: Response): (r: Step<bool>)
    requires !c.authenticated
    ensures r.client.authenticated <==> r.out.Ok?
    ensures r.out.Ok? ==> r.out.value
    ensures r.out.Fail? ==> StartsWith(r.out.message, "Auth error: ")
    ensures r.client.employeeId == c.employeeId && r.client.password == c.password
    ensures |net.sent| <= |r.net.sent| <= |net.sent| + 1
    ensures net.sent <= r.net.sent
  {
    var loc := LocationOf(res);
    if IsRedirect(res.status) && Contains(loc, "extrRltmCrewWrkPstt.do") then
      ConfirmSession(c, net, loc)
    else if IsRedirect(res.status) && Contains(loc, "loginView.do") then
      Step(c, net, Fail(AuthError(BadCredentials)))
    else if Contains(res.body, "loginView") || Contains(res.body, "로그인") then
      Step(c, net, Fail(AuthError(BadCredentials)))
    else
      Step(c, net, Fail(AuthError("Unexpected login response: " + IntToString(res.status))))
  }

  /** The redirect after a successful login is followed; only a redirect
      back to the login page fails it. */
  function ConfirmSession(c: Client, net: Net, loc: string): (r: Step<bool>)
    requires !c.authenticated
    ensures r.client.authenticated <==> r.out.Ok?
    ensures r.out.Ok? ==> r.out.value
    ensures r.out.Fail? ==> StartsWith(r.out.message, "Auth error: ")
    ensures r.client.employeeId == c.employeeId && r.client.password == c.password
    ensures |r.net.sent| == |net.sent| + 1 && net.sent <= r.net.sent
  {
    var url := if StartsWith(loc, "http") then loc else BaseUrl + loc;
    var (net3, reply3) := Fetch(net, Request(false, url, Some(c.cookieHeader), []));
    match reply3
    case Down(msg) => Step(c, net3, Fail(AuthError(msg)))
    case Answer(res3) =>
      var c3 := UpdateCookies(c, res3);
      if IsSessionExpired(res3) then Step(c3, net3, Fail(AuthError("Session not established")))
      else Step(c3.(authenticated := true), net3, Ok(true))
  }

  // ---------------------------------------------------------------------
  // getSchedule and getDiaInfo

  /** The bodies handed to `_execute`. */
  datatype Action =
    | GetSchedule(targetDate: string, employeeName: string)
    | GetDiaInfo(date: string, knownPdiaNo: Option<string>)

  /** Properties of the client the data requests leave alone. */
  predicate SameLogin(a: Client, b: Client) {
    a.employeeId == b.employeeId && a.password == b.password && a.authenticated == b.authenticated
  }

  /** The body of `getSchedule`: the list page, then the schedule query;
      `data.data || []` of its JSON. */
  function Schedule(parse: Parse, c: Client, net: Net, targetDate: string, employeeName: string): (r: Step<Json>)
    ensures SameLogin(c, r.client)
    ensures |net.sent| + 1 <= |r.net.sent| <= |net.sent| + 2
    ensures net.sent <= r.net.sent
    ensures r.out.Ok? ==> |r.net.sent| == |net.sent| + 2
  {
    var (n1, r1) := Fetch(net, Request(false, ListUrl, Some(c.cookieHeader), []));
    match r1
    case Down(m) => Step(c, n1, Fail(m))
    case Answer(res1) =>
      var c1 := UpdateCookies(c, res1);
      if IsSessionExpired(res1) then Step(c1, n1, Fail(Expired))
      else
        var form := [("empNm", employeeName), ("pjtDt", targetDate)];
        var (n2, r2) := Fetch(n1, Request(true, ScheduleUrl, Some(c1.cookieHeader), form));
        match r2
        case Down(m) => Step(c1, n2, Fail(m))
        case Answer(res2) =>
          var c2 := UpdateCookies(c1, res2);
          if IsSessionExpired(res2) then Step(c2, n2, Fail(Expired))
          else match ParseJsonResponse(parse, res2)
            case Fail(m) => Step(c2, n2, Fail(m))
            case Ok(data) =>
              match Prop(Some(data), "data")
              case Fail(m) => Step(c2, n2, Fail(m))
              case Ok(d) => Step(c2, n2, Ok(if Truthy(d) then d.value else JArr([])))
  }

  /** Lines 240-244 of `getDiaInfo`: the identifier read from the lookup
      response, `current` when neither field supplies a truthy one. */
  function ResolvePdiaNo(data1: Json, current: Option<Json>): (r: Result<Option<Json>>)
    ensures r.Fail? <==> data1 == JNull || FirstItemMissing(data1)
  {
    match Prop(Some(data1), "pdiaNo")
    case Fail(m) => Fail(m)
    case Ok(list) =>
      if Truthy(list) && list.value.JArr? && |list.value.items| > 0 then
        match Prop(Some(list.value.items[0]), "pdiaNo")
        case Fail(m) => Fail(m)
        case Ok(id) => Ok(id)
      else
        match Prop(Some(data1), "extrCrewMgVO")
        case Fail(m) => Fail(m)
        case Ok(vo) =>
          if !Truthy(vo) then Ok(current)
          else match Prop(vo, "pdiaNo")
            case Fail(m) => Fail(m)
            case Ok(p) => if Truthy(p) then Ok(p) else Ok(current)
  }

  /** `data1.pdiaNo` is a non-empty array whose first element is `null`:
      reading `data1.pdiaNo[0].pdiaNo` throws. */
  predicate FirstItemMissing(data1: Json) {
    data1.JObj? && var list := Get(data1.fields, "pdiaNo");
    list.Some? && list.value.JArr? && |list.value.items| > 0 && list.value.items[0] == JNull
  }

  /** The body of `getDiaInfo`: the identifier is looked up unless a
      truthy one is known; no identifier gives `null`. */
  function DiaInfo(parse: Parse, c: Client, net: Net, date: string, knownPdiaNo: Option<string>): (r: Step<Json>)
    ensures SameLogin(c, r.client)
    ensures |net.sent| + 1 <= |r.net.sent| <= |net.sent| + 2
    ensures net.sent <= r.net.sent
  {
    var start := JStr(knownPdiaNo.GetOr(""));
    if Truthy(Some(start)) then DiaDetail(parse, c, net, date, Some(start))
    else DiaLookup(parse, c, net, date, Some(start))
  }

  /** Lines 220-245 of `getDiaInfo`: the lookup request, then the detail
      request for what it resolves to. */
  function DiaLookup(parse: Parse, c: Client, net: Net, date: string, start: Option<Json>): (r: Step<Json>)
    ensures SameLogin(c, r.client)
    ensures |net.sent| + 1 <= |r.net.sent| <= |net.sent| + 2
    ensures net.sent <= r.net.sent
  {
    var form := [("pdiaNo", ""), ("pjtDt", date)];
    var (n1, r1) := Fetch(net, Request(true, PdiaUrl, Some(c.cookieHeader), form));
    match r1
    case Down(m) => Step(c, n1, Fail(m))
    case Answer(res1) =>
      if IsSessionExpired(res1) then Step(c, n1, Fail(Expired))
      else
        var c1 := UpdateCookies(c, res1);
        match ParseJsonResponse(parse, res1)
        case Fail(m) => Step(c1, n1, Fail(m))
        case Ok(data1) =>
          match ResolvePdiaNo(data1, start)
          case Fail(m) => Step(c1, n1, Fail(m))
          case Ok(id) => DiaDetail(parse, c1, n1, date, id)
  }

  /** Lines 247-267 of `getDiaInfo`: the detail request for a truthy
      identifier, `null` otherwise. */
  function DiaDetail(parse: Parse, c: Client, net: Net, date: string, id: Option<Json>): (r: Step<Json>)
    ensures SameLogin(c, r.client)
    ensures |r.net.sent| == |net.sent| + (if Truthy(id) then 1 else 0)
    ensures net.sent <= r.net.sent
    ensures !Truthy(id) ==> r == Step(c, net, Ok(JNull))
  {
    if !Truthy(id) then Step(c, net, Ok(JNull))
    else
      var form := [("pdiaNo", ToJsString(id.value)), ("pjtDt", date)];
      var (n2, r2) := Fetch(net, Request(true, DiaUrl, Some(c.cookieHeader), form));
      match r2
      case Down(m) => Step(c, n2, Fail(m))
      case Answer(res2) =>
        var c2 := UpdateCookies(c, res2);
        if IsSessionExpired(res2) then Step(c2, n2, Fail(Expired))
        else match ParseJsonResponse(parse, res2)
          case Fail(m) => Step(c2, n2, Fail(m))
          case Ok(v) => Step(c2, n2, Ok(v))
  }

  function Run(parse: Parse, c: Client, net: Net, a: Action): (r: Step<Json>)
    ensures SameLogin(c, r.client)
    ensures net.sent <= r.net.sent
  {
    match a
    case GetSchedule(d, n) => Schedule(parse, c, net, d, n)
    case GetDiaInfo(d, k) => DiaInfo(parse, c, net, d, k)
  }

  // ---------------------------------------------------------------------
  // _execute

  /** The outcome of `_execute`, with the number of times the action ran
      and the number of logins it made. */
  datatype Execution = Execution(step: Step<Json>, runs: nat, logins: nat)

  /** `_execute(action, retry)`: log in if needed, run the action, and on
      an error mentioning `Session expired` log in again and run it once
      more without further retry. */
  function Execute(parse: Parse, c: Client, net: Net, a: Action, retry: bool): (r: Execution)
    ensures r.runs <= (if retry then 2 else 1)
    ensures r.logins <= (if retry then 2 else 1)
    ensures !retry ==> r.logins == (if c.authenticated then 0 else 1)
    ensures r.step.out.Ok? ==> r.step.client.authenticated && r.runs >= 1
    ensures r.step.client.employeeId == c.employeeId && r.step.client.password == c.password
    ensures net.sent <= r.step.net.sent
    ensures !c.authenticated
            ==> |net.sent| < |r.step.net.sent| && r.step.net.sent[|net.sent|] == Request(false, LoginViewUrl, None, [])
    decreases if retry then 1 else 0
  {
    var login := if c.authenticated then Step(c, net, Ok(true)) else Authenticate(c, net);
    var logins := if c.authenticated then 0 else 1;
    if login.out.Fail? then
      Execution(Step(login.client, login.net, Fail(login.out.message)), 0, logins)
    else
      var s := Run(parse, login.client, login.net, a);
      SentGrows(net.sent, login.net.sent, s.net.sent);
      if s.out.Fail? && Contains(s.out.message, Expired) && retry then
        var again := Authenticate(s.client.(authenticated := false), s.net);
        SentGrows(net.sent, s.net.sent, again.net.sent);
        if again.out.Fail? then
          Execution(Step(again.client, again.net, Fail(again.out.message)), 1, logins + 1)
        else
          var e := Execute(parse, again.client, again.net, a, false);
          SentGrows(net.sent, again.net.sent, e.step.net.sent);
          Execution(e.step, 1 + e.runs, logins + 1 + e.logins)
      else Execution(s, 1, logins)
  }

  /** Requests once sent stay sent, at the same positions. */
  lemma SentGrows(a: seq<Request>, b: seq<Request>, c: seq<Request>)
    requires a <= b && b <= c
    ensures a <= c
    ensures forall i :: 0 <= i < |a| ==> c[i] == a[i]
  {
  }

  /** `getSchedule(targetDate, employeeName)` and
      `getDiaInfo(date, knownPdiaNo)` */
  function Perform(parse: Parse, c: Client, net: Net, a: Action): (r: Step<Json>)
    ensures r.out.Ok? ==> r.client.authenticated
  {
    Execute(parse, c, net, a, true).step
  }

  // ---------------------------------------------------------------------
  // Properties

  /** The replies a login needs to succeed: the login page, a redirect to
      the crew page, and a follow-up that does not send the client back to
      the login page. */
  predicate LoginScript(script: seq<Reply>) {
    |script| >= 3 && script[0].Answer? && script[1].Answer?
    && IsRedirect(script[1].res.status)
    && Contains(LocationOf(script[1].res), "extrRltmCrewWrkPstt.do")
    && script[2].Answer? && !IsSessionExpired(script[2].res)
  }

  /** `authenticate` succeeds exactly on a login script. */
  lemma AuthenticateSucceeds(c: Client, net: Net)
    ensures Authenticate(c, net).out.Ok? <==> LoginScript(net.script)
  {
    var reset := c.(cookieHeader := "", authenticated := false);
    var (net1, reply1) := Fetch(net, Request(false, LoginViewUrl, None, []));
    if reply1.Answer? {
      var c1 := UpdateCookies(reset, reply1.res);
      var form := [("message", ""), ("epno", c.employeeId), ("pwd", c.password)];
      var (net2, reply2) := Fetch(net1, Request(true, LoginUrl, Some(c1.cookieHeader), form));
      assert Authenticate(c, net) == SubmitLogin(c1, net1);
      if reply2.Answer? {
        var res2 := reply2.res;
        var c2 := UpdateCookies(c1, res2);
        assert SubmitLogin(c1, net1) == LoginDecision(c2, net2, res2);
        var loc := LocationOf(res2);
        if IsRedirect(res2.status) && Contains(loc, "extrRltmCrewWrkPstt.do") {
          var url := if StartsWith(loc, "http") then loc else BaseUrl + loc;
          var (net3, reply3) := Fetch(net2, Request(false, url, Some(c2.cookieHeader), []));
          assert LoginDecision(c2, net2, res2) == ConfirmSession(c2, net2, loc);
          assert |net.script| >= 3 <==> |net2.script| >= 1;
          if |net2.script| >= 1 {
            assert net2.script[0] == net.script[2];
          }
        }
      }
    }
  }

  /** Every login starts from an empty jar: the credentials go out with
      only the cookies the login page just set, whatever the jar held. */
  lemma AuthenticateResets(c: Client, net: Net)
    requires |net.script| >= 1 && net.script[0].Answer?
    ensures var r := Authenticate(c, net);
            |r.net.sent| >= |net.sent| + 2
            && r.net.sent[|net.sent| + 1]
               == Request(true, LoginUrl,
                          Some(MergeCookies("", ExtractCookies(net.script[0].res.setCookies))),
                          [("message", ""), ("epno", c.employeeId), ("pwd", c.password)])
  {
    var reset := c.(cookieHeader := "", authenticated := false);
    var (net1, reply1) := Fetch(net, Request(false, LoginViewUrl, None, []));
    var c1 := UpdateCookies(reset, reply1.res);
    var form := [("message", ""), ("epno", c.employeeId), ("pwd", c.password)];
    var req := Request(true, LoginUrl, Some(c1.cookieHeader), form);
    var (net2, reply2) := Fetch(net1, req);
    var r := SubmitLogin(c1, net1);
    assert Authenticate(c, net) == r;
    assert r.net.sent[..|net2.sent|] == net2.sent by {
      if reply2.Answer? {
        assert r == LoginDecision(UpdateCookies(c1, reply2.res), net2, reply2.res);
      }
    }
    assert net2.sent[|net.sent| + 1] == req;
    assert r.net.sent[|net.sent| + 1] == r.net.sent[..|net2.sent|][|net.sent| + 1];
  }

  /** A redirect back to the login page, or a login page in the body,
      means wrong credentials; any other answer that is not the success
      redirect is unexpected and reports its status. */
  lemma LoginRejected(c: Client, net: Net, res: Response)
    requires !c.authenticated
    requires !(IsRedirect(res.status) && Contains(LocationOf(res), "extrRltmCrewWrkPstt.do"))
    ensures var r := LoginDecision(c, net, res);
            var toLogin := IsRedirect(res.status) && Contains(LocationOf(res), "loginView.do");
            var loginPage := Contains(res.body, "loginView") || Contains(res.body, "로그인");
            r.net == net && r.client == c
            && (toLogin || loginPage ==> r.out == Fail(AuthError(BadCredentials)))
            && (!toLogin && !loginPage
                ==> r.out == Fail(AuthError("Unexpected login response: " + IntToString(res.status))))
  {
  }

  /** `updateCookies` read back: the jar after a response is the jar
      before with the response's cookies assigned over it. */
  lemma UpdateCookiesLastWins(c: Client, res: Response)
    requires Clean(ExtractCookies(res.setCookies))
    ensures ReadJar(UpdateCookies(c, res).cookieHeader)
            == PutAll(ReadJar(c.cookieHeader), ExtractCookies(res.setCookies))
  {
    MergeReadBack(c.cookieHeader, ExtractCookies(res.setCookies));
  }

  /** An authenticated client with no error mentioning `Session expired`
      runs the action once and returns or rethrows its outcome unchanged,
      without logging in. */
  lemma ExecuteOnce(parse: Parse, c: Client, net: Net, a: Action, retry: bool)
    requires c.authenticated
    requires var s := Run(parse, c, net, a); !(s.out.Fail? && Contains(s.out.message, Expired) && retry)
    ensures Execute(parse, c, net, a, retry) == Execution(Run(parse, c, net, a), 1, 0)
  {
  }

  /** On `Session expired` the client logs in again and runs the action a
      second and last time; whatever that run returns or throws, a second
      expiry included, is the outcome. */
  lemma ExecuteRetry(parse: Parse, c: Client, net: Net, a: Action)
    requires c.authenticated
    requires var s := Run(parse, c, net, a); s.out.Fail? && Contains(s.out.message, Expired)
    requires var s := Run(parse, c, net, a);
             Authenticate(s.client.(authenticated := false), s.net).out.Ok?
    ensures var s := Run(parse, c, net, a);
            var again := Authenticate(s.client.(authenticated := false), s.net);
            Execute(parse, c, net, a, true) == Execution(Run(parse, again.client, again.net, a), 2, 1)
  {
    var s := Run(parse, c, net, a);
    var again := Authenticate(s.client.(authenticated := false), s.net);
    assert again.client.authenticated;
    ExecuteOnce(parse, again.client, again.net, a, false);
  }

  /** A known identifier skips the lookup: the only request is the detail
      request for it. */
  lemma KnownIdSkipsLookup(parse: Parse, c: Client, net: Net, date: string, known: string)
    requires known != ""
    ensures var r := DiaInfo(parse, c, net, date, Some(known));
            |r.net.sent| == |net.sent| + 1
            && r.net.sent[|net.sent|] == Request(true, DiaUrl, Some(c.cookieHeader), [("pdiaNo", known), ("pjtDt", date)])
  {
  }

  /** A response a redirect-following `fetch` can hand back: it is not a
      3xx redirect that carries a `Location` header, since `fetch` would
      have followed that one. */
  predicate Followed(res: Response) {
    !((res.status == 301 || res.status == 302 || res.status == 303 || res.status == 307 || res.status == 308)
      && res.location.Some?)
  }

  /** The lookup request follows redirects, so an expired session reaches
      it as the login page itself: the redirect test cannot fire, the
      page's cookies are merged, and the body test reports the expiry. */
  lemma ExpiredLookupMergesJar(parse: Parse, c: Client, net: Net, date: string)
    requires |net.script| >= 1 && net.script[0].Answer? && Followed(net.script[0].res)
    requires Contains(net.script[0].res.body, "loginView.do")
    ensures !IsSessionExpired(net.script[0].res)
    ensures var r := DiaInfo(parse, c, net, date, None);
            r.net.sent == net.sent + [Request(true, PdiaUrl, Some(c.cookieHeader), [("pdiaNo", ""), ("pjtDt", date)])]
            && r.client == UpdateCookies(c, net.script[0].res) && r.out == Fail("Session expired")
  {
    var res := net.script[0].res;
    var req := Request(true, PdiaUrl, Some(c.cookieHeader), [("pdiaNo", ""), ("pjtDt", date)]);
    var (n1, r1) := Fetch(net, req);
    assert r1 == Answer(res);
    assert !IsSessionExpired(res);
    assert ParseJsonResponse(parse, res) == Fail(Expired);
    assert DiaLookup(parse, c, net, date, Some(JStr(""))) == Step(UpdateCookies(c, res), n1, Fail(Expired));
  }

  /** A scripted redirect to the login page, which the lookup's own `fetch`
      would have followed, fails before its cookies are merged. */
  lemma ExpiredLookupKeepsJar(parse: Parse, c: Client, net: Net, date: string)
    requires |net.script| >= 1 && net.script[0].Answer? && IsSessionExpired(net.script[0].res)
    ensures var r := DiaInfo(parse, c, net, date, None);
            r.client == c && r.out == Fail("Session expired")
  {
  }

  /** The schedule query goes out with the jar the list page left, and a
      JSON object answer yields its `data` member, or `[]` when that is
      missing or falsy. */
  lemma ScheduleOutcome(parse: Parse, c: Client, net: Net, targetDate: string, employeeName: string,
                        fields: seq<(string, Json)>)
    requires |net.script| >= 2 && net.script[0].Answer? && net.script[1].Answer?
    requires !IsSessionExpired(net.script[0].res) && !IsSessionExpired(net.script[1].res)
    requires !Contains(net.script[1].res.body, "loginView.do")
    requires parse(net.script[1].res.body) == Some(JObj(fields))
    ensures var r := Schedule(parse, c, net, targetDate, employeeName);
            var jar1 := UpdateCookies(c, net.script[0].res);
            var d := Get(fields, "data");
            r.net.sent == net.sent + [Request(false, ListUrl, Some(c.cookieHeader), []),
                                      Request(true, ScheduleUrl, Some(jar1.cookieHeader),
                                              [("empNm", employeeName), ("pjtDt", targetDate)])]
            && r.client == UpdateCookies(jar1, net.script[1].res)
            && r.out == Ok(if Truthy(d) then d.value else JArr([]))
  {
    var (n1, r1) := Fetch(net, Request(false, ListUrl, Some(c.cookieHeader), []));
    var c1 := UpdateCookies(c, r1.res);
    var req2 := Request(true, ScheduleUrl, Some(c1.cookieHeader), [("empNm", employeeName), ("pjtDt", targetDate)]);
    var (n2, r2) := Fetch(n1, req2);
    assert r2 == net.script[1];
    assert ParseJsonResponse(parse, r2.res) == Ok(JObj(fields));
    assert n2.sent == net.sent + [Request(false, ListUrl, Some(c.cookieHeader), []), req2];
  }

  /** `pdiaNo[0].pdiaNo` of the lookup answer, when `pdiaNo` is a
      non-empty array whose first element is an object. */
  lemma ResolveFromList(fields: seq<(string, Json)>, items: seq<Json>, current: Option<Json>)
    requires Get(fields, "pdiaNo") == Some(JArr(items)) && |items| > 0 && items[0].JObj?
    ensures ResolvePdiaNo(JObj(fields), current) == Ok(Get(items[0].fields, "pdiaNo"))
  {
  }

  /** Otherwise `extrCrewMgVO.pdiaNo` when both are truthy, and the
      current identifier when not. */
  lemma ResolveFromRecord(fields: seq<(string, Json)>, current: Option<Json>)
    requires var list := Get(fields, "pdiaNo"); !(list.Some? && list.value.JArr? && |list.value.items| > 0)
    ensures var vo := Get(fields, "extrCrewMgVO");
            var p := if vo.Some? && vo.value.JObj? then Get(vo.value.fields, "pdiaNo") else None;
            ResolvePdiaNo(JObj(fields), current) == Ok(if Truthy(vo) && Truthy(p) then p else current)
  {
    var vo := Get(fields, "extrCrewMgVO");
    if Truthy(vo) {
      assert vo.value != JNull;
    }
  }

  /** After a lookup, a falsy identifier ends `getDiaInfo` with `null`
      and no further request; a truthy one is sent in the detail request
      with the jar the lookup answer left. */
  lemma LookupThenDetail(parse: Parse, c: Client, net: Net, date: string, data1: Json)
    requires |net.script| >= 1 && net.script[0].Answer? && !IsSessionExpired(net.script[0].res)
    requires !Contains(net.script[0].res.body, "loginView.do") && parse(net.script[0].res.body) == Some(data1)
    requires ResolvePdiaNo(data1, Some(JStr(""))).Ok?
    ensures var id := ResolvePdiaNo(data1, Some(JStr(""))).value;
            var r := DiaInfo(parse, c, net, date, None);
            var c1 := UpdateCookies(c, net.script[0].res);
            var lookup := Request(true, PdiaUrl, Some(c.cookieHeader), [("pdiaNo", ""), ("pjtDt", date)]);
            (!Truthy(id) ==> r == Step(c1, Net(net.script[1..], net.sent + [lookup]), Ok(JNull)))
            && (Truthy(id)
                ==> |r.net.sent| == |net.sent| + 2 && r.net.sent[|net.sent|] == lookup
                    && r.net.sent[|net.sent| + 1]
                       == Request(true, DiaUrl, Some(c1.cookieHeader), [("pdiaNo", ToJsString(id.value)), ("pjtDt", date)]))
  {
    var start := Some(JStr(""));
    var lookup := Request(true, PdiaUrl, Some(c.cookieHeader), [("pdiaNo", ""), ("pjtDt", date)]);
    var (n1, r1) := Fetch(net, lookup);
    var c1 := UpdateCookies(c, r1.res);
    assert ParseJsonResponse(parse, r1.res) == Ok(data1);
    var id := ResolvePdiaNo(data1, start).value;
    assert DiaInfo(parse, c, net, date, None) == DiaDetail(parse, c1, n1, date, id);
    if Truthy(id) {
      var r := DiaDetail(parse, c1, n1, date, id);
      assert r.net.sent[|net.sent|] == n1.sent[|net.sent|];
    }
  }
}

=== FILE: results.dfy ===
/** Failure-carrying values shared by every module of the model.

    The server code signals failure in two ways: by returning `null`
    (modelled with `Option`) and by throwing an `Error` whose only
    observable part is its `message` (modelled with `Result`).
 */
module Results {

  datatype Option<+T> = None | Some(value: T) {

    /** `x || default` for a value that is either absent or present. */
    function GetOr(default: T): T {
      match this
      case Some(v) => v
      case None => default
    }
  }

  /** The outcome of a computation that may throw: the value it returns,
      or the message of the `Error` it throws. */
  datatype Result<+T> = Ok(value: T) | Fail(message: string)
}

=== FILE: text.dfy ===
/** The JavaScript string operations the server code relies on:
    `startsWith`, `includes`, `split` with a one-character separator,
    `join`, `trim`, and the decimal rendering of integers (`String(n)`).
    Strings are sequences of Unicode scalar values.
 */
module Text {

  /** `s.startsWith(p)` */
  predicate StartsWith(s: string, p: string) {
    |p| <= |s| && s[..|p|] == p
  }

  /** `s.includes(t)` */
  predicate Contains(s: string, t: string)
    decreases |s|
  {
    StartsWith(s, t) || (|s| > 0 && Contains(s[1..], t))
  }

  /** `t` occurs in `s` starting at position `i`. */
  predicate OccursAt(s: string, t: string, i: int) {
    0 <= i && i + |t| <= |s| && s[i..i + |t|] == t
  }

  /** An occurrence of `t` at position `i` makes `s.includes(t)` true. */
  lemma {:induction false} ContainsAt(s: string, t: string, i: nat)
    requires OccursAt(s, t, i)
    ensures Contains(s, t)
    decreases i
  {
    if i == 0 {
      assert s[..|t|] == t;
    } else {
      assert s[1..][i - 1..i - 1 + |t|] == s[i..i + |t|];
      ContainsAt(s[1..], t, i - 1);
    }
  }

  /** `s.includes(t)` holds exactly when `t` occurs at some position of `s`. */
  lemma {:induction false} ContainsOccurrence(s: string, t: string)
    ensures Contains(s, t) <==> exists i :: OccursAt(s, t, i)
    decreases |s|
  {
    if exists i :: OccursAt(s, t, i) {
      var i :| OccursAt(s, t, i);
      ContainsAt(s, t, i);
    }
    if Contains(s, t) {
      if StartsWith(s, t) {
        assert OccursAt(s, t, 0);
      } else {
        ContainsOccurrence(s[1..], t);
        var i :| OccursAt(s[1..], t, i);
        assert s[i + 1..i + 1 + |t|] == s[1..][i..i + |t|];
        assert OccursAt(s, t, i + 1);
      }
    }
  }

  /** A string in which the first character of `t` never occurs does not
      include `t`; this is how the model shows that a marker is absent. */
  lemma {:induction false} NotContainsMissingChar(s: string, t: string)
    requires |t| > 0 && t[0] !in s
    ensures !Contains(s, t)
    decreases |s|
  {
    if |s| > 0 {
      assert s[1..] <= s[1..];
      assert forall k | 0 <= k < |s[1..]| :: s[1..][k] == s[k + 1];
      NotContainsMissingChar(s[1..], t);
    }
  }

  /** `parts.join(sep)` */
  function Join(parts: seq<string>, sep: string): string
    decreases |parts|
  {
    if |parts| == 0 then ""
    else if |parts| == 1 then parts[0]
    else parts[0] + sep + Join(parts[1..], sep)
  }

  /** `s.split(sep)` for a one-character separator: the maximal
      separator-free pieces of `s`, of which there is always at least one. */
  function Split(s: string, sep: char): (parts: seq<string>)
    ensures |parts| >= 1
    ensures forall i :: 0 <= i < |parts| ==> sep !in parts[i]
    ensures Join(parts, [sep]) == s
    decreases |s|
  {
    if |s| == 0 then [""]
    else
      var rest := Split(s[1..], sep);
      if s[0] == sep then
        assert Join([""] + rest, [sep]) == [sep] + Join(rest, [sep]) by {
          assert ([""] + rest)[1..] == rest;
        }
        [""] + rest
      else
        var r := [[s[0]] + rest[0]] + rest[1..];
        assert Join(r, [sep]) == [s[0]] + Join(rest, [sep]) by {
          if |rest| > 1 {
            assert r[1..] == rest[1..];
          }
        }
        r
  }

  /** A string that holds the separator splits into at least two pieces. */
  lemma {:induction false} SplitAtSeparator(s: string, sep: char, i: int)
    requires 0 <= i < |s| && s[i] == sep
    ensures |Split(s, sep)| >= 2
    decreases i
  {
    if s[0] != sep {
      assert s[1..][i - 1] == sep;
      SplitAtSeparator(s[1..], sep, i - 1);
    }
  }

  /** A string without the separator splits into itself. */
  lemma {:induction false} SplitNoSeparator(a: string, sep: char)
    requires sep !in a
    ensures Split(a, sep) == [a]
    decreases |a|
  {
    if |a| > 0 {
      SplitNoSeparator(a[1..], sep);
      assert [a[0]] + a[1..] == a;
    }
  }

  /** Splitting `a + sep + b` where `a` has no separator yields `a`
      followed by the pieces of `b`. */
  lemma {:induction false} SplitAfterPiece(a: string, sep: char, b: string)
    requires sep !in a
    ensures Split(a + [sep] + b, sep) == [a] + Split(b, sep)
    decreases |a|
  {
    var s := a + [sep] + b;
    if |a| == 0 {
      assert s[1..] == b;
    } else {
      assert s[1..] == a[1..] + [sep] + b;
      SplitAfterPiece(a[1..], sep, b);
      assert [a[0]] + a[1..] == a;
    }
  }

  /** `split` inverts `join` when no piece contains the separator. */
  lemma {:induction false} SplitJoin(parts: seq<string>, sep: char)
    requires |parts| >= 1
    requires forall i :: 0 <= i < |parts| ==> sep !in parts[i]
    ensures Split(Join(parts, [sep]), sep) == parts
    decreases |parts|
  {
    if |parts| == 1 {
      SplitNoSeparator(parts[0], sep);
    } else {
      SplitJoin(parts[1..], sep);
      SplitAfterPiece(parts[0], sep, Join(parts[1..], [sep]));
      assert [parts[0]] + parts[1..] == parts;
    }
  }

  /** Splitting at a separator splits the two sides independently. */
  lemma {:induction false} SplitConcat(a: string, sep: char, b: string)
    ensures Split(a + [sep] + b, sep) == Split(a, sep) + Split(b, sep)
    decreases |a|
  {
    var s := a + [sep] + b;
    if |a| == 0 {
      assert s[1..] == b;
    } else {
      assert s[0] == a[0] && s[1..] == a[1..] + [sep] + b;
      SplitConcat(a[1..], sep, b);
    }
  }

  /** Joining one more piece appends the separator and the piece. */
  lemma {:induction false} JoinSnoc(parts: seq<string>, sep: string, p: string)
    requires |parts| >= 1
    ensures Join(parts + [p], sep) == Join(parts, sep) + sep + p
    decreases |parts|
  {
    if |parts| > 1 {
      assert (parts + [p])[1..] == parts[1..] + [p];
      JoinSnoc(parts[1..], sep, p);
    }
  }

  /** Every character of a piece occurs in the joined string. */
  lemma {:induction false} JoinHasPart(parts: seq<string>, sep: string, j: int, c: char)
    requires 0 <= j < |parts| && c in parts[j]
    ensures c in Join(parts, sep)
    decreases |parts|
  {
    if j > 0 {
      JoinHasPart(parts[1..], sep, j - 1, c);
    }
  }

  /** Trimming keeps only characters of the original. */
  lemma TrimChars(s: string, c: char)
    requires c in Trim(s)
    ensures c in s
  {
    var r := Trim(s);
    var i :| OccursAt(s, r, i);
    var k :| 0 <= k < |r| && r[k] == c;
    assert s[i + k] == c;
  }

  /** The characters `String.prototype.trim` removes: the ECMAScript
      WhiteSpace and LineTerminator code points. */
  predicate IsJsSpace(c: char) {
    ('\U{9}' <= c <= '\U{D}') || c == ' ' || c == '\U{A0}' || c == '\U{1680}'
    || ('\U{2000}' <= c <= '\U{200A}') || c == '\U{2028}' || c == '\U{2029}'
    || c == '\U{202F}' || c == '\U{205F}' || c == '\U{3000}' || c == '\U{FEFF}'
  }

  /** `s` with its leading white space removed. */
  function TrimStart(s: string): (r: string)
    ensures |r| <= |s| && r == s[|s| - |r|..]
    ensures forall k :: 0 <= k < |s| - |r| ==> IsJsSpace(s[k])
    ensures |r| > 0 ==> !IsJsSpace(r[0])
    decreases |s|
  {
    if |s| > 0 && IsJsSpace(s[0]) then TrimStart(s[1..]) else s
  }

  /** `s` with its trailing white space removed. */
  function TrimEnd(s: string): (r: string)
    ensures |r| <= |s| && r == s[..|r|]
    ensures forall k :: |r| <= k < |s| ==> IsJsSpace(s[k])
    ensures |r| > 0 ==> !IsJsSpace(r[|r| - 1])
    decreases |s|
  {
    if |s| > 0 && IsJsSpace(s[|s| - 1]) then TrimEnd(s[..|s| - 1]) else s
  }

  /** `s.trim()`: the longest infix of `s` that neither starts nor ends
      with white space, obtained by dropping only white space. */
  function Trim(s: string): (r: string)
    ensures |r| > 0 ==> !IsJsSpace(r[0]) && !IsJsSpace(r[|r| - 1])
    ensures exists i :: (OccursAt(s, r, i)
                         && (forall k :: 0 <= k < i ==> IsJsSpace(s[k]))
                         && (forall k :: i + |r| <= k < |s| ==> IsJsSpace(s[k])))
  {
    var t := TrimStart(s);
    var r := TrimEnd(t);
    var i := |s| - |t|;
    assert OccursAt(s, r, i);
    r
  }

  /** A string of white space trims to nothing. */
  lemma TrimBlank(s: string)
    requires forall k :: 0 <= k < |s| ==> IsJsSpace(s[k])
    ensures Trim(s) == ""
  {
  }

  /** A string that neither starts nor ends with white space is its own trim. */
  lemma TrimUnchanged(s: string)
    requires |s| > 0 ==> !IsJsSpace(s[0]) && !IsJsSpace(s[|s| - 1])
    ensures Trim(s) == s
  {
  }

  /** A leading space makes no difference to `trim`. */
  lemma TrimLeadingSpace(s: string)
    ensures Trim(" " + s) == Trim(s)
  {
    assert (" " + s)[1..] == s;
    assert TrimStart(" " + s) == TrimStart(s);
  }

  /** Every character is below U+0080. */
  predicate IsAscii(s: string) {
    forall i :: 0 <= i < |s| ==> (s[i] as int) < 0x80
  }

  /** The decimal digit for `d`. */
  function DigitChar(d: int): char
    requires 0 <= d < 10
  {
    ('0' as int + d) as char
  }

  predicate IsDigit(c: char) {
    '0' <= c <= '9'
  }

  /** The number a string of decimal digits denotes. */
  function DigitsValue(s: string): nat
    requires forall i :: 0 <= i < |s| ==> IsDigit(s[i])
    decreases |s|
  {
    if |s| == 0 then 0
    else
      assert IsDigit(s[|s| - 1]);
      DigitsValue(s[..|s| - 1]) * 10 + (s[|s| - 1] as int - '0' as int)
  }

  /** `String(n)` for a non-negative integer: its shortest decimal form. */
  function NatToString(n: nat): (r: string)
    ensures |r| >= 1
    ensures forall i :: 0 <= i < |r| ==> IsDigit(r[i])
    ensures DigitsValue(r) == n
    ensures r[0] == '0' ==> n == 0
    decreases n
  {
    if n < 10 then [DigitChar(n)]
    else
      var r := NatToString(n / 10) + [DigitChar(n % 10)];
      assert r[..|r| - 1] == NatToString(n / 10);
      r
  }

  /** `String(n)` for an integer. */
  function IntToString(n: int): (r: string)
    ensures |r| >= 1
    ensures n >= 0 <==> r[0] != '-'
  {
    if n >= 0 then NatToString(n) else "-" + NatToString(-n)
  }

  lemma NatToStringAscii(n: nat)
    ensures IsAscii(NatToString(n))
  {
  }

  lemma IntToStringAscii(n: int)
    ensures IsAscii(IntToString(n))
  {
    NatToStringAscii(if n >= 0 then n else -n);
  }
}

=== FILE: utf8.dfy ===
/** Strings as bytes: the UTF-8 encoding `TextEncoder` performs
    (section 3 of RFC 3629), a strict UTF-8 decoder, and the "binary
    string" that `atob` returns, which holds one character per byte.
 */
module Utf8 {
  import opened Results
  import opened Text

  type byte = x: int | 0 <= x < 256

  /** The UTF-8 encoding of one Unicode scalar value. */
  function EncodeChar(c: char): (b: seq<byte>)
    ensures 1 <= |b| <= 4
    ensures |b| == 1 <==> (c as int) < 0x80
    ensures |b| == 1 ==> b[0] == c as int
    ensures forall i :: 0 <= i < |b| && |b| > 1 ==> b[i] >= 0x80
  {
    var n := c as int;
    if n < 0x80 then [n]
    else if n < 0x800 then [0xC0 + n / 64, 0x80 + n % 64]
    else if n < 0x10000 then [0xE0 + n / 4096, 0x80 + (n / 64) % 64, 0x80 + n % 64]
    else [0xF0 + n / 262144, 0x80 + (n / 4096) % 64, 0x80 + (n / 64) % 64, 0x80 + n % 64]
  }

  /** `new TextEncoder().encode(s)` */
  function Encode(s: string): (b: seq<byte>)
    ensures |b| >= |s|
    decreases |s|
  {
    if |s| == 0 then [] else EncodeChar(s[0]) + Encode(s[1..])
  }

  lemma {:induction false} EncodeAppend(a: string, b: string)
    ensures Encode(a + b) == Encode(a) + Encode(b)
    decreases |a|
  {
    if |a| == 0 {
      assert a + b == b;
    } else {
      var ab := a + b;
      assert ab[0] == a[0] && ab[1..] == a[1..] + b;
      EncodeCons(ab);
      EncodeCons(a);
      EncodeAppend(a[1..], b);
    }
  }

  lemma EncodeCons(s: string)
    requires |s| > 0
    ensures Encode(s) == EncodeChar(s[0]) + Encode(s[1..])
  {
  }

  predicate IsContinuation(x: byte) {
    0x80 <= x < 0xC0
  }

  /** The first scalar value of `b` and the number of bytes it occupies,
      or `None` when `b` does not start with a well-formed UTF-8 sequence
      (overlong forms, surrogates and values above U+10FFFF are refused). */
  function DecodeChar(b: seq<byte>): (r: Option<(char, nat)>)
    requires |b| > 0
    ensures r.Some? ==> 1 <= r.value.1 <= |b|
  {
    var b0: int := b[0];
    if b0 < 0x80 then Some((b0 as char, 1))
    else if 0xC2 <= b0 < 0xE0 && |b| >= 2 && IsContinuation(b[1]) then
      var n := (b0 - 0xC0) * 64 + Low6(b[1]);
      Some((n as char, 2))
    else if 0xE0 <= b0 < 0xF0 && |b| >= 3 && IsContinuation(b[1]) && IsContinuation(b[2]) then
      var n := ((b0 - 0xE0) * 64 + Low6(b[1])) * 64 + Low6(b[2]);
      if n < 0x800 || (0xD800 <= n < 0xE000) then None else Some((n as char, 3))
    else if 0xF0 <= b0 < 0xF5 && |b| >= 4
            && IsContinuation(b[1]) && IsContinuation(b[2]) && IsContinuation(b[3]) then
      var n := (((b0 - 0xF0) * 64 + Low6(b[1])) * 64 + Low6(b[2])) * 64 + Low6(b[3]);
      if n < 0x10000 || n >= 0x110000 then None else Some((n as char, 4))
    else None
  }

  /** The six payload bits of a continuation byte. */
  function Low6(x: byte): int
    requires IsContinuation(x)
  {
    x as int - 0x80
  }

  /** `new TextDecoder("utf-8", { fatal: true }).decode(b)`: the string
      whose encoding is `b`, or `None` when `b` is not well-formed UTF-8. */
  function Decode(b: seq<byte>): Option<string>
    decreases |b|
  {
    if |b| == 0 then Some("")
    else
      match DecodeChar(b)
      case None => None
      case Some((c, k)) =>
        match Decode(b[k..])
        case None => None
        case Some(s) => Some([c] + s)
  }

  lemma Split64(n: nat)
    ensures n == (n / 64) * 64 + n % 64
    ensures n / 4096 == (n / 64) / 64
    ensures n / 262144 == (n / 4096) / 64
  {
  }

  /** Decoding reads back exactly the scalar value a character encodes. */
  lemma DecodeEncodeChar(c: char, rest: seq<byte>)
    ensures DecodeChar(EncodeChar(c) + rest) == Some((c, |EncodeChar(c)|))
  {
    var n := c as int;
    if n < 0x80 {
    } else if n < 0x800 {
      DecodeEncodeTwo(c, rest);
    } else if n < 0x10000 {
      DecodeEncodeThree(c, rest);
    } else {
      DecodeEncodeFour(c, rest);
    }
  }

  lemma DecodeEncodeTwo(c: char, rest: seq<byte>)
    requires 0x80 <= c as int < 0x800
    ensures DecodeChar(EncodeChar(c) + rest) == Some((c, |EncodeChar(c)|))
  {
    var n := c as int;
    var b := EncodeChar(c) + rest;
    Split64(n);
    var b0: int := b[0];
    assert b0 == 0xC0 + n / 64 && Low6(b[1]) == n % 64;
    assert (b0 - 0xC0) * 64 + Low6(b[1]) == n;
  }

  lemma DecodeEncodeThree(c: char, rest: seq<byte>)
    requires 0x800 <= c as int < 0x10000
    ensures DecodeChar(EncodeChar(c) + rest) == Some((c, |EncodeChar(c)|))
  {
    var n := c as int;
    var b := EncodeChar(c) + rest;
    Split64(n);
    Split64(n / 64);
    var b0: int := b[0];
    assert b0 == 0xE0 + n / 4096;
    assert (b0 - 0xE0) * 64 + Low6(b[1]) == n / 64;
    assert ((b0 - 0xE0) * 64 + Low6(b[1])) * 64 + Low6(b[2]) == n;
  }

  lemma DecodeEncodeFour(c: char, rest: seq<byte>)
    requires 0x10000 <= c as int
    ensures DecodeChar(EncodeChar(c) + rest) == Some((c, |EncodeChar(c)|))
  {
    var n := c as int;
    var b := EncodeChar(c) + rest;
    Split64(n);
    Split64(n / 64);
    Split64(n / 4096);
    var b0: int := b[0];
    assert b0 == 0xF0 + n / 262144;
    assert (b0 - 0xF0) * 64 + Low6(b[1]) == n / 4096;
    assert ((b0 - 0xF0) * 64 + Low6(b[1])) * 64 + Low6(b[2]) == n / 64;
  }

  /** The strict decoder inverts `TextEncoder` on every string. */
  lemma {:induction false} DecodeEncode(s: string)
    ensures Decode(Encode(s)) == Some(s)
    decreases |s|
  {
    if |s| > 0 {
      var e := EncodeChar(s[0]);
      DecodeEncodeChar(s[0], Encode(s[1..]));
      assert Encode(s)[|e|..] == Encode(s[1..]);
      DecodeEncode(s[1..]);
      assert [s[0]] + s[1..] == s;
    }
  }

  /** The binary string `atob` returns for the bytes `b`: one character
      per byte, with the byte's value as its code point. */
  function BinaryString(b: seq<byte>): (r: string)
    ensures |r| == |b|
    ensures forall i :: 0 <= i < |b| ==> r[i] as int == b[i]
  {
    seq(|b|, i requires 0 <= i < |b| => b[i] as char)
  }

  lemma BinaryStringAppend(a: seq<byte>, b: seq<byte>)
    ensures BinaryString(a + b) == BinaryString(a) + BinaryString(b)
  {
  }

  /** An ASCII string survives being encoded as UTF-8 and read back as a
      binary string. */
  lemma {:induction false} AsciiBinaryString(s: string)
    requires IsAscii(s)
    ensures BinaryString(Encode(s)) == s
    decreases |s|
  {
    if |s| > 0 {
      AsciiBinaryString(s[1..]);
      BinaryStringAppend(EncodeChar(s[0]), Encode(s[1..]));
      assert [s[0]] + s[1..] == s;
    }
  }

  /** A character at or above U+0080 becomes several characters, each at
      or above U+0080, when read back as a binary string. */
  lemma HighCharBinaryString(c: char)
    requires (c as int) >= 0x80
    ensures var r := BinaryString(EncodeChar(c));
            |r| > 1 && forall i :: 0 <= i < |r| ==> (r[i] as int) >= 0x80
  {
  }

  /** What `atob` hands back for a string that was UTF-8 encoded before
      it was base64-encoded: its bytes, one character each. */
  function BinaryView(s: string): (r: string)
    ensures |r| >= |s|
    ensures s == "" ==> r == ""
  {
    BinaryString(Encode(s))
  }

  lemma BinaryViewAppend(a: string, b: string)
    ensures BinaryView(a + b) == BinaryView(a) + BinaryView(b)
  {
    EncodeAppend(a, b);
    BinaryStringAppend(Encode(a), Encode(b));
  }

  /** ASCII text is its own binary view. */
  lemma AsciiBinaryView(s: string)
    requires IsAscii(s)
    ensures BinaryView(s) == s
  {
    AsciiBinaryString(s);
  }

  /** A character at or above U+0080 is not its own binary view: it turns
      into two to four characters, each at or above U+0080. */
  lemma HighCharBinaryView(c: char)
    requires (c as int) >= 0x80
    ensures var r := BinaryView([c]);
            |r| > 1 && forall i :: 0 <= i < |r| ==> (r[i] as int) >= 0x80
  {
    assert Encode([c]) == EncodeChar(c) by {
      assert [c][1..] == [];
    }
    HighCharBinaryString(c);
  }

  /** Text with a character at or above U+0080 takes more bytes than
      characters. */
  lemma {:induction false} EncodeLonger(s: string)
    requires !IsAscii(s)
    ensures |Encode(s)| > |s|
    decreases |s|
  {
    if (s[0] as int) < 0x80 {
      assert !IsAscii(s[1..]) by {
        var i :| 0 <= i < |s| && (s[i] as int) >= 0x80;
        assert s[1..][i - 1] == s[i];
      }
      EncodeLonger(s[1..]);
    }
  }

  /** Only ASCII text is its own binary view. */
  lemma NonAsciiBinaryView(s: string)
    requires !IsAscii(s)
    ensures BinaryView(s) != s
  {
    EncodeLonger(s);
  }
}
